=== FILE: README.md ===
# FormPage page object — a Dafny model

`FormPage` is a Selenium page object for a practice registration form. The
form can appear in the main document, inside an iframe, or inside one or more
shadow roots. This project models the logic of the page object:

- the ordered-fallback element resolver `FindElementSafely`;
- the iframe search loop of `NavigateTo`;
- the regular-DOM field operations: first name, gender and state, each with its
  reader;
- the two shadow-root lookups `FindElementInShadowDOM` and
  `FindElementInNestedShadowDOM`;
- the depth-bounded recursive traversal `findDeepShadowInput`;
- the four shadow-DOM mutators `EnterFirstNameInShadowDOM`,
  `SelectGenderInShadowDOM`, `SelectStateInShadowDOM` and
  `InteractWithNestedShadowDOM`.

The page is modelled as data. In the regular DOM, a page is a sequence of
elements and the driver is an oracle from locators to strategy outcomes. For
the shadow DOM, the document is given by its body: a tree of `Node`s. Each node
has an element, a shadow root (none, open or closed) and light children. An
input's `type` is compared ASCII case-insensitively, as HTML does for
`input[type="..."]` and for the input's behaviour.

Each JavaScript snippet becomes a pure function from the document to the
rewritten document, or to the exception the script throws. A CSS selector is
opaque. It is a `Selector` with its text, whether the browser accepts it, and
an uninterpreted match predicate on elements.

Each mutator runs its three scripts in a fixed order, each in its own try
block. The model returns the final document and the outcome of each script.
The outcomes are Completed, Threw(error) and Skipped. Whether the driver itself
fails on a call is a parameter (`Faults`).

Modules, by file:

| file | module | models |
|---|---|---|
| options.dfy | Options | `Option` and `Result` |
| seqs.dfy | Seqs | first match in a sequence, map, "edits only the first match" |
| text.dfy | Text | `ToLower`, one-character `replace`, `StartsWith("#")` |
| resolver.dfy | Resolver | `FindElementSafely` |
| frames.dfy | Frames | the frame loop of `NavigateTo` |
| controller.dfy | FieldController | the regular-DOM field operations |
| dom.dfy | Dom | the node tree, `querySelector`, `querySelectorAll` loops |
| lookup.dfy | ShadowLookup | `FindElementInShadowDOM`, `FindElementInNestedShadowDOM` |
| deep.dfy | DeepTraversal | `findDeepShadowInput` and its assignment |
| approaches.dfy | Approaches | three try-blocks in a row; host loops over shadow trees |
| mutators.dfy | ShadowMutators | the four shadow-DOM mutators |

Two details of the code deserve a note, because they differ from what a
reader of the method names might expect:

- `traverse` starts at `document.body`, inspects only shadow roots, and
  returns null for a node without one. So a page whose body has no shadow root
  yields null, even when an open host further down holds the target.
- The depth test `depth > maxDepth` is applied before a node's own shadow root
  is queried. Since the body is at depth 0, targets up to `maxDepth + 1` = 6
  shadow levels deep are reached. `DeepTraversal.ChainDepth` proves the exact
  bound.

## Model

| member | source | states |
|---|---|---|
| Resolver.FindElementSafely | FormPage.cs:650-672 | The loop returns the element of the first strategy that both returns an element and passes the displayed-and-enabled wait, having invoked exactly the strategies up to it. If none succeeds, it reports NoSuchElement with the last strategy's exception and all strategies invoked. It agrees with the fold `Resolve`. |
| Resolver.ResolutionUnique | FormPage.cs:650-672 | The resolver's contract determines its outcome: two outcomes that satisfy it are equal. |
| Resolver.LaterStrategiesIrrelevant | FormPage.cs:654-662 | Once a strategy succeeds, strategies appended after it change nothing: the loop returns before reaching them. |
| Resolver.FailedStrategiesFallThrough | FormPage.cs:654-671 | When every strategy of a prefix fails, the result is that of the remaining strategies, with the invocation count shifted by the prefix length. The last exception comes from the suffix when it too fails. |
| Frames.SearchFrames | FormPage.cs:47-92 | The frame loop's switch log is well formed. Iframes are switched to in index order, each switch issued from the context the previous iteration left. |
| Frames.SearchFramesOutcome | FormPage.cs:55-90 | The loop stops at the first iframe whose form is displayed. A switch that throws sends the driver back to the default content. A hidden form leaves the driver inside that frame. |
| Frames.NavigateTo | FormPage.cs:33-92 | A failed load gives no switches. A form in the main document gives no switches and stays in the top document. Otherwise the frame loop's outcome holds from iframe 0. |
| Frames.HiddenFormNestsNextSwitch | FormPage.cs:64-80 | After an iframe whose form is present but hidden, the next `SwitchTo().Frame` is issued from inside that iframe, not from the top document. |
| Frames.HiddenPrefixNestsContexts | FormPage.cs:64-80 | If the first n iframes all hold a hidden form, switch n is issued n frames deep, as `Frame(n-1)` inside … inside `Frame(0)`. |
| FieldController.EnterFirstName | FormPage.cs:107-120 | The resolved first-name field keeps all its state except its value, which becomes exactly the given text, whatever it held before. No other element changes. If resolution fails, NoSuchElement escapes. |
| FieldController.GetFirstNameValue | FormPage.cs:122-132 | It returns the value of the field resolved by the reader's four locators, with a null value read as "". If resolution fails, the error escapes. |
| FieldController.FirstNameListsAgree | FormPage.cs:109-131 | The writer's and the reader's lists resolve the same field, or both fail, unless the id, name and placeholder locators all fail and the label XPath, which only the writer tries, succeeds. |
| FieldController.FirstNameRoundTrip | FormPage.cs:107-132 | When the writer resolves a field and the lists do not part as above, reading after writing returns exactly the written name. |
| FieldController.FirstNameLabelOnlyDiverges | FormPage.cs:109-131 | When only the label XPath finds the field and the CSS selector finds nothing, EnterFirstName types the name into it but GetFirstNameValue then fails with NoSuchElement. |
| FieldController.FirstNameRoundTripById | FormPage.cs:110-125 | When `By.Id("fname")` succeeds, both locator lists resolve it first, so the round trip holds. |
| FieldController.FirstStrategyWins | FormPage.cs:110 | A locator list whose first locator succeeds resolves to that element after one invocation. |
| FieldController.SelectGender | FormPage.cs:134-148 | The resolved element is clicked only when it is not already selected; a selected one leaves the page unchanged. Nothing but the resolved element changes. If resolution fails, the error escapes. |
| FieldController.SelectGenderIdempotent | FormPage.cs:143-146 | Selecting the same gender a second time leaves the page unchanged. |
| FieldController.RepeatedSelectGender | FormPage.cs:143-146 | n ≥ 1 consecutive selections of one gender leave the same page as one selection. |
| FieldController.IsGenderSelected | FormPage.cs:150-165 | It reports whether the radio resolved by IsGenderSelected's own two locators, value XPath first, is selected. It returns false, instead of throwing, when resolution fails. |
| FieldController.GenderListsAgree | FormPage.cs:136-157 | SelectGender's and IsGenderSelected's lists resolve the same radio when the id or the value XPath succeeds and, if both do, they find the same element. |
| FieldController.SelectedGenderIsReported | FormPage.cs:134-165 | Under those conditions, after SelectGender on a radio or checkbox, IsGenderSelected reports true. |
| FieldController.GenderPastReaderNotReported | FormPage.cs:150-165 | When neither the id nor the value XPath succeeds, IsGenderSelected reports false on every page, even where SelectGender found a radio through the span or label XPath. |
| FieldController.GenderIdAndValueDisagree | FormPage.cs:134-165 | When the id and the value XPath find different radios, SelectGender acts on the id's radio while IsGenderSelected reports the value radio's earlier state. |
| FieldController.SelectState | FormPage.cs:167-179 | It succeeds exactly on a resolved select that has an option with the state's text. The selected index then becomes the first such option, and nothing else changes. A missing option or a non-select element is an error. |
| FieldController.GetSelectedState | FormPage.cs:181-197 | It returns the text of the selected option of the resolved select. It returns "" instead of any exception. |
| FieldController.StateListsAgree | FormPage.cs:169-187 | GetSelectedState's list is the start of SelectState's, so when it resolves a field, SelectState's list resolves the same one. |
| FieldController.StateRoundTrip | FormPage.cs:167-197 | After a successful SelectState, GetSelectedState returns the requested state whenever its own id-or-name list resolves a field. |
| FieldController.StatePastReaderNotReported | FormPage.cs:167-197 | A select found only by the label XPath or the CSS selector is set by SelectState, but GetSelectedState returns "". |
| FieldController.SelectStateSucceeds | FormPage.cs:167-179 | SelectState succeeds on a select found by id that has an option with the requested text. |
| ShadowLookup.FindElementInShadowDOM | FormPage.cs:557-631 | Open root: a rejected selector gives null. Otherwise the standard query's hit wins; failing that, the first element in document order that matches or whose id equals the selector minus its first '#', and null exactly when there is none. No visible root: only a '#id' selector can succeed, and it returns the first element in document order with that id, null exactly when there is none. |
| ShadowLookup.Descend | FormPage.cs:639-646 | The descent applies one `shadowRoot.querySelector` per selector, with no null check. A found element matches the last selector. A step from null or from a host without an open root throws TypeError. A rejected selector throws SyntaxError. |
| ShadowLookup.DescendConcat | FormPage.cs:640-643 | Descending along a + b is descending along a, then along b from where it stopped. An exception along a is the result. |
| ShadowLookup.NullStepThrows | FormPage.cs:642 | Once a step finds nothing, any further selector makes the script throw a TypeError instead of returning null. |
| ShadowLookup.SingleStepAgrees | FormPage.cs:564-646 | A one-selector nested lookup that finds an element agrees with FindElementInShadowDOM on the same host. |
| DeepTraversal.Traverse | FormPage.cs:477-491 | A hit matches the selector. A node deeper than maxDepth, or one without an open shadow root, yields null. |
| DeepTraversal.TraverseFindsFirst | FormPage.cs:477-491 | The traversal returns the first match in the inspection order. That order is the host's own shadow tree first, then each of its elements' subtrees in document order. Elements past depth maxDepth are never inspected. |
| DeepTraversal.TraverseSetEdits | FormPage.cs:477-502 | The rewriting traversal assigns to the first inspected match and leaves every other inspected element as it was. |
| DeepTraversal.SetDeepShadowInput | FormPage.cs:476-502 | The script returns true exactly when the hit is an INPUT. When it returns false, the document is unchanged. |
| DeepTraversal.SetDeepShadowInputWrites | FormPage.cs:494-500 | In the inspection order from the body, only the first match can change, and only by taking the value if it is an INPUT. The return value is true iff that first match is an INPUT. |
| DeepTraversal.ChainDepth | FormPage.cs:476-494 | A target n shadow roots below a node at depth d is found exactly when d + n ≤ maxDepth + 1. |
| Approaches.Attempt | FormPage.cs:214-228 | One try block: it completes iff the driver does not fail and the script returns. On any failure, the document is left as the script found it. |
| Approaches.RunAllSplit | FormPage.cs:214-258 | Running a list of approaches is running a prefix, then the rest on the document the prefix left. A failure never cuts the list short. |
| Approaches.RunThreeSteps | FormPage.cs:214-258 | Three approaches give one outcome each, in order. Each runs on the document the previous one left. |
| Approaches.FirstShadowElementSatisfies | FormPage.cs:216-224 | After assigning to the first match in the open shadow tree of every host in the document's light tree, the first match there has the assigned property. |
| Approaches.EveryShadowElementKeepsFirst | FormPage.cs:233-240 | A loop that rewrites every element of every open shadow tree keeps "the first match in each host's tree has property P", provided the rewrite never changes whether an element matches and never takes P away. |
| ShadowMutators.EnterFirstNameInShadowDOMAsWrittenOutcomes | FormPage.cs:203-267 | None of the three first-name scripts, as written, throws on its own. Each completes unless the driver fails on it. |
| ShadowMutators.EnterFirstNameInShadowDOMAsWrittenEffects | FormPage.cs:231-255 | As written, unless the driver fails on it, approach 2 leaves every text input (type compared case-insensitively) of an open shadow tree whose host is in the light DOM holding that host's string conversion, whatever the name. Approach 3, which touches only the light DOM, keeps that and leaves every light-DOM input with id or name `fname` holding the name. |
| ShadowMutators.SecondApproachClobbersName | FormPage.cs:214-255 | On a page with one `shadow-form` whose `#fname` is a text input, approach 1 writes the name into it, and after all three approaches as written it holds the host's string conversion instead. |
| ShadowMutators.EnterFirstNameInShadowDOMOutcomes | FormPage.cs:203-267 | With approach 2 corrected, each script still completes unless the driver fails on it. |
| ShadowMutators.EnterFirstNameInShadowDOMEffects | FormPage.cs:231-255 | With approach 2 corrected to assign the name, unless the driver fails on it, approach 2 leaves every text input (type compared case-insensitively) of an open shadow tree whose host is in the light DOM holding the name. Approach 3 keeps that and leaves every light-DOM input with id or name `fname` holding the name. |
| ShadowMutators.CorrectedSecondApproachKeepsName | FormPage.cs:214-255 | With approach 2 corrected, the page of SecondApproachClobbersName ends with the name in `#fname`. |
| ShadowMutators.FirstNameInEachFormHolds | FormPage.cs:214-225 | On any page, approach 1 leaves the first `#fname` of every open `shadow-form` tree whose host is in the light DOM holding the name. |
| ShadowMutators.EnterFirstNameInShadowDOMForms | FormPage.cs:214-255 | With approach 2 corrected, unless the driver fails on approach 1, that first `#fname` still holds the name after all three approaches: approach 2 writes the same name and approach 3 does not reach shadow trees. |
| ShadowMutators.EnterFirstNameInShadowDOMAsWrittenForms | FormPage.cs:214-255 | As written, unless the driver fails on approach 1, the first `#fname` of every open `shadow-form` tree ends holding the name unless it is a text input, which approach 2 overwrites. |
| ShadowMutators.SelectGenderInShadowDOMOutcomes | FormPage.cs:269-340 | Approaches 2 and 3 complete unless the driver fails. Approach 1 throws SyntaxError exactly when the browser rejects `'#' + gender.toLowerCase()` and an open `shadow-form` exists. |
| ShadowMutators.SelectGenderInShadowDOMEffects | FormPage.cs:295-328 | Unless the driver fails on them, approach 2 checks every radio (type compared case-insensitively) of an open shadow tree whose host is in the light DOM and whose id or value equals the gender case-insensitively. Approach 3 does the same for light-DOM radios, with a missing id or value read as "". |
| ShadowMutators.GenderInEachFormChecks | FormPage.cs:277-289 | On any page where approach 1 returns, the first match of `'#' + gender.toLowerCase()` in every open `shadow-form` tree whose host is in the light DOM ends checked. |
| ShadowMutators.SelectGenderInShadowDOMForms | FormPage.cs:277-328 | When approach 1 completes, those first matches are still checked after all three approaches: approaches 2 and 3 only ever check radios. |
| ShadowMutators.EmptyGenderMatchesUnnamedRadios | FormPage.cs:304-324 | The two matching tests differ on an empty gender. Approach 3 reads a missing id as the empty string and so picks every radio without an id. Approach 2 tests the id for truthiness first and picks none. |
| ShadowMutators.ChooseOptionIgnoresText | FormPage.cs:356-367 | On a select with more than one option, approach 1 ends on index 1 whatever state is requested. |
| ShadowMutators.ChooseOptionHonoursText | FormPage.cs:356-367 | On a select with at most one option, approach 1 selects the option with the requested text if there is one. Otherwise it leaves the select alone. |
| ShadowMutators.SelectStateInShadowDOMForms | FormPage.cs:375-387 | Whatever state is requested: unless the driver fails on approach 2, the first `#state` of every open `shadow-form` tree whose host is in the light DOM ends on index 1 if it is a select with more than one option. Approach 3 does not undo this. |
| ShadowMutators.SelectStateInShadowDOMDirect | FormPage.cs:392-401 | Whatever state is requested: unless the driver fails on approach 3, every light-DOM `select#state` with more than one option ends on index 1. |
| ShadowMutators.StateFormsAfterAnyFirst | FormPage.cs:350-387 | The effect of approach 2 holds whatever approach 1 did. |
| ShadowMutators.InteractWithNestedShadowDOM | FormPage.cs:415-513 | When the unguarded probe script fails, no approach runs and the document is unchanged. Otherwise there are three outcomes. |
| ShadowMutators.InteractWithNestedShadowDOMOutcomes | FormPage.cs:432-507 | After the probe, approach 1 throws exactly when the nested lookup from the outer host, along `shadow-form` and the selector, throws SyntaxError. Approaches 2 and 3 complete unless the driver fails. |
| ShadowMutators.NestedPrimaryThrows | FormPage.cs:433-445 | The guarded two-host script throws exactly when the unguarded nested lookup along the same path rejects the selector. |
| ShadowMutators.NestedPrimaryIdle | FormPage.cs:435-443 | When the nested lookup finds null or throws a TypeError, the guarded script leaves the document unchanged. |
| ShadowMutators.NestedPrimaryWrites | FormPage.cs:435-443 | When the nested lookup finds an element, approach 1 assigns the value to the first match in the inner host's shadow tree and changes nothing else there. The path to that tree survives the assignment. |
| ShadowMutators.NestedSecondaryHolds | FormPage.cs:449-469 | After approach 2, in every shadow tree one host below an open host of the document, the first match holds the value if it is an INPUT. |
| ShadowMutators.NestedSecondaryIdle | FormPage.cs:457-464 | A selector the browser rejects is caught per inner host. Approach 2 completes and changes nothing. |
| ShadowMutators.InteractWithNestedShadowDOMDeep | FormPage.cs:472-507 | Approach 3 assigns only to the first match the deep traversal inspects, in the document the first two approaches left. A driver fault leaves that document as it was. |
| Text.RemoveFirstAt | FormPage.cs:587 | JavaScript `replace('#', '')` with a string pattern removes the first '#' only. |
| Dom.QuerySelectorIsFirst | FormPage.cs:587 | A first-match query returns the earliest element of the tree, in document order, that satisfies the test, and null exactly when none does. |
| Dom.UpdateFirstEdits | FormPage.cs:219-221 | `querySelector` followed by an assignment changes the first match in document order and nothing else. |
| Dom.MapLightFacets | FormPage.cs:233-238 | A `querySelectorAll('*')` loop with an assignment rewrites each light-DOM element in place. It does not change the tree's shape. |

## Left out

- WebDriver mechanics are outside the model. Navigation, `WebDriverWait` polling and timeouts, element handles and `ExecuteScript` marshalling become oracles, outcome values and the `Faults` flags. Waiting is timing, not logic.
- Whether the driver fails on a call is not determined by the page. The `Faults` flags are free parameters, and a faulted script is taken not to have run.
- CSS and XPath semantics are not modelled. A selector's match is an uninterpreted predicate with a validity flag. For gender approach 1, the selector built from `'#' + gender.toLowerCase()` comes from a caller-supplied parser.
- Case conversion covers ASCII letters only. C#'s `ToLower()` uses the current culture, and JavaScript's `toLowerCase` does not. They agree on ASCII letters only under a culture without special casing rules; under tr-TR or az, `"I".ToLower()` is a dotless 'ı'. The model assumes such a culture is not in effect for `By.Id(gender.ToLower())`, and does not model letters outside ASCII.
- The document is modelled as its `body`. `document.querySelectorAll` also returns `html`, `head` and the elements in `head`, before the body. Those cannot host shadow roots, so the host loops lose nothing. The model assumes that `html` and `head` hold no element with the id a closed-root scan looks for, and no `input` or `select` that the light-DOM loops would assign to.
- Shadow trees are reached only through hosts in the document's light tree, as the scripts' `document.querySelectorAll` loops reach them. Every "every open shadow tree" above means such a tree, not one nested inside another shadow tree.
- `String(el)` for a host is an uninterpreted function of the host's tag (`hostText`). It gives the interface name, for example "[object HTMLElement]" for a custom element.
- Closed shadow roots follow the code: `el.shadowRoot` is null for them. Real browser enforcement is not modelled.
- The browser's unchecking of the other radios in a group is not modelled. Setting `checked` affects only the assigned radio.
- FieldController.GenderIdAndValueDisagree: "IsGenderSelected reports the value radio's earlier state" holds only when the two radios are not in one group. When both share a `name`, as a gender pair usually does, clicking the id radio unchecks the value radio, and a browser then reports false.
- The element finder is one fixed oracle, used both before and after a write. This is sound because no locator of the field operations depends on `value`, `checked` or the selected option: they match ids, names, placeholders, labels, values as attributes and tags. So a write never changes which element a locator finds.
- `select.options[j].text` is taken as the option's text with no whitespace normalisation.
- TakeScreenshot, DumpShadowDOMStructure and all console output are diagnostic I/O and are left out. So is the unguarded probe's logging; its failure is the `probeFaulted` flag.
- `FindElementInNestedShadowDOM` splices each selector into the script text inside a single-quoted JavaScript string, while `FindElementInShadowDOM` and the nested mutator's first script pass it as a script argument. The model gives both paths the same parsed `Selector`, so it treats the spliced text as reaching CSS unchanged. That holds only for a selector without a quote, a backslash, CR or LF. A quote or a line break changes or breaks the script text. JavaScript decodes a backslash escape before CSS sees it: `#a\.b` (the id "a.b") arrives as `#a.b` (id "a", class "b"), and `#\31 23` becomes an octal escape that the script rejects. The members below inherit this.
- ShadowLookup.SingleStepAgrees: the agreement with FindElementInShadowDOM holds only for selectors free of quotes, backslashes and line breaks. Other selectors can find different elements on the two paths.
- ShadowMutators.NestedPrimaryThrows: "throws exactly when the nested lookup rejects the selector" holds only for selectors free of quotes, backslashes and line breaks. For others, the spliced lookup can throw where the argument-passed script does not, and the reverse.
- ShadowMutators.NestedPrimaryIdle: its condition is the spliced lookup's result. For a selector with a quote, backslash or line break, that result can differ from the element the argument-passed script finds.
- ShadowMutators.InteractWithNestedShadowDOMOutcomes: approach 1's outcome is stated through the spliced lookup, so for a selector with a quote, backslash or line break it can differ from the script's.
- FieldController.EnterFirstName: `Clear` and `SendKeys` on a read-only or disabled field, or on an element that is not editable at all, throw InvalidElementStateException, and `maxlength` truncates typed text. `SendKeys` also types keystrokes, not a value: code points of Selenium's `Keys` (U+E000 to U+E05D) press special keys, "\n" presses Enter and "\t" presses Tab, which moves the focus so later characters go elsewhere, and a text input drops CR and LF. The element model has none of these attributes and no focus, so the contract promises the full name, unchanged, on any resolved field; "Ann\tLee" would in fact leave "Ann".
- FieldController.FirstNameRoundTrip: promises the name exactly as typed. A name holding CR, LF, Tab or a `Keys` code point reads back differently, for the reasons above.
- FieldController.FirstNameRoundTripById: the same keystroke caveat as FirstNameRoundTrip.
- FieldController.SelectState: models a single select whose options are all enabled. `SelectByText` on a multiple select selects every option with the text, and on a disabled option it throws. The element model has neither attribute.
- Value sanitisation is not modelled. Assigning `value` to an input runs HTML's value sanitisation for its type: text, search, tel and password drop CR and LF; email and url also strip leading and trailing whitespace; number becomes "" unless the text is a valid number; and a non-empty value on a file input throws InvalidStateError. The model stores the assigned string unchanged on every input and never throws on assignment. The members below inherit this.
- DeepTraversal.SetDeepShadowInput: promises true and the assignment for every INPUT hit. A file input in fact makes the script throw, and other types hold the sanitised string.
- DeepTraversal.SetDeepShadowInputWrites: the first match takes the value unsanitised, and a file input is written instead of throwing.
- ShadowMutators.EnterFirstNameInShadowDOMEffects: the text inputs and the light-DOM `fname` inputs hold the name unsanitised. A light-DOM file input with id or name `fname` would make approach 3 throw.
- ShadowMutators.EnterFirstNameInShadowDOMAsWrittenEffects: the light-DOM `fname` inputs hold the name unsanitised, and a file one would make approach 3 throw. The host's string conversion holds no line break, so the text inputs are unaffected.
- ShadowMutators.EnterFirstNameInShadowDOMOutcomes: a file input as the first `#fname` of a `shadow-form`, or among the light-DOM `fname` inputs, would make approach 1 or 3 throw InvalidStateError.
- ShadowMutators.EnterFirstNameInShadowDOMAsWrittenOutcomes: the same file-input exceptions as EnterFirstNameInShadowDOMOutcomes.
- ShadowMutators.FirstNameInEachFormHolds: the first `#fname` holds the name unsanitised; a file input there throws instead.
- ShadowMutators.EnterFirstNameInShadowDOMForms: the same sanitisation caveat as FirstNameInEachFormHolds.
- ShadowMutators.EnterFirstNameInShadowDOMAsWrittenForms: the same sanitisation caveat as FirstNameInEachFormHolds.
- ShadowMutators.GenderInEachFormChecks: requires that the selector's match does not depend on `checked`, which the script sets. A gender such as "x:checked" builds a selector that does.
- ShadowMutators.SelectGenderInShadowDOMForms: the same requirement as GenderInEachFormChecks.
- ShadowMutators.InteractWithNestedShadowDOMOutcomes: approach 1 also throws when the input it finds is a file input and the value is not empty, and approach 3 throws when the traversal's hit is one.
- ShadowMutators.NestedPrimaryWrites: the match takes the value unsanitised; a file input throws instead. Its condition is the spliced lookup's result, which for a selector with a quote, backslash or line break can differ from the argument-passed script's, as for NestedPrimaryIdle.
- ShadowMutators.NestedSecondaryHolds: assumes the selector's match does not depend on the `value` property. CSS matches attributes, and the scripts assign the property. The INPUT holds the value unsanitised; on a file input the assignment throws inside the per-host `try`, so that input keeps its value.
- ShadowMutators.InteractWithNestedShadowDOMDeep: the first match takes the value unsanitised; a file input throws instead, leaving the document as the first two approaches left it.
- The constructor, the URL constant and the NUnit tests are not part of this model. The tests serve only as evidence for the regular-DOM round trips.

## Findings

| source | as written | input that shows it | evidently intended | confidence | as-written member | corrected member |
|---|---|---|---|---|---|---|
| FormPage.cs:233-238 | Approach 2 of EnterFirstNameInShadowDOM assigns `arguments[0]` inside a `forEach(function (el) { ... })` callback. There `arguments[0]` is the host element, so every shadow text input takes `String(el)` and the name is never used. This also overwrites the name approach 1 wrote into a `shadow-form`'s text `#fname`. | A `shadow-form` whose open shadow tree holds a text input with id `fname`, and any name: afterwards the input holds the host's string conversion (SecondApproachClobbersName). | Save the name before the callback, as the gender and nested scripts do, so every such text input holds the name (EnterFirstNameInShadowDOMEffects, CorrectedSecondApproachKeepsName). | not executed | ShadowMutators.EnterFirstNameInShadowDOMAsWritten | ShadowMutators.EnterFirstNameInShadowDOM |

=== FILE: approaches.dfy ===
/** The scaffolding shared by the shadow-DOM mutators: each runs a fixed list of
    scripts ("approaches"), each in its own try block, so that one failing does not
    stop the others; and the two loop shapes those scripts use over the document. */
module Approaches {
  import opened Options
  import opened Seqs
  import opened Dom

  /** How one approach ended. */
  datatype Outcome = Completed | Threw(error: ScriptError) | Skipped

  /** One approach: a script that rewrites the document (given by its body) or throws. */
  type Script = Node -> Result<Node, ScriptError>

  /** The document after a mutator, with how each approach ended. */
  datatype Run = Run(body: Node, outcomes: seq<Outcome>)

  /** Whether the driver itself fails on each of the three script calls, for reasons
      the page does not determine (a lost session, a dropped connection). A faulted
      script is taken not to have run. */
  datatype Faults = Faults(first: bool, second: bool, third: bool)

  function FaultList(f: Faults): seq<bool> {
    [f.first, f.second, f.third]
  }

  /** One approach inside its try block: a failure is caught, logged, and leaves the
      document as the script found it. */
  function Attempt(body: Node, fault: bool, script: Script): (r: (Node, Outcome))
    ensures r.1 != Skipped
    ensures r.1 == Completed <==> !fault && script(body).Ok?
    ensures r.1 == Completed ==> r.0 == script(body).value
    ensures r.1 != Completed ==> r.0 == body
  {
    if fault then (body, Threw(DriverFault))
    else match script(body)
      case Ok(b) => (b, Completed)
      case Err(e) => (body, Threw(e))
  }

  /** The approaches in their fixed order, each on the document the previous ones left. */
  function RunAll(body: Node, faults: seq<bool>, scripts: seq<Script>): (r: Run)
    requires |faults| == |scripts|
    ensures |r.outcomes| == |scripts|
    ensures forall i | 0 <= i < |r.outcomes| :: r.outcomes[i] != Skipped
    decreases |scripts|
  {
    if |scripts| == 0 then Run(body, [])
    else
      var (b, o) := Attempt(body, faults[0], scripts[0]);
      var rest := RunAll(b, faults[1..], scripts[1..]);
      Run(rest.body, [o] + rest.outcomes)
  }

  /** Running a list of approaches is running its first part, then the rest on the
      document the first part left: a failing approach never cuts the list short. */
  lemma {:induction false} RunAllSplit(body: Node, f1: seq<bool>, s1: seq<Script>, f2: seq<bool>, s2: seq<Script>)
    requires |f1| == |s1| && |f2| == |s2|
    ensures var first := RunAll(body, f1, s1);
      var second := RunAll(first.body, f2, s2);
      RunAll(body, f1 + f2, s1 + s2) == Run(second.body, first.outcomes + second.outcomes)
    decreases |s1|
  {
    if |s1| == 0 {
      assert f1 + f2 == f2 && s1 + s2 == s2;
    } else {
      assert (f1 + f2)[0] == f1[0] && (f1 + f2)[1..] == f1[1..] + f2;
      assert (s1 + s2)[0] == s1[0] && (s1 + s2)[1..] == s1[1..] + s2;
      var b := Attempt(body, f1[0], s1[0]).0;
      RunAllSplit(b, f1[1..], s1[1..], f2, s2);
    }
  }

  /** A mutator's three approaches. */
  function RunThree(body: Node, faults: Faults, s1: Script, s2: Script, s3: Script): (r: Run)
    ensures |r.outcomes| == 3
    ensures forall i | 0 <= i < 3 :: r.outcomes[i] != Skipped
  {
    RunAll(body, FaultList(faults), [s1, s2, s3])
  }

  /** Each approach of RunThree runs on the document the earlier ones left, and only
      a completed approach changes it. */
  lemma RunThreeSteps(body: Node, faults: Faults, s1: Script, s2: Script, s3: Script)
    ensures var a1 := Attempt(body, faults.first, s1);
      var a2 := Attempt(a1.0, faults.second, s2);
      var a3 := Attempt(a2.0, faults.third, s3);
      var r := RunThree(body, faults, s1, s2, s3);
      && r.body == a3.0
      && r.outcomes[0] == a1.1
      && r.outcomes[1] == a2.1
      && r.outcomes[2] == a3.1
  {
    var fs := FaultList(faults);
    var ss := [s1, s2, s3];
    var a1 := Attempt(body, faults.first, s1);
    var a2 := Attempt(a1.0, faults.second, s2);
    var a3 := Attempt(a2.0, faults.third, s3);
    assert fs[1..][1..][1..] == [] && ss[1..][1..][1..] == [];
    assert RunAll(a3.0, [], []) == Run(a3.0, []);
    assert RunAll(a2.0, [faults.third], [s3]) == Run(a3.0, [a3.1]);
    assert RunAll(a1.0, [faults.second, faults.third], [s2, s3]) == Run(a3.0, [a2.1, a3.1]);
  }

  /** For every element of the document matching `isHost` whose shadow root is open,
      rewrite its shadow tree with `g`: a loop over the hosts found by
      `document.querySelectorAll`, which does not enter shadow trees. */
  function InShadowOf(isHost: Element -> bool, g: seq<Node> -> seq<Node>): Facet -> Facet {
    (fa: Facet) => if isHost(fa.el) && fa.shadow.Open? then fa.(shadow := Open(g(fa.shadow.roots))) else fa
  }

  function ForEachHost(body: Node, isHost: Element -> bool, g: seq<Node> -> seq<Node>): Node {
    MapLight([body], InShadowOf(isHost, g))[0]
  }

  /** As InShadowOf, with a rewrite chosen per host: the loop body of a
      `forEach(function (el) { ... })` callback, which sees the host element. */
  function InShadowOfEach(isHost: Element -> bool, g: Element -> (seq<Node> -> seq<Node>)): Facet -> Facet {
    (fa: Facet) => if isHost(fa.el) && fa.shadow.Open? then fa.(shadow := Open(g(fa.el)(fa.shadow.roots))) else fa
  }

  function ForEachHostWith(body: Node, isHost: Element -> bool, g: Element -> (seq<Node> -> seq<Node>)): Node {
    MapLight([body], InShadowOfEach(isHost, g))[0]
  }

  /** An assignment to every element of the document's light tree. */
  function LightEdit(body: Node, e: Element -> Element): Node {
    MapLight([body], Lift(e))[0]
  }

  lemma ForEachHostFacets(body: Node, isHost: Element -> bool, g: seq<Node> -> seq<Node>)
    ensures Facets([ForEachHost(body, isHost, g)]) == Map(Facets([body]), InShadowOf(isHost, g))
  {
    var r := MapLight([body], InShadowOf(isHost, g));
    MapLightFacets([body], InShadowOf(isHost, g));
    assert r == [r[0]];
  }

  lemma ForEachHostWithFacets(body: Node, isHost: Element -> bool, g: Element -> (seq<Node> -> seq<Node>))
    ensures Facets([ForEachHostWith(body, isHost, g)]) == Map(Facets([body]), InShadowOfEach(isHost, g))
  {
    var r := MapLight([body], InShadowOfEach(isHost, g));
    MapLightFacets([body], InShadowOfEach(isHost, g));
    assert r == [r[0]];
  }

  lemma LightEditFacets(body: Node, e: Element -> Element)
    ensures Facets([LightEdit(body, e)]) == Map(Facets([body]), Lift(e))
  {
    var r := MapLight([body], Lift(e));
    MapLightFacets([body], Lift(e));
    assert r == [r[0]];
  }

  /** Every element is a host for `document.querySelectorAll('*')` loops. */
  function AnyElement(): Element -> bool {
    (e: Element) => true
  }

  /** Assign to every element of a shadow tree (a `querySelectorAll` of a shadow root
      with an assignment in the loop body). */
  function EveryShadowElement(h: Element -> Element): seq<Node> -> seq<Node> {
    (roots: seq<Node>) => MapLight(roots, Lift(h))
  }

  /** Assign to every element of a shadow tree, with an assignment chosen by the host. */
  function EveryShadowElementOf(h: Element -> (Element -> Element)): Element -> (seq<Node> -> seq<Node>) {
    (host: Element) => EveryShadowElement(h(host))
  }

  /** Assign to the first element of a shadow tree that satisfies `p`. */
  function FirstShadowElement(p: Element -> bool, h: Element -> Element): seq<Node> -> seq<Node> {
    (roots: seq<Node>) => UpdateFirst(roots, p, Lift(h)).0
  }

  /** `P` holds of every element of every open shadow tree whose host is in the light tree. */
  ghost predicate ShadowsSatisfy(body: Node, P: Element -> bool) {
    forall fa | fa in Facets([body]) && fa.shadow.Open? ::
      forall e | e in Elements(fa.shadow.roots) :: P(e)
  }

  /** `P(host, e)` holds of every element `e` of the open shadow tree of every host
      of the light tree. */
  ghost predicate ShadowsSatisfyPerHost(body: Node, P: (Element, Element) -> bool) {
    forall fa | fa in Facets([body]) && fa.shadow.Open? ::
      forall e | e in Elements(fa.shadow.roots) :: P(fa.el, e)
  }

  /** `P` holds of every element of the light tree. */
  ghost predicate LightSatisfies(body: Node, P: Element -> bool) {
    forall e | e in Elements([body]) :: P(e)
  }

  /** In the shadow tree of every open host matching `isHost`, the first element that
      satisfies `p`, if any, also satisfies `P`. */
  ghost predicate FirstInHostsSatisfies(body: Node, isHost: Element -> bool, p: Element -> bool, P: Element -> bool) {
    forall fa | fa in Facets([body]) && isHost(fa.el) && fa.shadow.Open? ::
      var hit := First(Elements(fa.shadow.roots), p);
      hit.Some? ==> P(hit.value)
  }

  /** An assignment after which `P` always holds, made to every element of every
      open shadow tree, leaves `P` true of all of them. */
  lemma EveryShadowElementSatisfies(body: Node, h: Element -> Element, P: Element -> bool)
    requires forall e :: P(h(e))
    ensures ShadowsSatisfy(ForEachHost(body, AnyElement(), EveryShadowElement(h)), P)
  {
    var after := ForEachHost(body, AnyElement(), EveryShadowElement(h));
    var hs := InShadowOf(AnyElement(), EveryShadowElement(h));
    ForEachHostFacets(body, AnyElement(), EveryShadowElement(h));
    forall fa | fa in Facets([after]) && fa.shadow.Open?
      ensures forall e | e in Elements(fa.shadow.roots) :: P(e)
    {
      var i :| 0 <= i < |Facets([after])| && Facets([after])[i] == fa;
      var old_ := Facets([body])[i];
      assert fa == hs(old_);
      MapLightElements(old_.shadow.roots, h);
    }
  }

  /** EveryShadowElementSatisfies for an assignment that depends on the host: after
      it, `P(host, e)` holds of every element `e` of each host's open shadow tree. */
  lemma EveryShadowElementSatisfiesPerHost(body: Node, h: Element -> (Element -> Element), P: (Element, Element) -> bool)
    requires forall host, e :: P(host, h(host)(e))
    ensures ShadowsSatisfyPerHost(ForEachHostWith(body, AnyElement(), EveryShadowElementOf(h)), P)
  {
    var g := EveryShadowElementOf(h);
    var after := ForEachHostWith(body, AnyElement(), g);
    ForEachHostWithFacets(body, AnyElement(), g);
    forall fa | fa in Facets([after]) && fa.shadow.Open?
      ensures forall e | e in Elements(fa.shadow.roots) :: P(fa.el, e)
    {
      var before := MapMember(Facets([body]), InShadowOfEach(AnyElement(), g), fa);
      assert fa.el == before.el && fa.shadow.roots == MapLight(before.shadow.roots, Lift(h(before.el)));
      MapLightElements(before.shadow.roots, h(before.el));
    }
  }

  /** An assignment to the light tree never reaches into shadow trees. */
  lemma LightEditKeepsShadows(body: Node, e: Element -> Element, P: Element -> bool)
    requires ShadowsSatisfy(body, P)
    ensures ShadowsSatisfy(LightEdit(body, e), P)
  {
    LightEditFacets(body, e);
    var fs := Facets([body]);
    assert forall i | 0 <= i < |fs| :: Facets([LightEdit(body, e)])[i].shadow == fs[i].shadow;
  }

  /** An assignment to the light tree that keeps what `P` asks of a host never
      disturbs a per-host property of the shadow trees. */
  lemma LightEditKeepsShadowsPerHost(body: Node, e: Element -> Element, P: (Element, Element) -> bool)
    requires ShadowsSatisfyPerHost(body, P)
    requires forall host, x {:trigger P(e(host), x)} :: P(e(host), x) == P(host, x)
    ensures ShadowsSatisfyPerHost(LightEdit(body, e), P)
  {
    LightEditFacets(body, e);
    var fs := Facets([body]);
    assert forall i | 0 <= i < |fs| :: Facets([LightEdit(body, e)])[i] == Lift(e)(fs[i]);
  }

  lemma LightEditKeepsHosts(body: Node, e: Element -> Element, isHost: Element -> bool, p: Element -> bool, P: Element -> bool)
    requires FirstInHostsSatisfies(body, isHost, p, P)
    requires forall x {:trigger e(x)} :: isHost(e(x)) == isHost(x)
    ensures FirstInHostsSatisfies(LightEdit(body, e), isHost, p, P)
  {
    LightEditFacets(body, e);
    var fs := Facets([body]);
    assert forall i | 0 <= i < |fs| :: Facets([LightEdit(body, e)])[i] == Lift(e)(fs[i]);
  }

  /** An assignment after which `P` always holds, made to every element of the light
      tree, leaves `P` true of all of them. */
  lemma LightEditSatisfies(body: Node, h: Element -> Element, P: Element -> bool)
    requires forall e :: P(h(e))
    ensures LightSatisfies(LightEdit(body, h), P)
  {
    LightEditFacets(body, h);
    MapLightElements([body], h);
    var r := MapLight([body], Lift(h));
    assert r == [r[0]];
  }

  /** If the assignment keeps `p` and establishes `P`, then after assigning to the first
      match of `p` in every host's shadow tree, the first match there satisfies `P`. */
  lemma FirstShadowElementSatisfies(body: Node, isHost: Element -> bool, p: Element -> bool, h: Element -> Element, P: Element -> bool)
    requires forall e {:trigger h(e)} :: p(h(e)) == p(e) && P(h(e))
    ensures FirstInHostsSatisfies(ForEachHost(body, isHost, FirstShadowElement(p, h)), isHost, p, P)
  {
    var g := FirstShadowElement(p, h);
    var after := ForEachHost(body, isHost, g);
    ForEachHostFacets(body, isHost, g);
    forall fa | fa in Facets([after]) && isHost(fa.el) && fa.shadow.Open?
      ensures var hit := First(Elements(fa.shadow.roots), p); hit.Some? ==> P(hit.value)
    {
      var before := MapMember(Facets([body]), InShadowOf(isHost, g), fa);
      HostAfter(before, fa, isHost, g);
      FirstInOneTree(before.shadow.roots, p, h, P);
    }
  }

  lemma HostAfter(before: Facet, after: Facet, isHost: Element -> bool, g: seq<Node> -> seq<Node>)
    requires after == InShadowOf(isHost, g)(before)
    requires isHost(after.el) && after.shadow.Open?
    ensures before.shadow.Open? && after.shadow.roots == g(before.shadow.roots)
  {
  }

  lemma FirstInOneTree(roots: seq<Node>, p: Element -> bool, h: Element -> Element, P: Element -> bool)
    requires forall e {:trigger h(e)} :: p(h(e)) == p(e) && P(h(e))
    ensures var hit := First(Elements(FirstShadowElement(p, h)(roots)), p);
      hit.Some? ==> P(hit.value)
  {
    var edited := UpdateFirst(roots, p, Lift(h)).0;
    UpdateFirstEdits(roots, p, Lift(h));
    EditsFirstMap(Facets(roots), Facets(edited), OnFacet(p), Lift(h), ElementOf, p, h);
    EditsFirstKeepsFirst(Elements(roots), Elements(edited), p, h);
  }

  /** An assignment to every element of a tree that keeps `p`, and keeps `P` where it
      held, keeps `P` true of the tree's first match of `p`. */
  lemma FirstKeptInTree(roots: seq<Node>, p: Element -> bool, h: Element -> Element, P: Element -> bool)
    requires var hit := First(Elements(roots), p); hit.Some? ==> P(hit.value)
    requires forall e {:trigger h(e)} :: p(h(e)) == p(e) && (P(e) ==> P(h(e)))
    ensures var hit := First(Elements(MapLight(roots, Lift(h))), p); hit.Some? ==> P(hit.value)
  {
    var xs := Elements(roots);
    MapLightElements(roots, h);
    FirstIndexMap(xs, h, p, p);
    var k := FirstIndex(xs, p);
    if k.Some? {
      assert Map(xs, h)[k.value] == h(xs[k.value]);
    }
  }

  /** After an assignment to every element of every open shadow tree that keeps `p`,
      and keeps `P` where it held, the first match of `p` in each host's tree still
      satisfies `P`. */
  lemma EveryShadowElementKeepsFirst(body: Node, isHost: Element -> bool, p: Element -> bool, h: Element -> Element, P: Element -> bool)
    requires FirstInHostsSatisfies(body, isHost, p, P)
    requires forall e {:trigger h(e)} :: p(h(e)) == p(e) && (P(e) ==> P(h(e)))
    ensures FirstInHostsSatisfies(ForEachHost(body, AnyElement(), EveryShadowElement(h)), isHost, p, P)
  {
    var g := EveryShadowElement(h);
    var after := ForEachHost(body, AnyElement(), g);
    ForEachHostFacets(body, AnyElement(), g);
    forall fa | fa in Facets([after]) && isHost(fa.el) && fa.shadow.Open?
      ensures var hit := First(Elements(fa.shadow.roots), p); hit.Some? ==> P(hit.value)
    {
      var before := MapMember(Facets([body]), InShadowOf(AnyElement(), g), fa);
      HostAfter(before, fa, AnyElement(), g);
      assert before.el == fa.el;
      FirstKeptInTree(before.shadow.roots, p, h, P);
    }
  }

  /** EveryShadowElementKeepsFirst for an assignment chosen by the host. */
  lemma EveryShadowElementOfKeepsFirst(body: Node, isHost: Element -> bool, p: Element -> bool, h: Element -> (Element -> Element), P: Element -> bool)
    requires FirstInHostsSatisfies(body, isHost, p, P)
    requires forall host, e :: p(h(host)(e)) == p(e) && (P(e) ==> P(h(host)(e)))
    ensures FirstInHostsSatisfies(ForEachHostWith(body, AnyElement(), EveryShadowElementOf(h)), isHost, p, P)
  {
    var g := EveryShadowElementOf(h);
    var after := ForEachHostWith(body, AnyElement(), g);
    ForEachHostWithFacets(body, AnyElement(), g);
    forall fa | fa in Facets([after]) && isHost(fa.el) && fa.shadow.Open?
      ensures var hit := First(Elements(fa.shadow.roots), p); hit.Some? ==> P(hit.value)
    {
      var before := MapMember(Facets([body]), InShadowOfEach(AnyElement(), g), fa);
      assert before.shadow.Open? && before.el == fa.el;
      assert fa.shadow.roots == MapLight(before.shadow.roots, Lift(h(before.el)));
      FirstKeptInTree(before.shadow.roots, p, h(before.el), P);
    }
  }

  /** Rewrite, with `g`, the shadow tree of every element of a shadow tree that has an
      open shadow root of its own: the inner loop of a two-level host walk. */
  function InnerHosts(g: seq<Node> -> seq<Node>): seq<Node> -> seq<Node> {
    (roots: seq<Node>) => MapLight(roots, InShadowOf(AnyElement(), g))
  }

  /** In every shadow tree one level below an open host of the document, the first
      element that satisfies `p`, if any, also satisfies `P`. */
  ghost predicate FirstInInnerHostsSatisfies(body: Node, p: Element -> bool, P: Element -> bool) {
    forall fa | fa in Facets([body]) && fa.shadow.Open? ::
      forall ga | ga in Facets(fa.shadow.roots) && ga.shadow.Open? ::
        var hit := First(Elements(ga.shadow.roots), p);
        hit.Some? ==> P(hit.value)
  }

  /** FirstShadowElementSatisfies, one level of hosts further down. */
  lemma InnerFirstShadowElementSatisfies(body: Node, p: Element -> bool, h: Element -> Element, P: Element -> bool)
    requires forall e {:trigger h(e)} :: p(h(e)) == p(e) && P(h(e))
    ensures FirstInInnerHostsSatisfies(ForEachHost(body, AnyElement(), InnerHosts(FirstShadowElement(p, h))), p, P)
  {
    var g := InnerHosts(FirstShadowElement(p, h));
    var after := ForEachHost(body, AnyElement(), g);
    ForEachHostFacets(body, AnyElement(), g);
    forall fa | fa in Facets([after]) && fa.shadow.Open?
      ensures forall ga | ga in Facets(fa.shadow.roots) && ga.shadow.Open? ::
        var hit := First(Elements(ga.shadow.roots), p);
        hit.Some? ==> P(hit.value)
    {
      var before := MapMember(Facets([body]), InShadowOf(AnyElement(), g), fa);
      HostAfter(before, fa, AnyElement(), g);
      InnerTreesSatisfy(before.shadow.roots, p, h, P);
    }
  }

  lemma InnerTreesSatisfy(roots: seq<Node>, p: Element -> bool, h: Element -> Element, P: Element -> bool)
    requires forall e {:trigger h(e)} :: p(h(e)) == p(e) && P(h(e))
    ensures forall ga | ga in Facets(InnerHosts(FirstShadowElement(p, h))(roots)) && ga.shadow.Open? ::
      var hit := First(Elements(ga.shadow.roots), p);
      hit.Some? ==> P(hit.value)
  {
    var g := FirstShadowElement(p, h);
    var after := MapLight(roots, InShadowOf(AnyElement(), g));
    assert InnerHosts(g)(roots) == after;
    MapLightFacets(roots, InShadowOf(AnyElement(), g));
    forall ga | ga in Facets(after) && ga.shadow.Open?
      ensures var hit := First(Elements(ga.shadow.roots), p); hit.Some? ==> P(hit.value)
    {
      var before := MapMember(Facets(roots), InShadowOf(AnyElement(), g), ga);
      HostAfter(before, ga, AnyElement(), g);
      FirstInOneTree(before.shadow.roots, p, h, P);
    }
  }
}

=== FILE: controller.dfy ===
/** The regular-DOM field operations of the page object. Each resolves its element
    with FindElementSafely over a fixed, field-specific list of locators, then reads
    or changes that element. The driver is an oracle from locator to attempt. */
module FieldController {
  import opened Options
  import opened Seqs
  import opened Text
  import opened Resolver
  import opened Dom

  /** The locator kinds the page object uses (Selenium's By.Id, By.Name, By.XPath, By.CssSelector). */
  datatype Locator = ById(id: string) | ByName(name: string) | ByXPath(xpath: string) | ByCss(css: string)

  /** A live element handle: an index into the page. */
  type Handle = nat

  /** The regular-DOM elements the locators can return, by handle. */
  type Page = seq<Element>

  /** The driver: what invoking `FindElement(locator)` followed by the Displayed &&
      Enabled wait yields. Exceptions are represented by their messages. */
  type Finder = Locator -> Attempt<Handle, string>

  /** The exceptions the write operations let escape. */
  datatype FieldError =
    | NotFound(inner: Option<Failure<string>>)  // NoSuchElementException from FindElementSafely
    | UnexpectedTagName(tag: string)            // new SelectElement(e) on an element that is not a select
    | NoOptionWithText(text: string)            // SelectByText found no option with that text

  /** The locators EnterFirstName and GetFirstNameValue both try first, in the same order. */
  function FirstNameSharedLocators(): seq<Locator> {
    [ ById("fname"),
      ByName("First Name"),
      ByXPath("//input[@placeholder='Name']") ]
  }

  function FirstNameLabelLocator(): Locator {
    ByXPath("//label[contains(text(), 'First Name')]/following::input[1]")
  }

  function FirstNameCssLocator(): Locator {
    ByCss("input[placeholder*='Name']")
  }

  function FirstNameWriteLocators(): seq<Locator> {
    FirstNameSharedLocators() + [FirstNameLabelLocator(), FirstNameCssLocator()]
  }

  /** GetFirstNameValue's list: the label-relative XPath is missing. */
  function FirstNameReadLocators(): seq<Locator> {
    FirstNameSharedLocators() + [FirstNameCssLocator()]
  }

  /** Position of the gender radio after the Gender label: Male 1, Female 2, anything else 3. */
  function GenderPosition(gender: string): (r: nat)
    ensures 1 <= r <= 3
  {
    if gender == "Male" then 1 else if gender == "Female" then 2 else 3
  }

  function GenderValueXPath(gender: string): string {
    "//input[@type='radio'][@value='" + gender + "']"
  }

  function GenderIdLocator(gender: string): Locator {
    ById(ToLower(gender))
  }

  function GenderValueLocator(gender: string): Locator {
    ByXPath(GenderValueXPath(gender))
  }

  function GenderSelectLocators(gender: string): seq<Locator> {
    [ GenderIdLocator(gender),
      GenderValueLocator(gender),
      ByXPath("//span[text()='" + gender + "']/preceding-sibling::input[@type='radio']"),
      ByXPath("//label[contains(text(), 'Gender')]/following::input[@type='radio'][" + DigitText(GenderPosition(gender)) + "]") ]
  }

  /** IsGenderSelected's list: the value XPath comes before the id. */
  function GenderCheckLocators(gender: string): seq<Locator> {
    [ GenderValueLocator(gender), GenderIdLocator(gender) ]
  }

  /** SelectState's list: GetSelectedState's two locators, then two more. */
  function StateSelectLocators(): seq<Locator> {
    StateReadLocators() + StateFallbackLocators()
  }

  function StateReadLocators(): seq<Locator> {
    [ ById("state"), ByName("State") ]
  }

  function StateFallbackLocators(): seq<Locator> {
    [ ByXPath("//label[contains(text(), 'State')]/following::select[1]"),
      ByCss("select.form-control") ]
  }

  /** FindElementSafely over the strategies `() => driver.FindElement(locator)`. */
  function Locate(finder: Finder, locators: seq<Locator>): Resolution<Handle, string> {
    Resolve(Map(locators, finder))
  }

  /** The driver only hands out handles of elements on the page. */
  ghost predicate Live(page: Page, finder: Finder, locators: seq<Locator>) {
    forall i | 0 <= i < |locators| :: finder(locators[i]).Found? ==> finder(locators[i]).element < |page|
  }

  lemma LocateIsLive(page: Page, finder: Finder, locators: seq<Locator>)
    requires Live(page, finder, locators)
    ensures Locate(finder, locators).Resolved? ==> Locate(finder, locators).element < |page|
  {
    var r := Locate(finder, locators);
    if r.Resolved? {
      assert Map(locators, finder)[r.invoked - 1] == finder(locators[r.invoked - 1]);
    }
  }

  /** IWebElement.Clear then SendKeys: keys are typed after whatever the field holds. */
  function Clear(e: Element): Element {
    e.(value := Some(""))
  }

  function SendKeys(e: Element, keys: string): Element {
    e.(value := Some(e.value.GetOr("") + keys))
  }

  /** IWebElement.Click on form controls: a radio becomes checked, a checkbox toggles,
      anything else keeps its state. */
  function Click(e: Element): (r: Element)
    ensures IsInputOfType(e, "radio") ==> r.checked
    ensures IsInputOfType(e, "checkbox") ==> r.checked == !e.checked
  {
    if IsInputOfType(e, "radio") then e.(checked := true)
    else if IsInputOfType(e, "checkbox") then e.(checked := !e.checked)
    else e
  }

  /** EnterFirstName: clear the resolved field and type `firstName` into it. */
  function EnterFirstName(page: Page, finder: Finder, firstName: string): (r: Result<Page, FieldError>)
    requires Live(page, finder, FirstNameWriteLocators())
    ensures var loc := Locate(finder, FirstNameWriteLocators());
      loc.NoSuchElement? ==> r == Err(NotFound(loc.inner))
    ensures var loc := Locate(finder, FirstNameWriteLocators());
      loc.Resolved? ==>
        && r.Ok? && |r.value| == |page| && loc.element < |page|
        && r.value[loc.element] == page[loc.element].(value := Some(firstName))
        && forall h | 0 <= h < |page| && h != loc.element :: r.value[h] == page[h]
  {
    LocateIsLive(page, finder, FirstNameWriteLocators());
    match Locate(finder, FirstNameWriteLocators())
    case NoSuchElement(inner, _) => Err(NotFound(inner))
    case Resolved(h, _) =>
      assert "" + firstName == firstName;
      Ok(page[h := SendKeys(Clear(page[h]), firstName)])
  }

  /** GetFirstNameValue: the value of the resolved field, "" for null. Resolution
      failure is not caught. */
  function GetFirstNameValue(page: Page, finder: Finder): (r: Result<string, FieldError>)
    requires Live(page, finder, FirstNameReadLocators())
    ensures var loc := Locate(finder, FirstNameReadLocators());
      loc.NoSuchElement? ==> r == Err(NotFound(loc.inner))
    ensures var loc := Locate(finder, FirstNameReadLocators());
      loc.Resolved? ==>
        && loc.element < |page| && r.Ok?
        && (page[loc.element].value.Some? ==> r.value == page[loc.element].value.value)
        && (page[loc.element].value.None? ==> r.value == "")
  {
    LocateIsLive(page, finder, FirstNameReadLocators());
    match Locate(finder, FirstNameReadLocators())
    case NoSuchElement(inner, _) => Err(NotFound(inner))
    case Resolved(h, _) => Ok(page[h].value.GetOr(""))
  }

  /** SelectGender: click the resolved radio only if it is not already selected. */
  function SelectGender(page: Page, finder: Finder, gender: string): (r: Result<Page, FieldError>)
    requires Live(page, finder, GenderSelectLocators(gender))
    ensures var loc := Locate(finder, GenderSelectLocators(gender));
      loc.NoSuchElement? ==> r == Err(NotFound(loc.inner))
    ensures var loc := Locate(finder, GenderSelectLocators(gender));
      loc.Resolved? ==>
        && loc.element < |page| && r.Ok? && |r.value| == |page|
        && (page[loc.element].checked ==> r.value == page)
        && (!page[loc.element].checked ==> r.value == page[loc.element := Click(page[loc.element])])
  {
    LocateIsLive(page, finder, GenderSelectLocators(gender));
    match Locate(finder, GenderSelectLocators(gender))
    case NoSuchElement(inner, _) => Err(NotFound(inner))
    case Resolved(h, _) => if page[h].checked then Ok(page) else Ok(page[h := Click(page[h])])
  }

  /** IsGenderSelected: whether the resolved radio is selected; false, not an
      exception, when nothing can be resolved. */
  function IsGenderSelected(page: Page, finder: Finder, gender: string): (r: bool)
    requires Live(page, finder, GenderCheckLocators(gender))
    ensures var loc := Locate(finder, GenderCheckLocators(gender));
      r <==> loc.Resolved? && loc.element < |page| && page[loc.element].checked
  {
    LocateIsLive(page, finder, GenderCheckLocators(gender));
    match Locate(finder, GenderCheckLocators(gender))
    case NoSuchElement(_, _) => false
    case Resolved(h, _) => page[h].checked
  }

  /** SelectElement.SelectByText on a single select: the first option with exactly that text. */
  function SelectState(page: Page, finder: Finder, state: string): (r: Result<Page, FieldError>)
    requires Live(page, finder, StateSelectLocators())
    ensures var loc := Locate(finder, StateSelectLocators());
      loc.NoSuchElement? ==> r == Err(NotFound(loc.inner))
    ensures var loc := Locate(finder, StateSelectLocators());
      loc.Resolved? ==> loc.element < |page|
    ensures var loc := Locate(finder, StateSelectLocators());
      loc.Resolved? && page[loc.element].tag != "select" ==> r == Err(UnexpectedTagName(page[loc.element].tag))
    ensures var loc := Locate(finder, StateSelectLocators());
      loc.Resolved? && page[loc.element].tag == "select" && state !in page[loc.element].options ==>
        r == Err(NoOptionWithText(state))
    ensures var loc := Locate(finder, StateSelectLocators());
      loc.Resolved? && page[loc.element].tag == "select" && state in page[loc.element].options ==> r.Ok?
    ensures var loc := Locate(finder, StateSelectLocators());
      r.Ok? ==>
        && loc.Resolved? && |r.value| == |page| && loc.element < |page|
        && (var e := r.value[loc.element];
            && 0 <= e.selectedIndex < |e.options| && e.options[e.selectedIndex] == state
            && (forall j | 0 <= j < e.selectedIndex :: e.options[j] != state)
            && e == page[loc.element].(selectedIndex := e.selectedIndex))
        && forall h | 0 <= h < |page| && h != loc.element :: r.value[h] == page[h]
  {
    LocateIsLive(page, finder, StateSelectLocators());
    match Locate(finder, StateSelectLocators())
    case NoSuchElement(inner, _) => Err(NotFound(inner))
    case Resolved(h, _) =>
      var e := page[h];
      if e.tag != "select" then Err(UnexpectedTagName(e.tag))
      else match FirstIndex(e.options, (o: string) => o == state)
        case None => Err(NoOptionWithText(state))
        case Some(k) => Ok(page[h := e.(selectedIndex := k)])
  }

  /** GetSelectedState: the text of the selected option; "" instead of any exception
      (nothing resolved, not a select, no option selected). */
  function GetSelectedState(page: Page, finder: Finder): (r: string)
    requires Live(page, finder, StateReadLocators())
    ensures var loc := Locate(finder, StateReadLocators());
      loc.NoSuchElement? ==> r == ""
    ensures var loc := Locate(finder, StateReadLocators());
      loc.Resolved? ==>
        && loc.element < |page|
        && var e := page[loc.element];
           r == if e.tag == "select" && 0 <= e.selectedIndex < |e.options| then e.options[e.selectedIndex] else ""
  {
    LocateIsLive(page, finder, StateReadLocators());
    match Locate(finder, StateReadLocators())
    case NoSuchElement(_, _) => ""
    case Resolved(h, _) =>
      var e := page[h];
      if e.tag == "select" && 0 <= e.selectedIndex < |e.options| then e.options[e.selectedIndex] else ""
  }

  /** A field present in the regular DOM: By.Id finds an element that passes the wait. */
  lemma FirstStrategyWins(finder: Finder, locators: seq<Locator>)
    requires |locators| > 0 && finder(locators[0]).Succeeds()
    ensures Locate(finder, locators) == Resolved(finder(locators[0]).element, 1)
  {
    assert Map(locators, finder)[0] == finder(locators[0]);
  }

  /** The two first-name lists resolve the same field, or both fail, unless every
      shared locator fails and the label-relative XPath, which only the writer
      tries, succeeds. */
  lemma FirstNameListsAgree(finder: Finder)
    requires Locate(finder, FirstNameSharedLocators()).Resolved? || !finder(FirstNameLabelLocator()).Succeeds()
    ensures var w := Locate(finder, FirstNameWriteLocators());
      var r := Locate(finder, FirstNameReadLocators());
      && (w.Resolved? <==> r.Resolved?)
      && (w.Resolved? ==> w.element == r.element)
  {
    var shared := Map(FirstNameSharedLocators(), finder);
    var byLabel := finder(FirstNameLabelLocator());
    var css := finder(FirstNameCssLocator());
    MapConcat(FirstNameSharedLocators(), [FirstNameLabelLocator(), FirstNameCssLocator()], finder);
    MapConcat(FirstNameSharedLocators(), [FirstNameCssLocator()], finder);
    assert Map([FirstNameLabelLocator(), FirstNameCssLocator()], finder) == [byLabel, css];
    assert Map([FirstNameCssLocator()], finder) == [css];
    if Resolve(shared).Resolved? {
      LaterStrategiesIrrelevant(shared, [byLabel, css]);
      LaterStrategiesIrrelevant(shared, [css]);
    } else {
      FailedStrategiesFallThrough(shared, [byLabel, css]);
      FailedStrategiesFallThrough(shared, [css]);
      assert [byLabel, css][1..] == [css];
    }
  }

  /** Round trip of the first name: when the writer resolves a field and the lists do
      not part, GetFirstNameValue returns exactly the string EnterFirstName typed,
      whatever the field held before. */
  lemma FirstNameRoundTrip(page: Page, finder: Finder, firstName: string)
    requires Live(page, finder, FirstNameWriteLocators()) && Live(page, finder, FirstNameReadLocators())
    requires Locate(finder, FirstNameWriteLocators()).Resolved?
    requires Locate(finder, FirstNameSharedLocators()).Resolved? || !finder(FirstNameLabelLocator()).Succeeds()
    ensures EnterFirstName(page, finder, firstName).Ok?
    ensures var page' := EnterFirstName(page, finder, firstName).value;
      Live(page', finder, FirstNameReadLocators()) && GetFirstNameValue(page', finder) == Ok(firstName)
  {
    FirstNameListsAgree(finder);
  }

  /** Where the lists part: a field found only by the label-relative XPath is typed
      into, and GetFirstNameValue, which never tries that XPath, then fails unless the
      CSS selector finds something. */
  lemma FirstNameLabelOnlyDiverges(page: Page, finder: Finder, firstName: string)
    requires Live(page, finder, FirstNameWriteLocators()) && Live(page, finder, FirstNameReadLocators())
    requires Locate(finder, FirstNameSharedLocators()).NoSuchElement?
    requires finder(FirstNameLabelLocator()).Succeeds() && !finder(FirstNameCssLocator()).Succeeds()
    ensures EnterFirstName(page, finder, firstName).Ok?
    ensures var page' := EnterFirstName(page, finder, firstName).value;
      && page'[finder(FirstNameLabelLocator()).element].value == Some(firstName)
      && Live(page', finder, FirstNameReadLocators())
      && GetFirstNameValue(page', finder).Err?
  {
    var shared := Map(FirstNameSharedLocators(), finder);
    var byLabel := finder(FirstNameLabelLocator());
    var css := finder(FirstNameCssLocator());
    MapConcat(FirstNameSharedLocators(), [FirstNameLabelLocator(), FirstNameCssLocator()], finder);
    MapConcat(FirstNameSharedLocators(), [FirstNameCssLocator()], finder);
    assert Map([FirstNameLabelLocator(), FirstNameCssLocator()], finder) == [byLabel, css];
    assert Map([FirstNameCssLocator()], finder) == [css];
    FailedStrategiesFallThrough(shared, [byLabel, css]);
    FailedStrategiesFallThrough(shared, [css]);
  }

  /** The case of a page whose `#fname` input is found by id: both lists start with it. */
  lemma FirstNameRoundTripById(page: Page, finder: Finder, firstName: string)
    requires Live(page, finder, FirstNameWriteLocators()) && Live(page, finder, FirstNameReadLocators())
    requires finder(ById("fname")).Succeeds()
    ensures EnterFirstName(page, finder, firstName).Ok?
    ensures var page' := EnterFirstName(page, finder, firstName).value;
      Live(page', finder, FirstNameReadLocators()) && GetFirstNameValue(page', finder) == Ok(firstName)
  {
    FirstStrategyWins(finder, FirstNameWriteLocators());
    FirstStrategyWins(finder, FirstNameSharedLocators());
    FirstNameRoundTrip(page, finder, firstName);
  }

  /** Selecting a gender a second time changes nothing: the radio it resolves is
      already selected, so it is not clicked again. */
  lemma SelectGenderIdempotent(page: Page, finder: Finder, gender: string)
    requires Live(page, finder, GenderSelectLocators(gender))
    requires SelectGender(page, finder, gender).Ok?
    ensures var page' := SelectGender(page, finder, gender).value;
      Live(page', finder, GenderSelectLocators(gender)) && SelectGender(page', finder, gender) == Ok(page')
  {
    var h := Locate(finder, GenderSelectLocators(gender)).element;
    var page' := SelectGender(page, finder, gender).value;
    if !page[h].checked {
      assert page'[h] == Click(page[h]);
      if IsInputOfType(page[h], "checkbox") || IsInputOfType(page[h], "radio") {
        assert page'[h].checked;
      } else {
        assert page'[h := Click(page'[h])] == page';
      }
    }
  }

  /** `n` calls of SelectGender in a row, stopping at the first failure. */
  function SelectGenderTimes(page: Page, finder: Finder, gender: string, n: nat): Result<Page, FieldError>
    requires Live(page, finder, GenderSelectLocators(gender))
    decreases n
  {
    if n == 0 then Ok(page)
    else match SelectGender(page, finder, gender)
      case Err(e) => Err(e)
      case Ok(page') => SelectGenderTimes(page', finder, gender, n - 1)
  }

  /** N repeated selects of the same gender leave the same state as one. */
  lemma {:induction false} RepeatedSelectGender(page: Page, finder: Finder, gender: string, n: nat)
    requires Live(page, finder, GenderSelectLocators(gender))
    requires n >= 1
    ensures SelectGenderTimes(page, finder, gender, n) == SelectGender(page, finder, gender)
    decreases n
  {
    if n > 1 && SelectGender(page, finder, gender).Ok? {
      var page' := SelectGender(page, finder, gender).value;
      SelectGenderIdempotent(page, finder, gender);
      RepeatedSelectGender(page', finder, gender, n - 1);
    }
  }

  /** The two gender lists resolve the same radio when the id or the value XPath
      succeeds and, if both do, they find the same element. */
  lemma GenderListsAgree(finder: Finder, gender: string)
    requires finder(GenderIdLocator(gender)).Succeeds() || finder(GenderValueLocator(gender)).Succeeds()
    requires finder(GenderIdLocator(gender)).Succeeds() && finder(GenderValueLocator(gender)).Succeeds() ==>
      finder(GenderIdLocator(gender)).element == finder(GenderValueLocator(gender)).element
    ensures var s := Locate(finder, GenderSelectLocators(gender));
      var c := Locate(finder, GenderCheckLocators(gender));
      s.Resolved? && c.Resolved? && s.element == c.element
  {
    var select := Map(GenderSelectLocators(gender), finder);
    var check := Map(GenderCheckLocators(gender), finder);
    assert select[0] == finder(GenderIdLocator(gender)) && select[1] == finder(GenderValueLocator(gender));
    assert check[0] == finder(GenderValueLocator(gender)) && check[1] == finder(GenderIdLocator(gender));
    assert select[1..][0] == select[1] && check[1..][0] == check[1];
  }

  /** After SelectGender, IsGenderSelected reports true when the two lists resolve
      the same radio or checkbox. */
  lemma SelectedGenderIsReported(page: Page, finder: Finder, gender: string)
    requires Live(page, finder, GenderSelectLocators(gender)) && Live(page, finder, GenderCheckLocators(gender))
    requires finder(GenderIdLocator(gender)).Succeeds() || finder(GenderValueLocator(gender)).Succeeds()
    requires finder(GenderIdLocator(gender)).Succeeds() && finder(GenderValueLocator(gender)).Succeeds() ==>
      finder(GenderIdLocator(gender)).element == finder(GenderValueLocator(gender)).element
    requires Locate(finder, GenderSelectLocators(gender)).Resolved?
    requires var e := page[Locate(finder, GenderSelectLocators(gender)).element];
      IsInputOfType(e, "radio") || IsInputOfType(e, "checkbox")
    ensures SelectGender(page, finder, gender).Ok?
    ensures var page' := SelectGender(page, finder, gender).value;
      Live(page', finder, GenderCheckLocators(gender)) && IsGenderSelected(page', finder, gender)
  {
    GenderListsAgree(finder, gender);
  }

  /** Where the gender lists part: a radio found only by the span or label XPath is
      never seen by IsGenderSelected, which then reports false whatever the page. */
  lemma GenderPastReaderNotReported(page: Page, finder: Finder, gender: string)
    requires Live(page, finder, GenderCheckLocators(gender))
    requires !finder(GenderIdLocator(gender)).Succeeds() && !finder(GenderValueLocator(gender)).Succeeds()
    ensures !IsGenderSelected(page, finder, gender)
  {
    var check := Map(GenderCheckLocators(gender), finder);
    assert check[0] == finder(GenderValueLocator(gender)) && check[1] == finder(GenderIdLocator(gender));
    assert check[1..][0] == check[1] && check[1..][1..] == [];
  }

  /** And when the id and the value XPath find different radios, SelectGender clicks
      the first while IsGenderSelected reads the second, which it left as it was. */
  lemma GenderIdAndValueDisagree(page: Page, finder: Finder, gender: string)
    requires Live(page, finder, GenderSelectLocators(gender)) && Live(page, finder, GenderCheckLocators(gender))
    requires finder(GenderIdLocator(gender)).Succeeds() && finder(GenderValueLocator(gender)).Succeeds()
    requires finder(GenderIdLocator(gender)).element != finder(GenderValueLocator(gender)).element
    ensures SelectGender(page, finder, gender).Ok?
    ensures var page' := SelectGender(page, finder, gender).value;
      var v := finder(GenderValueLocator(gender)).element;
      v < |page| && Live(page', finder, GenderCheckLocators(gender)) &&
      IsGenderSelected(page', finder, gender) == page[v].checked
  {
    var select := Map(GenderSelectLocators(gender), finder);
    var check := Map(GenderCheckLocators(gender), finder);
    assert select[0] == finder(GenderIdLocator(gender));
    assert check[0] == finder(GenderValueLocator(gender));
  }

  /** The state lists never part: GetSelectedState's list is the start of SelectState's. */
  lemma StateListsAgree(finder: Finder)
    requires Locate(finder, StateReadLocators()).Resolved?
    ensures Locate(finder, StateSelectLocators()) == Locate(finder, StateReadLocators())
  {
    MapConcat(StateReadLocators(), StateFallbackLocators(), finder);
    LaterStrategiesIrrelevant(Map(StateReadLocators(), finder), Map(StateFallbackLocators(), finder));
  }

  /** Round trip of the state: after SelectState succeeds, GetSelectedState returns the
      requested text whenever its own list resolves a field. */
  lemma StateRoundTrip(page: Page, finder: Finder, state: string)
    requires Live(page, finder, StateSelectLocators()) && Live(page, finder, StateReadLocators())
    requires SelectState(page, finder, state).Ok?
    requires Locate(finder, StateReadLocators()).Resolved?
    ensures var page' := SelectState(page, finder, state).value;
      Live(page', finder, StateReadLocators()) && GetSelectedState(page', finder) == state
  {
    StateListsAgree(finder);
  }

  /** A select found only by the label XPath or the CSS selector is set by SelectState
      but never read: GetSelectedState returns "" instead of the state. */
  lemma StatePastReaderNotReported(page: Page, finder: Finder, state: string)
    requires Live(page, finder, StateSelectLocators()) && Live(page, finder, StateReadLocators())
    requires SelectState(page, finder, state).Ok?
    requires Locate(finder, StateReadLocators()).NoSuchElement?
    ensures var page' := SelectState(page, finder, state).value;
      Live(page', finder, StateReadLocators()) && GetSelectedState(page', finder) == ""
  {
  }

  /** SelectState succeeds on a select found by id that has an option with the text. */
  lemma SelectStateSucceeds(page: Page, finder: Finder, state: string)
    requires Live(page, finder, StateSelectLocators())
    requires finder(ById("state")).Succeeds()
    requires finder(ById("state")).element < |page|
    requires var e := page[finder(ById("state")).element]; e.tag == "select" && state in e.options
    ensures SelectState(page, finder, state).Ok?
  {
    FirstStrategyWins(finder, StateSelectLocators());
    var e := page[finder(ById("state")).element];
    var k :| 0 <= k < |e.options| && e.options[k] == state;
    assert FirstIndex(e.options, (o: string) => o == state).Some?;
  }
}

=== FILE: deep.dfy ===
/** `findDeepShadowInput` from the recursive-traversal approach of
    InteractWithNestedShadowDOM: a depth-bounded search that descends only through
    open shadow roots, fused with the write the script performs on what it found. */
module DeepTraversal {
  import opened Options
  import opened Seqs
  import opened Dom

  /** The bound the script passes as `maxDepth`. */
  const MaxDepth: nat := 5

  /** What a query in the traversal can return: a match of a selector the browser
      accepts. A rejected selector throws inside the script's try block, which the
      traversal swallows, so it matches nothing. */
  function Hits(sel: Selector): Element -> bool {
    (e: Element) => sel.valid && sel.test(e)
  }

  /** `traverse(root, depth)`: nothing past the depth bound or without an open shadow
      root; otherwise the root's own shadow tree is queried, and only if that finds
      nothing is every element of the shadow tree traversed one level deeper. */
  function Traverse(n: Node, d: nat, max: nat, sel: Selector): (r: Option<Node>)
    ensures r.Some? ==> Hits(sel)(r.value.el)
    ensures d > max || !n.shadow.Open? ==> r.None?
  {
    if d > max then None
    else match n.shadow
      case Open(roots) =>
        var q := QuerySelector(roots, Hits(sel));
        if q.Some? then q else TraverseEach(roots, d + 1, max, sel)
      case _ => None
  }

  /** The loop over `querySelectorAll('*')` of a shadow root whose top-level nodes are
      `ns`: every element, in document order, is traversed; the first hit wins. */
  function TraverseEach(ns: seq<Node>, d: nat, max: nat, sel: Selector): (r: Option<Node>)
    ensures r.Some? ==> Hits(sel)(r.value.el)
  {
    if |ns| == 0 then None
    else
      var a := Traverse(ns[0], d, max, sel);
      if a.Some? then a
      else
        var b := TraverseEach(ns[0].children, d, max, sel);
        if b.Some? then b else TraverseEach(ns[1..], d, max, sel)
  }

  /** The elements the traversal from `n` at depth `d` inspects, in the order it
      inspects them: the shadow tree's elements first, then what lies behind the
      shadow roots of those elements. */
  ghost function Reach(n: Node, d: nat, max: nat): seq<Element> {
    if d > max then []
    else match n.shadow
      case Open(roots) => Elements(roots) + ReachEach(roots, d + 1, max)
      case _ => []
  }

  ghost function ReachEach(ns: seq<Node>, d: nat, max: nat): seq<Element> {
    if |ns| == 0 then []
    else Reach(ns[0], d, max) + ReachEach(ns[0].children, d, max) + ReachEach(ns[1..], d, max)
  }

  /** The traversal returns the first inspected element that matches. */
  lemma {:induction false} TraverseFindsFirst(n: Node, d: nat, max: nat, sel: Selector)
    ensures HitElement(Traverse(n, d, max, sel)) == First(Reach(n, d, max), Hits(sel))
    decreases n, 1
  {
    if d <= max && n.shadow.Open? {
      var roots := n.shadow.roots;
      QueryElements(roots, Hits(sel));
      TraverseEachFindsFirst(roots, d + 1, max, sel);
      FirstConcat(Elements(roots), ReachEach(roots, d + 1, max), Hits(sel));
    } else {
      assert Reach(n, d, max) == [];
    }
  }

  lemma {:induction false} TraverseEachFindsFirst(ns: seq<Node>, d: nat, max: nat, sel: Selector)
    ensures HitElement(TraverseEach(ns, d, max, sel)) == First(ReachEach(ns, d, max), Hits(sel))
    decreases ns, 0
  {
    if |ns| > 0 {
      TraverseFindsFirst(ns[0], d, max, sel);
      TraverseEachFindsFirst(ns[0].children, d, max, sel);
      TraverseEachFindsFirst(ns[1..], d, max, sel);
      var a := Reach(ns[0], d, max);
      var b := ReachEach(ns[0].children, d, max);
      var c := ReachEach(ns[1..], d, max);
      FirstConcat(a + b, c, Hits(sel));
      FirstConcat(a, b, Hits(sel));
    } else {
      assert ReachEach(ns, d, max) == [];
    }
  }

  /** Traverse, rewriting the element it finds with `f` (a `querySelector` followed by
      an assignment, at whatever level the hit lies). Also returns the hit, before
      the rewrite. */
  function TraverseSet(n: Node, d: nat, max: nat, sel: Selector, f: Facet -> Facet): (r: (Node, Option<Node>))
    ensures r.0.el == n.el && r.0.children == n.children
  {
    if d > max then (n, None)
    else match n.shadow
      case Open(roots) =>
        var (edited, q) := UpdateFirst(roots, Hits(sel), f);
        if q.Some? then (n.(shadow := Open(edited)), q)
        else
          var (deeper, h) := TraverseSetEach(roots, d + 1, max, sel, f);
          (n.(shadow := Open(deeper)), h)
      case _ => (n, None)
  }

  function TraverseSetEach(ns: seq<Node>, d: nat, max: nat, sel: Selector, f: Facet -> Facet): (r: (seq<Node>, Option<Node>))
    ensures |r.0| == |ns|
  {
    if |ns| == 0 then (ns, None)
    else
      var (x, a) := TraverseSet(ns[0], d, max, sel, f);
      if a.Some? then ([x] + ns[1..], a)
      else
        var (cs, b) := TraverseSetEach(ns[0].children, d, max, sel, f);
        if b.Some? then ([x.(children := cs)] + ns[1..], b)
        else
          var (rest, c) := TraverseSetEach(ns[1..], d, max, sel, f);
          ([x.(children := cs)] + rest, c)
  }

  /** The rewriting traversal hits what the plain traversal finds. */
  lemma {:induction false} TraverseSetFinds(n: Node, d: nat, max: nat, sel: Selector, f: Facet -> Facet)
    ensures TraverseSet(n, d, max, sel, f).1 == Traverse(n, d, max, sel)
    decreases n, 1
  {
    if d <= max && n.shadow.Open? {
      UpdateFirstFinds(n.shadow.roots, Hits(sel), f);
      TraverseSetEachFinds(n.shadow.roots, d + 1, max, sel, f);
    }
  }

  lemma {:induction false} TraverseSetEachFinds(ns: seq<Node>, d: nat, max: nat, sel: Selector, f: Facet -> Facet)
    ensures TraverseSetEach(ns, d, max, sel, f).1 == TraverseEach(ns, d, max, sel)
    decreases ns, 0
  {
    if |ns| > 0 {
      TraverseSetFinds(ns[0], d, max, sel, f);
      TraverseSetEachFinds(ns[0].children, d, max, sel, f);
      TraverseSetEachFinds(ns[1..], d, max, sel, f);
    }
  }

  /** Without a hit, or with a rewrite that leaves the hit as it is, nothing changes. */
  lemma {:induction false} TraverseSetIdle(n: Node, d: nat, max: nat, sel: Selector, f: Facet -> Facet)
    ensures var r := TraverseSet(n, d, max, sel, f);
      r.1.None? || f(FacetOf(r.1.value)) == FacetOf(r.1.value) ==> r.0 == n
    decreases n, 1
  {
    if d <= max && n.shadow.Open? {
      UpdateFirstIdle(n.shadow.roots, Hits(sel), f);
      TraverseSetEachIdle(n.shadow.roots, d + 1, max, sel, f);
    }
  }

  lemma {:induction false} TraverseSetEachIdle(ns: seq<Node>, d: nat, max: nat, sel: Selector, f: Facet -> Facet)
    ensures var r := TraverseSetEach(ns, d, max, sel, f);
      r.1.None? || f(FacetOf(r.1.value)) == FacetOf(r.1.value) ==> r.0 == ns
    decreases ns, 0
  {
    if |ns| > 0 {
      TraverseSetIdle(ns[0], d, max, sel, f);
      TraverseSetEachIdle(ns[0].children, d, max, sel, f);
      TraverseSetEachIdle(ns[1..], d, max, sel, f);
      assert ns == [ns[0]] + ns[1..];
    }
  }

  /** Assigning to elements leaves what lies behind their shadow roots as it was. */
  lemma {:induction false} UpdateFirstKeepsReach(ns: seq<Node>, p: Element -> bool, e: Element -> Element, d: nat, max: nat)
    ensures ReachEach(UpdateFirst(ns, p, Lift(e)).0, d, max) == ReachEach(ns, d, max)
  {
    if |ns| > 0 {
      var r := UpdateFirst(ns, p, Lift(e)).0;
      var n := ns[0];
      if p(n.el) {
        assert r[0].shadow == n.shadow && r[0].children == n.children && r[1..] == ns[1..];
      } else {
        UpdateFirstKeepsReach(n.children, p, e, d, max);
        UpdateFirstKeepsReach(ns[1..], p, e, d, max);
        var (cs, hit) := UpdateFirst(n.children, p, Lift(e));
        if hit.Some? {
          assert r[0] == n.(children := cs) && r[1..] == ns[1..];
        } else {
          assert r[0] == n && r[1..] == UpdateFirst(ns[1..], p, Lift(e)).0;
        }
      }
    }
  }

  /** The rewriting traversal changes only what lies behind shadow roots, never the
      elements of the tree it walks. */
  lemma {:induction false} TraverseSetEachKeepsElements(ns: seq<Node>, d: nat, max: nat, sel: Selector, f: Facet -> Facet)
    ensures Elements(TraverseSetEach(ns, d, max, sel, f).0) == Elements(ns)
  {
    if |ns| > 0 {
      var r := TraverseSetEach(ns, d, max, sel, f).0;
      TraverseSetEachKeepsElements(ns[0].children, d, max, sel, f);
      TraverseSetEachKeepsElements(ns[1..], d, max, sel, f);
      ElementsUnfold(ns);
      ElementsUnfold(r);
      var (x, a) := TraverseSet(ns[0], d, max, sel, f);
      if a.Some? {
        assert r[0] == x && r[1..] == ns[1..];
      } else {
        var (cs, b) := TraverseSetEach(ns[0].children, d, max, sel, f);
        if b.Some? {
          assert r[0] == x.(children := cs) && r[1..] == ns[1..];
        } else {
          assert r[0] == x.(children := cs) && r[1..] == TraverseSetEach(ns[1..], d, max, sel, f).0;
        }
      }
    }
  }

  /** The query-and-assign on one shadow tree, at the level of its elements. */
  lemma UpdateFirstElements(roots: seq<Node>, p: Element -> bool, e: Element -> Element)
    ensures var (edited, q) := UpdateFirst(roots, p, Lift(e));
      && EditsFirst(Elements(roots), Elements(edited), p, e)
      && (q.Some? <==> FirstIndex(Elements(roots), p).Some?)
  {
    var edited := UpdateFirst(roots, p, Lift(e)).0;
    UpdateFirstEdits(roots, p, Lift(e));
    EditsFirstMap(Facets(roots), Facets(edited), OnFacet(p), Lift(e), ElementOf, p, e);
    UpdateFirstFinds(roots, p, Lift(e));
    QueryElements(roots, p);
  }

  /** The rewriting traversal assigns to the first inspected element that matches and
      to nothing else. */
  lemma {:induction false} TraverseSetEdits(n: Node, d: nat, max: nat, sel: Selector, e: Element -> Element)
    ensures EditsFirst(Reach(n, d, max), Reach(TraverseSet(n, d, max, sel, Lift(e)).0, d, max), Hits(sel), e)
    decreases n, 1
  {
    if d <= max && n.shadow.Open? {
      var roots := n.shadow.roots;
      var u := UpdateFirst(roots, Hits(sel), Lift(e));
      UpdateFirstElements(roots, Hits(sel), e);
      if u.1.Some? {
        EditsHere(n, d, max, sel, e);
      } else {
        TraverseSetEachEdits(roots, d + 1, max, sel, e);
        EditsDeeper(n, d, max, sel, e);
      }
    }
  }

  /** The case where the host's own shadow tree holds the hit. */
  lemma EditsHere(n: Node, d: nat, max: nat, sel: Selector, e: Element -> Element)
    requires d <= max && n.shadow.Open?
    requires UpdateFirst(n.shadow.roots, Hits(sel), Lift(e)).1.Some?
    ensures EditsFirst(Reach(n, d, max), Reach(TraverseSet(n, d, max, sel, Lift(e)).0, d, max), Hits(sel), e)
  {
    var roots := n.shadow.roots;
    var edited := UpdateFirst(roots, Hits(sel), Lift(e)).0;
    UpdateFirstElements(roots, Hits(sel), e);
    assert TraverseSet(n, d, max, sel, Lift(e)).0 == n.(shadow := Open(edited));
    UpdateFirstKeepsReach(roots, Hits(sel), e, d + 1, max);
    EditsFirstConcat(Elements(roots), Elements(edited), ReachEach(roots, d + 1, max), ReachEach(edited, d + 1, max), Hits(sel), e);
  }

  /** The case where the host's own shadow tree has no match and the search goes deeper. */
  lemma EditsDeeper(n: Node, d: nat, max: nat, sel: Selector, e: Element -> Element)
    requires d <= max && n.shadow.Open?
    requires UpdateFirst(n.shadow.roots, Hits(sel), Lift(e)).1.None?
    requires var roots := n.shadow.roots;
      EditsFirst(ReachEach(roots, d + 1, max), ReachEach(TraverseSetEach(roots, d + 1, max, sel, Lift(e)).0, d + 1, max), Hits(sel), e)
    ensures EditsFirst(Reach(n, d, max), Reach(TraverseSet(n, d, max, sel, Lift(e)).0, d, max), Hits(sel), e)
  {
    var roots := n.shadow.roots;
    var deeper := TraverseSetEach(roots, d + 1, max, sel, Lift(e)).0;
    UpdateFirstElements(roots, Hits(sel), e);
    assert TraverseSet(n, d, max, sel, Lift(e)).0 == n.(shadow := Open(deeper));
    TraverseSetEachKeepsElements(roots, d + 1, max, sel, Lift(e));
    EditsFirstConcat(Elements(roots), Elements(deeper), ReachEach(roots, d + 1, max), ReachEach(deeper, d + 1, max), Hits(sel), e);
  }

  lemma {:induction false} TraverseSetEachEdits(ns: seq<Node>, d: nat, max: nat, sel: Selector, e: Element -> Element)
    ensures EditsFirst(ReachEach(ns, d, max), ReachEach(TraverseSetEach(ns, d, max, sel, Lift(e)).0, d, max), Hits(sel), e)
    decreases ns, 0
  {
    if |ns| > 0 {
      var f := Lift(e);
      var r := TraverseSetEach(ns, d, max, sel, f).0;
      var (x, a) := TraverseSet(ns[0], d, max, sel, f);
      var (cs, b) := TraverseSetEach(ns[0].children, d, max, sel, f);
      var rest := TraverseSetEach(ns[1..], d, max, sel, f).0;
      TraverseSetEdits(ns[0], d, max, sel, e);
      TraverseSetEachEdits(ns[0].children, d, max, sel, e);
      TraverseSetEachEdits(ns[1..], d, max, sel, e);
      TraverseSetFinds(ns[0], d, max, sel, f);
      TraverseFindsFirst(ns[0], d, max, sel);
      TraverseSetEachFinds(ns[0].children, d, max, sel, f);
      TraverseEachFindsFirst(ns[0].children, d, max, sel);
      assert Reach(x.(children := cs), d, max) == Reach(x, d, max);
      if a.Some? {
        assert r[0] == x && r[1..] == ns[1..];
      } else if b.Some? {
        assert r[0] == x.(children := cs) && r[1..] == ns[1..];
      } else {
        assert r[0] == x.(children := cs) && r[1..] == rest;
      }
      EditsFirstThree(Reach(ns[0], d, max), Reach(r[0], d, max),
                      ReachEach(ns[0].children, d, max), ReachEach(r[0].children, d, max),
                      ReachEach(ns[1..], d, max), ReachEach(r[1..], d, max), Hits(sel), e);
    }
  }

  /** The script's assignment: only an INPUT takes the value. */
  function SetIfInput(v: string): Element -> Element {
    (e: Element) => if e.tag == "input" then e.(value := Some(v)) else e
  }

  /** `findDeepShadowInput(selector, 5)`: the traversal from the document body at depth 0. */
  function FindDeepShadowInput(body: Node, sel: Selector): Option<Node> {
    Traverse(body, 0, MaxDepth, sel)
  }

  /** The whole recursive-traversal script, on the document whose body is `body`: the
      rewritten body and the script's return value. It returns true exactly when the
      hit is an INPUT, and changes nothing when it returns false. */
  function SetDeepShadowInput(body: Node, sel: Selector, v: string): (r: (Node, bool))
    ensures var hit := FindDeepShadowInput(body, sel);
      r.1 <==> hit.Some? && hit.value.el.tag == "input"
    ensures !r.1 ==> r.0 == body
  {
    var (b, hit) := TraverseSet(body, 0, MaxDepth, sel, Lift(SetIfInput(v)));
    TraverseSetFinds(body, 0, MaxDepth, sel, Lift(SetIfInput(v)));
    TraverseSetIdle(body, 0, MaxDepth, sel, Lift(SetIfInput(v)));
    (b, hit.Some? && hit.value.el.tag == "input")
  }

  /** What the script writes: the first element the traversal inspects that matches,
      which takes the value when it is an INPUT; every other inspected element is
      left as it was. */
  lemma SetDeepShadowInputWrites(body: Node, sel: Selector, v: string)
    ensures var after := SetDeepShadowInput(body, sel, v).0;
      EditsFirst(Reach(body, 0, MaxDepth), Reach(after, 0, MaxDepth), Hits(sel), SetIfInput(v))
    ensures var hit := First(Reach(body, 0, MaxDepth), Hits(sel));
      SetDeepShadowInput(body, sel, v).1 <==> hit.Some? && hit.value.tag == "input"
  {
    TraverseSetEdits(body, 0, MaxDepth, sel, SetIfInput(v));
    TraverseFindsFirst(body, 0, MaxDepth, sel);
  }

  /** A target behind `levels` nested shadow roots: each host's shadow tree holds only
      the next host, and the innermost one holds `target`. */
  function Chain(host: Element, levels: nat, target: Node): Node
    requires levels >= 1
  {
    if levels == 1 then Node(host, Open([target]), [])
    else Node(host, Open([Chain(host, levels - 1, target)]), [])
  }

  /** The depth bound: from depth `d`, a target `levels` shadow roots down is found
      exactly when `d + levels <= max + 1`. With the body at depth 0 and a bound of 5,
      targets up to six shadow levels deep are reached. */
  lemma {:induction false} ChainDepth(host: Element, levels: nat, target: Node, d: nat, max: nat, sel: Selector)
    requires levels >= 1
    requires !Hits(sel)(host) && Hits(sel)(target.el)
    ensures Traverse(Chain(host, levels, target), d, max, sel) ==
      if d + levels <= max + 1 then Some(target) else None
    decreases levels
  {
    var c := Chain(host, levels, target);
    if d <= max {
      var top := c.shadow.roots[0];
      assert LightNodes([top]) == [top] + LightNodes(top.children) + LightNodes([]);
      if levels == 1 {
        assert LightNodes([top])[0] == target;
      } else {
        assert top == Chain(host, levels - 1, target);
        assert top.el == host && top.children == [];
        assert LightNodes([top]) == [top];
        assert QuerySelector([top], Hits(sel)).None?;
        ChainDepth(host, levels - 1, target, d + 1, max, sel);
        assert TraverseEach([top], d + 1, max, sel) == Traverse(top, d + 1, max, sel);
      }
    }
  }
}

=== FILE: dom.dfy ===
/** The document model the shadow-DOM scripts run against: elements with light
    children and an optional shadow root, the light-DOM traversal behind
    querySelector / querySelectorAll('*'), and the two ways the scripts rewrite a
    tree (assign to the first match, or to every element of a traversal). */
module Dom {
  import opened Options
  import opened Seqs
  import opened Text

  /** An element's own state. `tag` is the lower-case local name (`tagName === 'INPUT'`
      is `tag == "input"`); `id`, `name` and `inputType` (the type attribute) are ""
      when absent; `value` is the value property (None for null); `options` holds the
      option texts of a select and `selectedIndex` its selected index. */
  datatype Element = Element(
    tag: string, id: string, name: string, inputType: string,
    value: Option<string>, checked: bool,
    options: seq<string>, selectedIndex: int)

  /** An input whose type attribute is `t` (lower case): HTML compares the attribute
      ASCII case-insensitively, both for `input[type="..."]` and for the element's
      behaviour, so `type="Radio"` is a radio. */
  predicate IsInputOfType(e: Element, t: string) {
    e.tag == "input" && ToLower(e.inputType) == t
  }

  /** A node's shadow root: none, open (visible to scripts as `el.shadowRoot`), or
      closed (`el.shadowRoot` is null). `roots` are the top-level nodes of the shadow tree. */
  datatype Shadow = NoShadow | Open(roots: seq<Node>) | Closed(roots: seq<Node>)

  /** An element with its shadow root and its light-DOM children. */
  datatype Node = Node(el: Element, shadow: Shadow, children: seq<Node>)

  /** A selector string handed to a script by its caller. Matching is left
      uninterpreted: `test` says whether an element matches, judged from the element's
      own attributes; `valid` is false when querySelector rejects the text with a
      SyntaxError. */
  datatype Selector = Selector(text: string, valid: bool, test: Element -> bool)

  /** The exceptions a script run through ExecuteScript can end with: a selector the
      browser rejects, a property read on null, or a failure of the driver itself. */
  datatype ScriptError = SyntaxError | TypeError | DriverFault

  /** Everything about a node that a script assignment can change: all but its children. */
  datatype Facet = Facet(el: Element, shadow: Shadow)

  function FacetOf(n: Node): Facet {
    Facet(n.el, n.shadow)
  }

  function ElementOf(fa: Facet): Element {
    fa.el
  }

  function WithFacet(fa: Facet, children: seq<Node>): Node {
    Node(fa.el, fa.shadow, children)
  }

  /** An element-level assignment, applied to a node without touching its shadow root. */
  function Lift(e: Element -> Element): Facet -> Facet {
    (fa: Facet) => fa.(el := e(fa.el))
  }

  /** `el.shadowRoot`: the top-level nodes of an open shadow root, null otherwise. */
  function ShadowRootOf(n: Node): (r: Option<seq<Node>>)
    ensures r.Some? <==> n.shadow.Open?
  {
    if n.shadow.Open? then Some(n.shadow.roots) else None
  }

  /** `querySelectorAll('*')` on a document or shadow root whose top-level nodes are
      `ns`: every element of that tree in document order, without entering shadow roots. */
  function LightNodes(ns: seq<Node>): seq<Node> {
    if |ns| == 0 then []
    else [ns[0]] + LightNodes(ns[0].children) + LightNodes(ns[1..])
  }

  function Facets(ns: seq<Node>): seq<Facet> {
    Map(LightNodes(ns), FacetOf)
  }

  function Elements(ns: seq<Node>): seq<Element> {
    Map(Facets(ns), ElementOf)
  }

  /** Facets of a forest: the first tree's root, its light descendants, then the other trees. */
  lemma FacetsUnfold(ns: seq<Node>)
    requires |ns| > 0
    ensures Facets(ns) == [FacetOf(ns[0])] + Facets(ns[0].children) + Facets(ns[1..])
  {
    MapConcat([ns[0]] + LightNodes(ns[0].children), LightNodes(ns[1..]), FacetOf);
    MapConcat([ns[0]], LightNodes(ns[0].children), FacetOf);
  }

  /** Elements of a forest: the first tree's root, its light descendants, then the other trees. */
  lemma ElementsUnfold(ns: seq<Node>)
    requires |ns| > 0
    ensures Elements(ns) == [ns[0].el] + Elements(ns[0].children) + Elements(ns[1..])
  {
    FacetsUnfold(ns);
    MapConcat([FacetOf(ns[0])] + Facets(ns[0].children), Facets(ns[1..]), ElementOf);
    MapConcat([FacetOf(ns[0])], Facets(ns[0].children), ElementOf);
  }

  /** The node-level test of an element-level selector predicate. */
  function OnFacet(p: Element -> bool): Facet -> bool {
    (fa: Facet) => p(fa.el)
  }

  function OnNode(p: Element -> bool): Node -> bool {
    (n: Node) => p(n.el)
  }

  /** `querySelector`: the first element of the tree, in document order, that matches. */
  function QuerySelector(ns: seq<Node>, p: Element -> bool): (r: Option<Node>)
    ensures r.Some? ==> r.value in LightNodes(ns) && p(r.value.el)
    ensures r.None? <==> forall n | n in LightNodes(ns) :: !p(n.el)
  {
    First(LightNodes(ns), OnNode(p))
  }

  /** `r` is what a first-match search of `ns`, in order, for an element satisfying `p`
      must return: the earliest node that matches, or nothing when none does. */
  ghost predicate IsFirstMatch(ns: seq<Node>, p: Element -> bool, r: Option<Node>) {
    match r
    case None => forall n | n in ns :: !p(n.el)
    case Some(x) =>
      exists k | 0 <= k < |ns| :: ns[k] == x && p(x.el) && forall j | 0 <= j < k :: !p(ns[j].el)
  }

  /** querySelector returns the first match in document order. */
  lemma QuerySelectorIsFirst(ns: seq<Node>, p: Element -> bool)
    ensures IsFirstMatch(LightNodes(ns), p, QuerySelector(ns, p))
  {
    var all := LightNodes(ns);
    var k := FirstIndex(all, OnNode(p));
    if k.Some? {
      assert all[k.value] == QuerySelector(ns, p).value;
      assert forall j | 0 <= j < k.value :: !p(all[j].el) by {
        assert forall j | 0 <= j < k.value :: !OnNode(p)(all[j]);
      }
    }
  }

  /** Rewrite every element of the tree, in document order: `forEach` over a
      `querySelectorAll` with an assignment in its body. */
  function MapLight(ns: seq<Node>, h: Facet -> Facet): (r: seq<Node>)
    ensures |r| == |ns|
  {
    if |ns| == 0 then []
    else [WithFacet(h(FacetOf(ns[0])), MapLight(ns[0].children, h))] + MapLight(ns[1..], h)
  }

  /** MapLight leaves the tree's shape alone and rewrites each element in place. */
  lemma {:induction false} MapLightFacets(ns: seq<Node>, h: Facet -> Facet)
    ensures Facets(MapLight(ns, h)) == Map(Facets(ns), h)
  {
    if |ns| > 0 {
      var r := MapLight(ns, h);
      var head := WithFacet(h(FacetOf(ns[0])), MapLight(ns[0].children, h));
      assert r[0] == head && r[1..] == MapLight(ns[1..], h);
      FacetsUnfold(ns);
      FacetsUnfold(r);
      MapLightFacets(ns[0].children, h);
      MapLightFacets(ns[1..], h);
      MapConcat([FacetOf(ns[0])] + Facets(ns[0].children), Facets(ns[1..]), h);
      MapConcat([FacetOf(ns[0])], Facets(ns[0].children), h);
    }
  }

  /** Rewrite only the first element that matches `p`: a `querySelector` followed by
      an assignment to what it returned. Also returns the match, before the rewrite. */
  function UpdateFirst(ns: seq<Node>, p: Element -> bool, f: Facet -> Facet): (r: (seq<Node>, Option<Node>))
    ensures |r.0| == |ns|
  {
    if |ns| == 0 then (ns, None)
    else if p(ns[0].el) then ([WithFacet(f(FacetOf(ns[0])), ns[0].children)] + ns[1..], Some(ns[0]))
    else
      var (cs, hit) := UpdateFirst(ns[0].children, p, f);
      if hit.Some? then ([ns[0].(children := cs)] + ns[1..], hit)
      else
        var (rest, hit') := UpdateFirst(ns[1..], p, f);
        ([ns[0]] + rest, hit')
  }

  /** UpdateFirst rewrites exactly what querySelector finds. */
  lemma {:induction false} UpdateFirstFinds(ns: seq<Node>, p: Element -> bool, f: Facet -> Facet)
    ensures UpdateFirst(ns, p, f).1 == QuerySelector(ns, p)
  {
    if |ns| > 0 {
      var n := ns[0];
      FirstConcat([n] + LightNodes(n.children), LightNodes(ns[1..]), OnNode(p));
      FirstConcat([n], LightNodes(n.children), OnNode(p));
      assert First([n], OnNode(p)) == if p(n.el) then Some(n) else None by {
        assert [n][0] == n;
      }
      if !p(n.el) {
        UpdateFirstFinds(n.children, p, f);
        UpdateFirstFinds(ns[1..], p, f);
      }
    }
  }

  /** UpdateFirst changes the element that matches first, in document order, and
      nothing else. */
  lemma {:induction false} UpdateFirstEdits(ns: seq<Node>, p: Element -> bool, f: Facet -> Facet)
    ensures EditsFirst(Facets(ns), Facets(UpdateFirst(ns, p, f).0), OnFacet(p), f)
  {
    if |ns| > 0 {
      var r := UpdateFirst(ns, p, f).0;
      var n := ns[0];
      FacetsUnfold(ns);
      FacetsUnfold(r);
      if p(n.el) {
        assert r[0] == WithFacet(f(FacetOf(n)), n.children) && r[1..] == ns[1..];
      } else {
        UpdateFirstEdits(n.children, p, f);
        var (cs, hit) := UpdateFirst(n.children, p, f);
        UpdateFirstFinds(n.children, p, f);
        UpdateFirstIndex(n.children, p);
        if hit.Some? {
          assert r[0] == n.(children := cs) && r[1..] == ns[1..];
        } else {
          UpdateFirstEdits(ns[1..], p, f);
          UpdateFirstIdle(n.children, p, f);
          assert r[0] == n && r[1..] == UpdateFirst(ns[1..], p, f).0;
        }
      }
      EditsFirstPreorder(FacetOf(n), FacetOf(r[0]), Facets(n.children), Facets(r[0].children),
                         Facets(ns[1..]), Facets(r[1..]), OnFacet(p), f);
    }
  }

  /** A match exists among the nodes exactly when one exists among their facets. */
  lemma UpdateFirstIndex(ns: seq<Node>, p: Element -> bool)
    ensures QuerySelector(ns, p).Some? <==> FirstIndex(Facets(ns), OnFacet(p)).Some?
  {
    var fs := Facets(ns);
    var ls := LightNodes(ns);
    assert forall i | 0 <= i < |ls| :: OnNode(p)(ls[i]) == OnFacet(p)(fs[i]);
    if QuerySelector(ns, p).Some? {
      var i := FirstIndex(ls, OnNode(p)).value;
      assert OnFacet(p)(fs[i]);
    }
  }

  /** With no match, or a rewrite that is the identity on the match, the tree is unchanged. */
  lemma {:induction false} UpdateFirstIdle(ns: seq<Node>, p: Element -> bool, f: Facet -> Facet)
    ensures var r := UpdateFirst(ns, p, f);
      r.1.None? || f(FacetOf(r.1.value)) == FacetOf(r.1.value) ==> r.0 == ns
  {
    if |ns| > 0 {
      var n := ns[0];
      var r := UpdateFirst(ns, p, f);
      if p(n.el) {
        assert r.0 == [WithFacet(f(FacetOf(n)), n.children)] + ns[1..];
        assert ns == [n] + ns[1..];
      } else {
        UpdateFirstIdle(n.children, p, f);
        UpdateFirstIdle(ns[1..], p, f);
        assert ns == [n] + ns[1..];
      }
    }
  }

  /** When the rewrite keeps the match a match, querying the rewritten tree again finds
      the rewritten match. */
  lemma {:induction false} UpdateFirstRequery(ns: seq<Node>, p: Element -> bool, f: Facet -> Facet)
    ensures var r := UpdateFirst(ns, p, f);
      r.1.Some? && p(f(FacetOf(r.1.value)).el) ==>
        QuerySelector(r.0, p) == Some(WithFacet(f(FacetOf(r.1.value)), r.1.value.children))
  {
    var r := UpdateFirst(ns, p, f);
    UpdateFirstFinds(r.0, p, f);
    if |ns| > 0 && r.1.Some? && p(f(FacetOf(r.1.value)).el) {
      var n := ns[0];
      if p(n.el) {
      } else {
        var (cs, hit) := UpdateFirst(n.children, p, f);
        if hit.Some? {
          UpdateFirstRequery(n.children, p, f);
          UpdateFirstFinds(cs, p, f);
        } else {
          var rest := UpdateFirst(ns[1..], p, f).0;
          UpdateFirstRequery(ns[1..], p, f);
          UpdateFirstFinds(rest, p, f);
          assert r.0[1..] == rest;
        }
      }
    }
  }

  /** The element a query returned, if any. */
  function HitElement(o: Option<Node>): Option<Element> {
    match o
    case None => None
    case Some(n) => Some(n.el)
  }

  /** querySelector returns the first element of the tree's element sequence that matches. */
  lemma QueryElements(ns: seq<Node>, p: Element -> bool)
    ensures HitElement(QuerySelector(ns, p)) == First(Elements(ns), p)
  {
    FirstIndexMap(LightNodes(ns), FacetOf, OnFacet(p), OnNode(p));
    FirstIndexMap(Facets(ns), ElementOf, p, OnFacet(p));
  }

  /** Assigning to every element of a tree assigns to each element of its element sequence. */
  lemma MapLightElements(ns: seq<Node>, e: Element -> Element)
    ensures Elements(MapLight(ns, Lift(e))) == Map(Elements(ns), e)
  {
    MapLightFacets(ns, Lift(e));
    var fs := Facets(ns);
    assert forall i | 0 <= i < |fs| :: Elements(MapLight(ns, Lift(e)))[i] == e(fs[i].el);
  }

  /** A rewrite that changes no element leaves the tree as it is. */
  lemma {:induction false} MapLightIdle(ns: seq<Node>, h: Facet -> Facet)
    requires forall fa :: h(fa) == fa
    ensures MapLight(ns, h) == ns
  {
    if |ns| > 0 {
      MapLightIdle(ns[0].children, h);
      MapLightIdle(ns[1..], h);
      assert ns == [ns[0]] + ns[1..];
    }
  }
}

=== FILE: frames.dfy ===
/** The form-locating part of NavigateTo: look for the form in the main document,
    otherwise try each iframe by index, switching the driver's context as it goes. */
module Frames {
  import opened Options

  /** The driver's current browsing context: the top-level document, or frame
      `index` entered from `parent`. SwitchTo().Frame(i) looks up frame i inside
      whatever context is current when it is called. */
  datatype Context = Default | Frame(index: nat, parent: Context)

  /** What one iteration of the frame loop met: Frame(i) threw, or the switch
      succeeded and the form was absent, present but not displayed, or displayed. */
  datatype FrameProbe = SwitchFails | FormAbsent | FormHidden | FormDisplayed

  /** The page after GoToUrl: the readyState wait (or the iframe listing) failed,
      or the page loaded; `formInMainDocument` is the outcome of the wait for a
      displayed form, and `frames` has one probe per loop iteration, as many as the
      main document has iframes (after a hidden form, the next index is looked up
      inside the frame the driver was left in). */
  datatype PageLoad = LoadFailed | Loaded(formInMainDocument: bool, frames: seq<FrameProbe>)

  /** One call SwitchTo().Frame(index), issued while the driver was in `from`. */
  datatype Switch = Switch(index: nat, from: Context)

  /** Where the form was located. */
  datatype FormLocation = NotLoaded | MainDocument | InFrame(index: nat) | Nowhere

  /** Final driver context, every frame switch issued, and where the form was seen. */
  datatype Navigation = Navigation(context: Context, switches: seq<Switch>, location: FormLocation)

  /** The context the loop is left in after its iteration for `s`: a successful
      switch followed by a form found (displayed or not) leaves the driver inside
      the frame; every other outcome is followed by DefaultContent(). */
  function ContextAfter(probe: FrameProbe, s: Switch): Context {
    match probe
    case FormDisplayed => Frame(s.index, s.from)
    case FormHidden => Frame(s.index, s.from)
    case _ => Default
  }

  /** The shape of the switch log: iframes are tried in index order, the first from
      the top-level document, each later one from the context the previous
      iteration left behind. */
  ghost predicate SwitchLog(frames: seq<FrameProbe>, switches: seq<Switch>) {
    && |switches| <= |frames|
    && (forall j | 0 <= j < |switches| :: switches[j].index == j)
    && (|switches| > 0 ==> switches[0].from == Default)
    && (forall j | 0 < j < |switches| :: switches[j].from == ContextAfter(frames[j - 1], switches[j - 1]))
  }

  /** The loop's state before iteration `i`: the iframes before `i` were all tried,
      in order, none of them showed the form, and `ctx` is where the last one left us. */
  ghost predicate LoopState(frames: seq<FrameProbe>, i: nat, ctx: Context, switches: seq<Switch>) {
    && i <= |frames| && |switches| == i
    && SwitchLog(frames, switches)
    && (forall j | 0 <= j < i :: frames[j] != FormDisplayed)
    && ctx == if i == 0 then Default else ContextAfter(frames[i - 1], switches[i - 1])
  }

  /** Issuing Switch(i, ctx) keeps the switch log well formed. */
  lemma ExtendLog(frames: seq<FrameProbe>, i: nat, ctx: Context, switches: seq<Switch>)
    requires LoopState(frames, i, ctx, switches) && i < |frames|
    ensures SwitchLog(frames, switches + [Switch(i, ctx)])
  {
    var sw := switches + [Switch(i, ctx)];
    forall j | 0 < j < |sw| ensures sw[j].from == ContextAfter(frames[j - 1], sw[j - 1]) {
      if j < i {
        assert sw[j] == switches[j] && sw[j - 1] == switches[j - 1];
      }
    }
  }

  /** The frame loop from iteration `i` on, in context `ctx`, having issued `switches`. */
  function SearchFrames(frames: seq<FrameProbe>, i: nat, ctx: Context, switches: seq<Switch>): (r: Navigation)
    requires LoopState(frames, i, ctx, switches)
    ensures SwitchLog(frames, r.switches)
    decreases |frames| - i
  {
    if i == |frames| then
      Navigation(Default, switches, Nowhere)
    else
      var s := Switch(i, ctx);
      ExtendLog(frames, i, ctx, switches);
      match frames[i]
      case FormDisplayed => Navigation(Frame(i, ctx), switches + [s], InFrame(i))
      case FormHidden => SearchFrames(frames, i + 1, Frame(i, ctx), switches + [s])
      case FormAbsent => SearchFrames(frames, i + 1, Default, switches + [s])
      case SwitchFails => SearchFrames(frames, i + 1, Default, switches + [s])
  }

  /** What the loop from iteration `i` on promises: it stops in the first later frame
      that displays the form and stays inside it, or tries all remaining frames and
      returns to the top-level document. */
  ghost predicate SearchOutcome(frames: seq<FrameProbe>, i: nat, r: Navigation) {
    && (r.location.InFrame? || r.location.Nowhere?)
    && (r.location.InFrame? <==> exists k | i <= k < |frames| :: frames[k] == FormDisplayed)
    && (r.location.InFrame? ==>
          && i <= r.location.index < |frames| && frames[r.location.index] == FormDisplayed
          && (forall j | i <= j < r.location.index :: frames[j] != FormDisplayed)
          && |r.switches| == r.location.index + 1
          && r.context == Frame(r.location.index, r.switches[r.location.index].from))
    && (r.location.Nowhere? ==> |r.switches| == |frames| && r.context == Default)
  }

  lemma {:induction false} SearchFramesOutcome(frames: seq<FrameProbe>, i: nat, ctx: Context, switches: seq<Switch>)
    requires LoopState(frames, i, ctx, switches)
    ensures SearchOutcome(frames, i, SearchFrames(frames, i, ctx, switches))
    decreases |frames| - i
  {
    if i < |frames| {
      var s := Switch(i, ctx);
      ExtendLog(frames, i, ctx, switches);
      var next := if frames[i] == FormHidden then Frame(i, ctx) else Default;
      if frames[i] != FormDisplayed {
        SearchFramesOutcome(frames, i + 1, next, switches + [s]);
      }
    }
  }

  /** NavigateTo after GoToUrl (which leaves the driver in the top-level document). */
  function NavigateTo(page: PageLoad): (r: Navigation)
    ensures page.LoadFailed? ==> r == Navigation(Default, [], NotLoaded)
    ensures page.Loaded? && page.formInMainDocument ==> r == Navigation(Default, [], MainDocument)
    ensures page.Loaded? && !page.formInMainDocument ==> SwitchLog(page.frames, r.switches)
    ensures page.Loaded? && !page.formInMainDocument ==> SearchOutcome(page.frames, 0, r)
  {
    match page
    case LoadFailed => Navigation(Default, [], NotLoaded)
    case Loaded(true, _) => Navigation(Default, [], MainDocument)
    case Loaded(false, frames) =>
      SearchFramesOutcome(frames, 0, Default, []);
      SearchFrames(frames, 0, Default, [])
  }

  /** The quirk of a form that is present but not displayed: the loop neither breaks
      nor calls DefaultContent(), so the next SwitchTo().Frame(i + 1) is issued from
      inside frame i. Every other failed iteration returns to the top-level document. */
  lemma HiddenFormNestsNextSwitch(frames: seq<FrameProbe>, j: nat)
    requires j + 1 < |NavigateTo(Loaded(false, frames)).switches|
    ensures var sw := NavigateTo(Loaded(false, frames)).switches;
      sw[j + 1].from == if frames[j] == FormHidden then Frame(j, sw[j].from) else Default
  {
  }

  /** Hence when the first iframes all hold a hidden form, the driver ends up
      nested one frame deeper per iframe tried. */
  lemma {:induction false} HiddenPrefixNestsContexts(frames: seq<FrameProbe>, n: nat)
    requires n < |NavigateTo(Loaded(false, frames)).switches|
    requires forall j | 0 <= j < n :: frames[j] == FormHidden
    ensures NavigateTo(Loaded(false, frames)).switches[n].from == Nested(n)
  {
    if n > 0 {
      HiddenPrefixNestsContexts(frames, n - 1);
      HiddenFormNestsNextSwitch(frames, n - 1);
    }
  }

  /** Frame(n - 1) inside Frame(n - 2) inside ... inside Frame(0) of the top document. */
  function Nested(n: nat): Context {
    if n == 0 then Default else Frame(n - 1, Nested(n - 1))
  }
}

=== FILE: lookup.dfy ===
/** The two shadow-DOM lookup helpers of the page object: a single-host lookup with
    a fallback for hosts whose shadow root scripts cannot see, and a descent along a
    path of selectors through nested shadow roots. */
module ShadowLookup {
  import opened Options
  import opened Seqs
  import opened Text
  import opened Dom

  /** The alternative query for an open root: the first element that matches the
      selector or whose id equals the selector text with its first '#' removed. */
  function MatchesOrHasId(sel: Selector): Element -> bool {
    (e: Element) => sel.test(e) || e.id == RemoveFirst(sel.text, '#')
  }

  /** The id scan of the whole document: `#x` selects the element whose id is `x`. */
  function IdIs(id: string): Element -> bool {
    (e: Element) => e.id == id
  }

  /** FindElementInShadowDOM(shadowHost, cssSelector) on the document whose body is
      `body`. With an open root: the standard query, then the alternative query. With
      no visible root (closed or absent): an id scan of the document, only when the
      selector starts with '#'. Any script exception ends in null. */
  function FindElementInShadowDOM(body: Node, host: Node, sel: Selector): (r: Option<Node>)
    ensures host.shadow.Open? && r.Some? ==> r.value in LightNodes(host.shadow.roots)
    ensures host.shadow.Open? && !sel.valid ==> r.None?
    ensures host.shadow.Open? && sel.valid && QuerySelector(host.shadow.roots, sel.test).Some? ==>
      r == QuerySelector(host.shadow.roots, sel.test)
    ensures host.shadow.Open? && r.Some? ==>
      sel.test(r.value.el) || r.value.el.id == RemoveFirst(sel.text, '#')
    ensures !host.shadow.Open? && r.Some? ==>
      && StartsWithHash(sel.text)
      && r.value in LightNodes([body])
      && r.value.el.id == sel.text[1..]
    ensures !host.shadow.Open? && StartsWithHash(sel.text) ==>
      (r.None? <==> forall n | n in LightNodes([body]) :: n.el.id != sel.text[1..])
    ensures host.shadow.Open? && sel.valid && QuerySelector(host.shadow.roots, sel.test).None? ==>
      (r.None? <==> forall n | n in LightNodes(host.shadow.roots) :: !MatchesOrHasId(sel)(n.el))
    ensures host.shadow.Open? && sel.valid ==>
      if QuerySelector(host.shadow.roots, sel.test).Some?
      then IsFirstMatch(LightNodes(host.shadow.roots), sel.test, r)
      else IsFirstMatch(LightNodes(host.shadow.roots), MatchesOrHasId(sel), r)
    ensures !host.shadow.Open? && StartsWithHash(sel.text) ==>
      IsFirstMatch(LightNodes([body]), IdIs(sel.text[1..]), r)
  {
    match ShadowRootOf(host)
    case Some(roots) =>
      if !sel.valid then None
      else
        QuerySelectorIsFirst(roots, sel.test);
        QuerySelectorIsFirst(roots, MatchesOrHasId(sel));
        (match QuerySelector(roots, sel.test)
        case Some(n) => Some(n)
        case None => QuerySelector(roots, MatchesOrHasId(sel)))
    case None =>
      if StartsWithHash(sel.text) then
        QuerySelectorIsFirst([body], IdIs(sel.text[1..]));
        QuerySelector([body], IdIs(sel.text[1..]))
      else None
  }

  /** The script FindElementInNestedShadowDOM builds, from the element `current`:
      `element = element.shadowRoot.querySelector(selector)` once per selector, with
      no null check in between. */
  function Descend(current: Option<Node>, sels: seq<Selector>): (r: Result<Option<Node>, ScriptError>)
    ensures |sels| > 0 && r.Ok? && r.value.Some? ==> sels[|sels| - 1].test(r.value.value.el)
    ensures |sels| == 0 ==> r == Ok(current)
    ensures |sels| > 0 && (current.None? || !current.value.shadow.Open?) ==> r == Err(TypeError)
    ensures |sels| > 0 && current.Some? && current.value.shadow.Open? && !sels[0].valid ==> r == Err(SyntaxError)
    ensures r.Err? ==> r.error == TypeError || r.error == SyntaxError
    decreases |sels|
  {
    if |sels| == 0 then Ok(current)
    else match current
      case None => Err(TypeError)
      case Some(n) =>
        match ShadowRootOf(n)
        case None => Err(TypeError)
        case Some(roots) =>
          if !sels[0].valid then Err(SyntaxError)
          else Descend(QuerySelector(roots, sels[0].test), sels[1..])
  }

  /** FindElementInNestedShadowDOM(rootElement, selectors). */
  function FindElementInNestedShadowDOM(root: Node, sels: seq<Selector>): Result<Option<Node>, ScriptError> {
    Descend(Some(root), sels)
  }

  /** A descent along `a + b` is the descent along `a` continued along `b` from where
      it stopped; an exception along `a` is the exception of the whole. */
  lemma {:induction false} DescendConcat(current: Option<Node>, a: seq<Selector>, b: seq<Selector>)
    ensures Descend(current, a + b) == match Descend(current, a)
      case Ok(x) => Descend(x, b)
      case Err(e) => Err(e)
    decreases |a|
  {
    if |a| > 0 && current.Some? && ShadowRootOf(current.value).Some? && a[0].valid {
      assert (a + b)[0] == a[0] && (a + b)[1..] == a[1..] + b;
      DescendConcat(QuerySelector(current.value.shadow.roots, a[0].test), a[1..], b);
    } else if |a| > 0 {
      assert (a + b)[0] == a[0];
    } else {
      assert a + b == b;
    }
  }

  /** No null guard: once a step finds nothing, any further step throws a TypeError. */
  lemma NullStepThrows(root: Node, a: seq<Selector>, b: seq<Selector>)
    requires FindElementInNestedShadowDOM(root, a) == Ok(None)
    requires |b| > 0
    ensures FindElementInNestedShadowDOM(root, a + b) == Err(TypeError)
  {
    DescendConcat(Some(root), a, b);
  }

  /** A one-selector descent that finds an element agrees with the single-host lookup. */
  lemma SingleStepAgrees(body: Node, host: Node, sel: Selector)
    requires FindElementInNestedShadowDOM(host, [sel]).Ok?
    requires FindElementInNestedShadowDOM(host, [sel]).value.Some?
    ensures FindElementInShadowDOM(body, host, sel) == FindElementInNestedShadowDOM(host, [sel]).value
  {
    assert [sel][1..] == [];
    var q := QuerySelector(host.shadow.roots, sel.test);
    assert Descend(Some(host), [sel]) == Descend(q, []);
  }
}

=== FILE: mutators.dfy ===
/** The shadow-DOM mutators of the page object: EnterFirstNameInShadowDOM,
    SelectGenderInShadowDOM, SelectStateInShadowDOM and InteractWithNestedShadowDOM.
    Each runs three scripts in a fixed order, each in its own try block, and never
    throws; the model returns the document they leave and how each script ended. */
module ShadowMutators {
  import opened Options
  import opened Seqs
  import opened Text
  import opened Dom
  import opened ShadowLookup
  import opened DeepTraversal
  import opened Approaches

  function HasTag(tag: string): Element -> bool {
    (e: Element) => e.tag == tag
  }

  function HasId(id: string): Element -> bool {
    (e: Element) => e.id == id
  }

  /** A selector naming a tag, such as `shadow-form`: always accepted by the browser. */
  function TagSelector(tag: string): Selector {
    Selector(tag, true, HasTag(tag))
  }

  function SetValue(v: string): Element -> Element {
    (e: Element) => e.(value := Some(v))
  }

  // ---------------------------------------------------------------------------
  // EnterFirstNameInShadowDOM

  /** `input[type="text"]`. */
  predicate IsTextInput(e: Element) {
    IsInputOfType(e, "text")
  }

  /** An input whose id or name is `fname`. */
  predicate IsFirstNameInput(e: Element) {
    e.tag == "input" && (e.id == "fname" || e.name == "fname")
  }

  function SetIfTextInput(v: string): Element -> Element {
    (e: Element) => if IsTextInput(e) then e.(value := Some(v)) else e
  }

  function SetIfFirstNameInput(v: string): Element -> Element {
    (e: Element) => if IsFirstNameInput(e) then e.(value := Some(v)) else e
  }

  /** The property the second approach establishes: a text input holds `v`. */
  function TextInputHolds(v: string): Element -> bool {
    (e: Element) => IsTextInput(e) ==> e.value == Some(v)
  }

  /** The property the third approach establishes: a first-name input holds `v`. */
  function FirstNameInputHolds(v: string): Element -> bool {
    (e: Element) => IsFirstNameInput(e) ==> e.value == Some(v)
  }

  /** First approach: in the shadow tree of every `shadow-form`, the element with id
      `fname` takes the value. */
  function FirstNameInEachForm(v: string): Script {
    (body: Node) => Ok(ForEachHost(body, HasTag("shadow-form"), FirstShadowElement(HasId("fname"), SetValue(v))))
  }

  /** Second approach, corrected: every text input of every open shadow tree whose
      host is in the light tree takes the value (the script saves `arguments[0]`
      before its `forEach` callback). */
  function FirstNameInEveryShadowTextInput(v: string): Script {
    (body: Node) => Ok(ForEachHost(body, AnyElement(), EveryShadowElement(SetIfTextInput(v))))
  }

  /** Second approach as written: the assignment reads `arguments[0]` inside the
      `forEach(function (el) { ... })` callback, where it is the host element `el`
      and not the name, so every text input takes the host's string conversion.
      `hostText(tag)` is `String(el)` for a host with that tag ("[object HTMLElement]"
      for a custom element such as `shadow-form`); the name is never read. */
  function FirstNameInEveryShadowTextInputAsWritten(hostText: string -> string): Script {
    (body: Node) => Ok(ForEachHostWith(body, AnyElement(), EveryShadowElementOf(SetHostText(hostText))))
  }

  /** The as-written loop body's assignment inside the shadow tree of `host`. */
  function SetHostText(hostText: string -> string): Element -> (Element -> Element) {
    (host: Element) => SetIfTextInput(hostText(host.tag))
  }

  /** What the second approach as written establishes: a text input in a host's
      shadow tree holds the host's string conversion. */
  function HostTextHolds(hostText: string -> string): (Element, Element) -> bool {
    (host: Element, e: Element) => IsTextInput(e) ==> e.value == Some(hostText(host.tag))
  }

  /** Third approach: every light-DOM input with id or name `fname` takes the value. */
  function FirstNameDirect(v: string): Script {
    (body: Node) => Ok(LightEdit(body, SetIfFirstNameInput(v)))
  }

  /** EnterFirstNameInShadowDOM with its second script corrected to write the name. */
  function EnterFirstNameInShadowDOM(body: Node, firstName: string, faults: Faults): (r: Run)
    ensures |r.outcomes| == 3
  {
    RunThree(body, faults, FirstNameInEachForm(firstName), FirstNameInEveryShadowTextInput(firstName), FirstNameDirect(firstName))
  }

  /** EnterFirstNameInShadowDOM as written. */
  function EnterFirstNameInShadowDOMAsWritten(body: Node, firstName: string, hostText: string -> string, faults: Faults): (r: Run)
    ensures |r.outcomes| == 3
  {
    RunThree(body, faults, FirstNameInEachForm(firstName), FirstNameInEveryShadowTextInputAsWritten(hostText), FirstNameDirect(firstName))
  }

  /** None of the three scripts throws on its own: each completes unless the driver
      fails on it. */
  lemma EnterFirstNameInShadowDOMOutcomes(body: Node, firstName: string, faults: Faults)
    ensures var r := EnterFirstNameInShadowDOM(body, firstName, faults);
      && (r.outcomes[0] == Completed <==> !faults.first)
      && (r.outcomes[1] == Completed <==> !faults.second)
      && (r.outcomes[2] == Completed <==> !faults.third)
  {
    var s1 := FirstNameInEachForm(firstName);
    var s2 := FirstNameInEveryShadowTextInput(firstName);
    var s3 := FirstNameDirect(firstName);
    RunThreeSteps(body, faults, s1, s2, s3);
    var a1 := Attempt(body, faults.first, s1);
    var a2 := Attempt(a1.0, faults.second, s2);
    assert s1(body).Ok? && s2(a1.0).Ok? && s3(a2.0).Ok?;
  }

  /** The same holds of the scripts as written. */
  lemma EnterFirstNameInShadowDOMAsWrittenOutcomes(body: Node, firstName: string, hostText: string -> string, faults: Faults)
    ensures var r := EnterFirstNameInShadowDOMAsWritten(body, firstName, hostText, faults);
      && (r.outcomes[0] == Completed <==> !faults.first)
      && (r.outcomes[1] == Completed <==> !faults.second)
      && (r.outcomes[2] == Completed <==> !faults.third)
  {
    var s1 := FirstNameInEachForm(firstName);
    var s2 := FirstNameInEveryShadowTextInputAsWritten(hostText);
    var s3 := FirstNameDirect(firstName);
    RunThreeSteps(body, faults, s1, s2, s3);
    var a1 := Attempt(body, faults.first, s1);
    var a2 := Attempt(a1.0, faults.second, s2);
    assert s1(body).Ok? && s2(a1.0).Ok? && s3(a2.0).Ok?;
  }

  lemma TextInputsHold(body: Node, v: string)
    ensures ShadowsSatisfy(ForEachHost(body, AnyElement(), EveryShadowElement(SetIfTextInput(v))), TextInputHolds(v))
  {
    EveryShadowElementSatisfies(body, SetIfTextInput(v), TextInputHolds(v));
  }

  lemma HostTextInputsHold(body: Node, hostText: string -> string)
    ensures ShadowsSatisfyPerHost(ForEachHostWith(body, AnyElement(), EveryShadowElementOf(SetHostText(hostText))), HostTextHolds(hostText))
  {
    forall host: Element, e: Element
      ensures HostTextHolds(hostText)(host, SetHostText(hostText)(host)(e))
    {
      var x := SetIfTextInput(hostText(host.tag))(e);
      assert IsTextInput(x) ==> x.value == Some(hostText(host.tag));
    }
    EveryShadowElementSatisfiesPerHost(body, SetHostText(hostText), HostTextHolds(hostText));
  }

  lemma FirstNameInputsHold(body: Node, v: string)
    ensures LightSatisfies(LightEdit(body, SetIfFirstNameInput(v)), FirstNameInputHolds(v))
  {
    LightEditSatisfies(body, SetIfFirstNameInput(v), FirstNameInputHolds(v));
  }

  /** With the second script corrected: unless the driver fails on it, the second
      approach leaves every text input of every open shadow tree whose host is in
      the light tree holding the name, and the third, which runs after it and only
      touches the light DOM, keeps that and leaves every light-DOM first-name input
      holding it too. */
  lemma EnterFirstNameInShadowDOMEffects(body: Node, firstName: string, faults: Faults)
    ensures var r := EnterFirstNameInShadowDOM(body, firstName, faults);
      !faults.second ==> ShadowsSatisfy(r.body, TextInputHolds(firstName))
    ensures var r := EnterFirstNameInShadowDOM(body, firstName, faults);
      !faults.third ==> LightSatisfies(r.body, FirstNameInputHolds(firstName))
  {
    var s1 := FirstNameInEachForm(firstName);
    var s2 := FirstNameInEveryShadowTextInput(firstName);
    var s3 := FirstNameDirect(firstName);
    RunThreeSteps(body, faults, s1, s2, s3);
    var b1 := Attempt(body, faults.first, s1).0;
    var b2 := Attempt(b1, faults.second, s2).0;
    var b3 := Attempt(b2, faults.third, s3).0;
    assert EnterFirstNameInShadowDOM(body, firstName, faults).body == b3;
    if !faults.second {
      assert b2 == ForEachHost(b1, AnyElement(), EveryShadowElement(SetIfTextInput(firstName)));
      TextInputsHold(b1, firstName);
      if !faults.third {
        assert b3 == LightEdit(b2, SetIfFirstNameInput(firstName));
        LightEditKeepsShadows(b2, SetIfFirstNameInput(firstName), TextInputHolds(firstName));
      }
    }
    if !faults.third {
      assert b3 == LightEdit(b2, SetIfFirstNameInput(firstName));
      FirstNameInputsHold(b2, firstName);
    }
  }

  /** As written: unless the driver fails on it, the second approach leaves every text
      input of every open shadow tree whose host is in the light tree holding that
      host's string conversion, whatever the name, and the third approach keeps that
      while leaving every light-DOM first-name input holding the name. */
  lemma EnterFirstNameInShadowDOMAsWrittenEffects(body: Node, firstName: string, hostText: string -> string, faults: Faults)
    ensures var r := EnterFirstNameInShadowDOMAsWritten(body, firstName, hostText, faults);
      !faults.second ==> ShadowsSatisfyPerHost(r.body, HostTextHolds(hostText))
    ensures var r := EnterFirstNameInShadowDOMAsWritten(body, firstName, hostText, faults);
      !faults.third ==> LightSatisfies(r.body, FirstNameInputHolds(firstName))
  {
    var s1 := FirstNameInEachForm(firstName);
    var s2 := FirstNameInEveryShadowTextInputAsWritten(hostText);
    var s3 := FirstNameDirect(firstName);
    RunThreeSteps(body, faults, s1, s2, s3);
    var b1 := Attempt(body, faults.first, s1).0;
    var b2 := Attempt(b1, faults.second, s2).0;
    var b3 := Attempt(b2, faults.third, s3).0;
    assert EnterFirstNameInShadowDOMAsWritten(body, firstName, hostText, faults).body == b3;
    if !faults.second {
      assert b2 == ForEachHostWith(b1, AnyElement(), EveryShadowElementOf(SetHostText(hostText)));
      HostTextInputsHold(b1, hostText);
      if !faults.third {
        assert b3 == LightEdit(b2, SetIfFirstNameInput(firstName));
        DirectKeepsHostText(b2, firstName, hostText);
      }
    }
    if !faults.third {
      assert b3 == LightEdit(b2, SetIfFirstNameInput(firstName));
      FirstNameInputsHold(b2, firstName);
    }
  }

  lemma DirectKeepsHostText(body: Node, firstName: string, hostText: string -> string)
    requires ShadowsSatisfyPerHost(body, HostTextHolds(hostText))
    ensures ShadowsSatisfyPerHost(LightEdit(body, SetIfFirstNameInput(firstName)), HostTextHolds(hostText))
  {
    LightEditKeepsShadowsPerHost(body, SetIfFirstNameInput(firstName), HostTextHolds(hostText));
  }

  function ValueIs(v: string): Element -> bool {
    (e: Element) => e.value == Some(v)
  }

  /** What the first approach leaves that the second as written cannot undo: a text
      input, or an element holding the name. */
  function TextInputOrValueIs(v: string): Element -> bool {
    (e: Element) => IsTextInput(e) || e.value == Some(v)
  }

  /** The first approach on any page: in the open shadow tree of every `shadow-form`
      of the light tree, the first element with id `fname`, if any, holds the name. */
  lemma FirstNameInEachFormHolds(body: Node, v: string)
    ensures FirstInHostsSatisfies(ForEachHost(body, HasTag("shadow-form"), FirstShadowElement(HasId("fname"), SetValue(v))),
                                  HasTag("shadow-form"), HasId("fname"), ValueIs(v))
  {
    FirstShadowElementSatisfies(body, HasTag("shadow-form"), HasId("fname"), SetValue(v), ValueIs(v));
  }

  /** With the second script corrected: unless the driver fails on the first approach,
      the first `#fname` of every open `shadow-form` ends holding the name, whatever
      its type, since the later approaches write the same name or leave it alone. */
  lemma EnterFirstNameInShadowDOMForms(body: Node, firstName: string, faults: Faults)
    ensures var r := EnterFirstNameInShadowDOM(body, firstName, faults);
      !faults.first ==> FirstInHostsSatisfies(r.body, HasTag("shadow-form"), HasId("fname"), ValueIs(firstName))
  {
    var s1 := FirstNameInEachForm(firstName);
    var s2 := FirstNameInEveryShadowTextInput(firstName);
    var s3 := FirstNameDirect(firstName);
    RunThreeSteps(body, faults, s1, s2, s3);
    var b1 := Attempt(body, faults.first, s1).0;
    var b2 := Attempt(b1, faults.second, s2).0;
    var b3 := Attempt(b2, faults.third, s3).0;
    assert EnterFirstNameInShadowDOM(body, firstName, faults).body == b3;
    if !faults.first {
      assert b1 == ForEachHost(body, HasTag("shadow-form"), FirstShadowElement(HasId("fname"), SetValue(firstName)));
      FirstNameInEachFormHolds(body, firstName);
      if !faults.second {
        assert b2 == ForEachHost(b1, AnyElement(), EveryShadowElement(SetIfTextInput(firstName)));
        TextInputsKeepForms(b1, firstName);
      }
      if !faults.third {
        assert b3 == LightEdit(b2, SetIfFirstNameInput(firstName));
        DirectKeepsForms(b2, firstName, ValueIs(firstName));
      }
    }
  }

  /** As written: unless the driver fails on the first approach, the first `#fname` of
      every open `shadow-form` that is not a text input ends holding the name. A text
      one ends holding the host's string conversion instead
      (EnterFirstNameInShadowDOMAsWrittenEffects). */
  lemma EnterFirstNameInShadowDOMAsWrittenForms(body: Node, firstName: string, hostText: string -> string, faults: Faults)
    ensures var r := EnterFirstNameInShadowDOMAsWritten(body, firstName, hostText, faults);
      !faults.first ==> FirstInHostsSatisfies(r.body, HasTag("shadow-form"), HasId("fname"), TextInputOrValueIs(firstName))
  {
    var s1 := FirstNameInEachForm(firstName);
    var s2 := FirstNameInEveryShadowTextInputAsWritten(hostText);
    var s3 := FirstNameDirect(firstName);
    RunThreeSteps(body, faults, s1, s2, s3);
    var b1 := Attempt(body, faults.first, s1).0;
    var b2 := Attempt(b1, faults.second, s2).0;
    var b3 := Attempt(b2, faults.third, s3).0;
    assert EnterFirstNameInShadowDOMAsWritten(body, firstName, hostText, faults).body == b3;
    if !faults.first {
      assert b1 == ForEachHost(body, HasTag("shadow-form"), FirstShadowElement(HasId("fname"), SetValue(firstName)));
      FirstShadowElementSatisfies(body, HasTag("shadow-form"), HasId("fname"), SetValue(firstName), TextInputOrValueIs(firstName));
      if !faults.second {
        assert b2 == ForEachHostWith(b1, AnyElement(), EveryShadowElementOf(SetHostText(hostText)));
        HostTextKeepsForms(b1, firstName, hostText);
      }
      if !faults.third {
        assert b3 == LightEdit(b2, SetIfFirstNameInput(firstName));
        DirectKeepsForms(b2, firstName, TextInputOrValueIs(firstName));
      }
    }
  }

  lemma HostTextKeepsForms(body: Node, firstName: string, hostText: string -> string)
    requires FirstInHostsSatisfies(body, HasTag("shadow-form"), HasId("fname"), TextInputOrValueIs(firstName))
    ensures FirstInHostsSatisfies(ForEachHostWith(body, AnyElement(), EveryShadowElementOf(SetHostText(hostText))),
                                  HasTag("shadow-form"), HasId("fname"), TextInputOrValueIs(firstName))
  {
    forall host: Element, e: Element
      ensures var x := SetHostText(hostText)(host)(e);
        HasId("fname")(x) == HasId("fname")(e) && (TextInputOrValueIs(firstName)(e) ==> TextInputOrValueIs(firstName)(x))
    {
      var x := SetIfTextInput(hostText(host.tag))(e);
      assert x.id == e.id && (IsTextInput(e) ==> IsTextInput(x)) && (!IsTextInput(e) ==> x == e);
    }
    EveryShadowElementOfKeepsFirst(body, HasTag("shadow-form"), HasId("fname"), SetHostText(hostText), TextInputOrValueIs(firstName));
  }

  lemma TextInputsKeepForms(body: Node, firstName: string)
    requires FirstInHostsSatisfies(body, HasTag("shadow-form"), HasId("fname"), ValueIs(firstName))
    ensures FirstInHostsSatisfies(ForEachHost(body, AnyElement(), EveryShadowElement(SetIfTextInput(firstName))),
                                  HasTag("shadow-form"), HasId("fname"), ValueIs(firstName))
  {
    EveryShadowElementKeepsFirst(body, HasTag("shadow-form"), HasId("fname"), SetIfTextInput(firstName), ValueIs(firstName));
  }

  /** The third approach never reaches into shadow trees, and keeps every tag. */
  lemma DirectKeepsForms(body: Node, firstName: string, P: Element -> bool)
    requires FirstInHostsSatisfies(body, HasTag("shadow-form"), HasId("fname"), P)
    ensures FirstInHostsSatisfies(LightEdit(body, SetIfFirstNameInput(firstName)), HasTag("shadow-form"), HasId("fname"), P)
  {
    LightEditKeepsHosts(body, SetIfFirstNameInput(firstName), HasTag("shadow-form"), HasId("fname"), P);
  }

  /** A page whose one `shadow-form` host holds, in its open shadow tree, a text input
      with id `fname` whose value is `v`. */
  function NameFormWith(v: Option<string>): Node {
    Node(Plain("body"), NoShadow, [Node(Plain("shadow-form"), Open([NameInput(v)]), [])])
  }

  function NameInput(v: Option<string>): Node {
    Node(Element("input", "fname", "fname", "text", v, false, [], -1), NoShadow, [])
  }

  /** An element with a tag and nothing else. */
  function Plain(tag: string): Element {
    Element(tag, "", "", "", None, false, [], -1)
  }

  /** The second script as written undoes the first: on a page with one `shadow-form`
      whose `#fname` is a text input, the first approach writes the name into it, and
      after all three approaches it holds the host's string conversion instead. */
  lemma SecondApproachClobbersName(firstName: string, hostText: string -> string)
    ensures FirstNameInEachForm(firstName)(NameFormWith(None)) == Ok(NameFormWith(Some(firstName)))
    ensures var r := EnterFirstNameInShadowDOMAsWritten(NameFormWith(None), firstName, hostText, Faults(false, false, false));
      r.body == NameFormWith(Some(hostText("shadow-form")))
  {
    var v := Some(hostText("shadow-form"));
    NameFormFirstApproach(firstName);
    NameFormSecondAsWritten(Some(firstName), hostText);
    NameFormThirdApproach(v, firstName);
    RunThreeSteps(NameFormWith(None), Faults(false, false, false), FirstNameInEachForm(firstName),
      FirstNameInEveryShadowTextInputAsWritten(hostText), FirstNameDirect(firstName));
  }

  /** With the second script corrected, the same page ends with the name in `#fname`. */
  lemma CorrectedSecondApproachKeepsName(firstName: string)
    ensures var r := EnterFirstNameInShadowDOM(NameFormWith(None), firstName, Faults(false, false, false));
      r.body == NameFormWith(Some(firstName))
  {
    NameFormFirstApproach(firstName);
    NameFormSecondCorrected(Some(firstName), firstName);
    NameFormThirdApproach(Some(firstName), firstName);
    RunThreeSteps(NameFormWith(None), Faults(false, false, false), FirstNameInEachForm(firstName),
      FirstNameInEveryShadowTextInput(firstName), FirstNameDirect(firstName));
  }

  lemma NameFormFirstApproach(firstName: string)
    ensures FirstNameInEachForm(firstName)(NameFormWith(None)) == Ok(NameFormWith(Some(firstName)))
  {
    var h := InShadowOf(HasTag("shadow-form"), FirstShadowElement(HasId("fname"), SetValue(firstName)));
    NameInputRenamed(firstName);
    NameFormMapped(h, None, Some(firstName));
  }

  lemma NameInputRenamed(firstName: string)
    ensures FirstShadowElement(HasId("fname"), SetValue(firstName))([NameInput(None)]) == [NameInput(Some(firstName))]
  {
    assert [NameInput(None)][1..] == [];
    assert UpdateFirst([NameInput(None)], HasId("fname"), Lift(SetValue(firstName))).0 == [NameInput(Some(firstName))];
  }

  lemma NameInputIsText(v: Option<string>)
    ensures IsTextInput(NameInput(v).el)
  {
    assert ToLower("text") == "text";
  }

  lemma NameFormSecondAsWritten(v: Option<string>, hostText: string -> string)
    ensures FirstNameInEveryShadowTextInputAsWritten(hostText)(NameFormWith(v)) == Ok(NameFormWith(Some(hostText("shadow-form"))))
  {
    var w := Some(hostText("shadow-form"));
    var g := EveryShadowElementOf(SetHostText(hostText));
    assert g(Plain("shadow-form"))([NameInput(v)]) == [NameInput(w)] by {
      NameInputIsText(v);
      assert [NameInput(v)][1..] == [];
    }
    NameFormMapped(InShadowOfEach(AnyElement(), g), v, w);
  }

  lemma NameFormSecondCorrected(v: Option<string>, firstName: string)
    ensures FirstNameInEveryShadowTextInput(firstName)(NameFormWith(v)) == Ok(NameFormWith(Some(firstName)))
  {
    var g := EveryShadowElement(SetIfTextInput(firstName));
    assert g([NameInput(v)]) == [NameInput(Some(firstName))] by {
      NameInputIsText(v);
      assert [NameInput(v)][1..] == [];
    }
    NameFormMapped(InShadowOf(AnyElement(), g), v, Some(firstName));
  }

  /** The third approach reaches only the light DOM, which here has no first-name input. */
  lemma NameFormThirdApproach(v: Option<string>, firstName: string)
    ensures FirstNameDirect(firstName)(NameFormWith(v)) == Ok(NameFormWith(v))
  {
    NameFormMapped(Lift(SetIfFirstNameInput(firstName)), v, v);
  }

  /** A rewrite of every node of the page's light tree that keeps the body and takes
      the form's shadow tree from one input value to another. */
  lemma NameFormMapped(h: Facet -> Facet, v: Option<string>, w: Option<string>)
    requires h(Facet(Plain("body"), NoShadow)) == Facet(Plain("body"), NoShadow)
    requires h(Facet(Plain("shadow-form"), Open([NameInput(v)]))) == Facet(Plain("shadow-form"), Open([NameInput(w)]))
    ensures MapLight([NameFormWith(v)], h) == [NameFormWith(w)]
  {
    var form := NameFormWith(v).children[0];
    assert MapLight([form], h) == [NameFormWith(w).children[0]] by {
      assert [form][1..] == [];
    }
    var page := NameFormWith(v);
    assert [page][1..] == [];
  }

  // ---------------------------------------------------------------------------
  // SelectGenderInShadowDOM

  /** `input[type="radio"]`. */
  predicate IsRadio(e: Element) {
    IsInputOfType(e, "radio")
  }

  /** The value property as a string, "" for null. */
  function ValueText(e: Element): string {
    e.value.GetOr("")
  }

  /** The second approach's test: a non-empty id or a non-empty value that equals
      the gender, both lower-cased. */
  predicate NamesGender(e: Element, gender: string) {
    || (e.id != "" && ToLower(e.id) == ToLower(gender))
    || (ValueText(e) != "" && ToLower(ValueText(e)) == ToLower(gender))
  }

  /** The third approach's test: `(id || '')` and `(value || '')`, lower-cased, so an
      empty id or value is compared as "". */
  predicate NamesGenderLoosely(e: Element, gender: string) {
    ToLower(e.id) == ToLower(gender) || ToLower(ValueText(e)) == ToLower(gender)
  }

  function CheckIf(p: Element -> bool): Element -> Element {
    (e: Element) => if p(e) then e.(checked := true) else e
  }

  function GenderRadio(gender: string): Element -> bool {
    (e: Element) => IsRadio(e) && NamesGender(e, gender)
  }

  function GenderRadioLoosely(gender: string): Element -> bool {
    (e: Element) => IsRadio(e) && NamesGenderLoosely(e, gender)
  }

  /** A radio the given test picks out is checked. */
  function CheckedIf(p: Element -> bool): Element -> bool {
    (e: Element) => p(e) ==> e.checked
  }

  /** Whether some element of the light tree is an open `shadow-form` host. */
  predicate HasOpenShadowForm(body: Node) {
    FirstIndex(Facets([body]), (fa: Facet) => fa.el.tag == "shadow-form" && fa.shadow.Open?).Some?
  }

  /** First approach: in the shadow tree of every `shadow-form`, the first match of
      `'#' + gender.toLowerCase()` is checked. The browser parses that selector; a
      selector it rejects throws at the first open host, before anything is checked. */
  function GenderInEachForm(idSelector: Selector): Script {
    (body: Node) => CheckInEachForm(body, idSelector)
  }

  function CheckInEachForm(body: Node, idSelector: Selector): (r: Result<Node, ScriptError>)
    ensures r.Err? <==> !idSelector.valid && HasOpenShadowForm(body)
    ensures r.Err? ==> r.error == SyntaxError
  {
    if !idSelector.valid && HasOpenShadowForm(body) then Err(SyntaxError)
    else Ok(ForEachHost(body, HasTag("shadow-form"), FirstShadowElement(Hits(idSelector), CheckIf(AnyElement()))))
  }

  /** Second approach: every radio of every open shadow tree that names the gender is checked. */
  function GenderInEveryShadowRadio(gender: string): Script {
    (body: Node) => Ok(ForEachHost(body, AnyElement(), EveryShadowElement(CheckIf(GenderRadio(gender)))))
  }

  /** Third approach: every light-DOM radio that loosely names the gender is checked. */
  function GenderDirect(gender: string): Script {
    (body: Node) => Ok(LightEdit(body, CheckIf(GenderRadioLoosely(gender))))
  }

  /** SelectGenderInShadowDOM(gender). `parse` is the browser's selector parser, applied
      to the selector the first approach builds. */
  function SelectGenderInShadowDOM(body: Node, gender: string, parse: string -> Selector, faults: Faults): (r: Run)
    ensures |r.outcomes| == 3
  {
    RunThree(body, faults, GenderInEachForm(parse("#" + ToLower(gender))), GenderInEveryShadowRadio(gender), GenderDirect(gender))
  }

  /** Only the first approach can throw on its own: when the browser rejects the id
      selector built from the gender and an open `shadow-form` exists. */
  lemma SelectGenderInShadowDOMOutcomes(body: Node, gender: string, parse: string -> Selector, faults: Faults)
    ensures var r := SelectGenderInShadowDOM(body, gender, parse, faults);
      && (r.outcomes[1] == Completed <==> !faults.second)
      && (r.outcomes[2] == Completed <==> !faults.third)
    ensures var r := SelectGenderInShadowDOM(body, gender, parse, faults);
      r.outcomes[0] == Threw(SyntaxError) <==>
        !faults.first && !parse("#" + ToLower(gender)).valid && HasOpenShadowForm(body)
  {
    var sel := parse("#" + ToLower(gender));
    var s1 := GenderInEachForm(sel);
    var s2 := GenderInEveryShadowRadio(gender);
    var s3 := GenderDirect(gender);
    RunThreeSteps(body, faults, s1, s2, s3);
    var a1 := Attempt(body, faults.first, s1);
    var a2 := Attempt(a1.0, faults.second, s2);
    var a3 := Attempt(a2.0, faults.third, s3);
    assert s1(body) == CheckInEachForm(body, sel);
    assert s2(a1.0).Ok?;
    assert s3(a2.0).Ok?;
  }

  lemma GenderRadiosChecked(body: Node, gender: string)
    ensures ShadowsSatisfy(ForEachHost(body, AnyElement(), EveryShadowElement(CheckIf(GenderRadio(gender)))),
                           CheckedIf(GenderRadio(gender)))
  {
    EveryShadowElementSatisfies(body, CheckIf(GenderRadio(gender)), CheckedIf(GenderRadio(gender)));
  }

  lemma LooseGenderRadiosChecked(body: Node, gender: string)
    ensures LightSatisfies(LightEdit(body, CheckIf(GenderRadioLoosely(gender))), CheckedIf(GenderRadioLoosely(gender)))
  {
    LightEditSatisfies(body, CheckIf(GenderRadioLoosely(gender)), CheckedIf(GenderRadioLoosely(gender)));
  }

  /** Unless the driver fails on it, the second approach checks every shadow-tree
      radio whose id or value names the gender, ignoring case; the third then checks
      every light-DOM radio that does, and keeps the shadow trees as they were. */
  lemma SelectGenderInShadowDOMEffects(body: Node, gender: string, parse: string -> Selector, faults: Faults)
    ensures var r := SelectGenderInShadowDOM(body, gender, parse, faults);
      !faults.second ==> ShadowsSatisfy(r.body, CheckedIf(GenderRadio(gender)))
    ensures var r := SelectGenderInShadowDOM(body, gender, parse, faults);
      !faults.third ==> LightSatisfies(r.body, CheckedIf(GenderRadioLoosely(gender)))
  {
    var s1 := GenderInEachForm(parse("#" + ToLower(gender)));
    var s2 := GenderInEveryShadowRadio(gender);
    var s3 := GenderDirect(gender);
    RunThreeSteps(body, faults, s1, s2, s3);
    var b1 := Attempt(body, faults.first, s1).0;
    var b2 := Attempt(b1, faults.second, s2).0;
    var b3 := Attempt(b2, faults.third, s3).0;
    assert SelectGenderInShadowDOM(body, gender, parse, faults).body == b3;
    if !faults.second {
      assert b2 == ForEachHost(b1, AnyElement(), EveryShadowElement(CheckIf(GenderRadio(gender))));
      GenderRadiosChecked(b1, gender);
      if !faults.third {
        assert b3 == LightEdit(b2, CheckIf(GenderRadioLoosely(gender)));
        LightEditKeepsShadows(b2, CheckIf(GenderRadioLoosely(gender)), CheckedIf(GenderRadio(gender)));
      }
    }
    if !faults.third {
      assert b3 == LightEdit(b2, CheckIf(GenderRadioLoosely(gender)));
      LooseGenderRadiosChecked(b2, gender);
    }
  }

  function IsChecked(): Element -> bool {
    (e: Element) => e.checked
  }

  /** The first approach on any page whose id selector the browser accepts: in the open
      shadow tree of every `shadow-form`, the first match of the selector, if any, is
      checked. The selector must not depend on `checked`, which the script sets. */
  lemma GenderInEachFormChecks(body: Node, sel: Selector)
    requires forall e: Element :: sel.test(e.(checked := true)) == sel.test(e)
    ensures CheckInEachForm(body, sel).Ok? ==>
      FirstInHostsSatisfies(CheckInEachForm(body, sel).value, HasTag("shadow-form"), Hits(sel), IsChecked())
  {
    if CheckInEachForm(body, sel).Ok? {
      FirstShadowElementSatisfies(body, HasTag("shadow-form"), Hits(sel), CheckIf(AnyElement()), IsChecked());
    }
  }

  /** When the first approach completes, the first match of its id selector in every
      open `shadow-form` tree ends checked: the later approaches only check radios. */
  lemma SelectGenderInShadowDOMForms(body: Node, gender: string, parse: string -> Selector, faults: Faults)
    requires forall e: Element :: parse("#" + ToLower(gender)).test(e.(checked := true)) == parse("#" + ToLower(gender)).test(e)
    ensures var r := SelectGenderInShadowDOM(body, gender, parse, faults);
      r.outcomes[0] == Completed ==>
        FirstInHostsSatisfies(r.body, HasTag("shadow-form"), Hits(parse("#" + ToLower(gender))), IsChecked())
  {
    var sel := parse("#" + ToLower(gender));
    var s1 := GenderInEachForm(sel);
    var s2 := GenderInEveryShadowRadio(gender);
    var s3 := GenderDirect(gender);
    RunThreeSteps(body, faults, s1, s2, s3);
    var a1 := Attempt(body, faults.first, s1);
    var b2 := Attempt(a1.0, faults.second, s2).0;
    var b3 := Attempt(b2, faults.third, s3).0;
    assert SelectGenderInShadowDOM(body, gender, parse, faults).body == b3;
    if a1.1 == Completed {
      GenderFirstAttemptChecks(body, faults.first, sel);
      if !faults.second {
        assert b2 == ForEachHost(a1.0, AnyElement(), EveryShadowElement(CheckIf(GenderRadio(gender))));
        GenderRadiosKeepForms(a1.0, gender, sel);
      }
      if !faults.third {
        assert b3 == LightEdit(b2, CheckIf(GenderRadioLoosely(gender)));
        GenderDirectKeepsForms(b2, gender, sel);
      }
    }
  }

  lemma GenderFirstAttemptChecks(body: Node, fault: bool, sel: Selector)
    requires forall e: Element :: sel.test(e.(checked := true)) == sel.test(e)
    ensures var a := Attempt(body, fault, GenderInEachForm(sel));
      a.1 == Completed ==> FirstInHostsSatisfies(a.0, HasTag("shadow-form"), Hits(sel), IsChecked())
  {
    GenderInEachFormChecks(body, sel);
  }

  /** The third approach never reaches into shadow trees, and keeps every tag. */
  lemma GenderDirectKeepsForms(body: Node, gender: string, sel: Selector)
    requires FirstInHostsSatisfies(body, HasTag("shadow-form"), Hits(sel), IsChecked())
    ensures FirstInHostsSatisfies(LightEdit(body, CheckIf(GenderRadioLoosely(gender))), HasTag("shadow-form"), Hits(sel), IsChecked())
  {
    LightEditKeepsHosts(body, CheckIf(GenderRadioLoosely(gender)), HasTag("shadow-form"), Hits(sel), IsChecked());
  }

  lemma GenderRadiosKeepForms(body: Node, gender: string, sel: Selector)
    requires forall e: Element :: sel.test(e.(checked := true)) == sel.test(e)
    requires FirstInHostsSatisfies(body, HasTag("shadow-form"), Hits(sel), IsChecked())
    ensures FirstInHostsSatisfies(ForEachHost(body, AnyElement(), EveryShadowElement(CheckIf(GenderRadio(gender)))),
                                  HasTag("shadow-form"), Hits(sel), IsChecked())
  {
    var h := CheckIf(GenderRadio(gender));
    forall e: Element ensures Hits(sel)(h(e)) == Hits(sel)(e) && (IsChecked()(e) ==> IsChecked()(h(e))) {
      assert h(e) == e || h(e) == e.(checked := true);
    }
    EveryShadowElementKeepsFirst(body, HasTag("shadow-form"), Hits(sel), h, IsChecked());
  }

  /** The two tests differ on an empty gender: the loose one picks every radio with
      no id, the strict one picks none. */
  lemma EmptyGenderMatchesUnnamedRadios(e: Element)
    requires IsRadio(e) && e.id == ""
    ensures GenderRadioLoosely("")(e)
    ensures !GenderRadio("")(e)
  {
    assert ToLower("") == "";
    assert ToLower(ValueText(e)) == "" ==> |ValueText(e)| == 0;
  }

  // ---------------------------------------------------------------------------
  // SelectStateInShadowDOM

  function IsSelect(e: Element): bool {
    e.tag == "select"
  }

  /** The first approach's assignment: select the first option whose text is `state`,
      then, when there is more than one option, select the second one regardless.
      Only a select has options; any other element is left alone. */
  function ChooseOption(state: string): Element -> Element {
    (e: Element) => Choose(e, state)
  }

  function TextIs(text: string): string -> bool {
    (o: string) => o == text
  }

  function Choose(e: Element, state: string): Element {
    if !IsSelect(e) then e
    else
      var chosen := match FirstIndex(e.options, TextIs(state))
        case Some(j) => e.(selectedIndex := j)
        case None => e;
      if |e.options| > 1 then chosen.(selectedIndex := 1) else chosen
  }

  /** The assignment of the second and third approaches. */
  function SelectSecondOption(): Element -> Element {
    (e: Element) => if IsSelect(e) && |e.options| > 1 then e.(selectedIndex := 1) else e
  }

  /** `select#state`. */
  predicate IsStateSelect(e: Element) {
    IsSelect(e) && e.id == "state"
  }

  function SelectSecondIfStateSelect(): Element -> Element {
    (e: Element) => if IsStateSelect(e) then SelectSecondOption()(e) else e
  }

  /** First approach: the first `#state` of every `shadow-form` tree takes ChooseOption. */
  function StateInEachForm(state: string): Script {
    (body: Node) => Ok(ForEachHost(body, HasTag("shadow-form"), FirstShadowElement(HasId("state"), ChooseOption(state))))
  }

  /** Second approach: the first `#state` of every `shadow-form` tree selects its second option. */
  function StateSecondInEachForm(): Script {
    (body: Node) => Ok(ForEachHost(body, HasTag("shadow-form"), FirstShadowElement(HasId("state"), SelectSecondOption())))
  }

  /** Third approach: every light-DOM `select#state` selects its second option. */
  function StateDirect(): Script {
    (body: Node) => Ok(LightEdit(body, SelectSecondIfStateSelect()))
  }

  function SelectStateInShadowDOM(body: Node, state: string, faults: Faults): (r: Run)
    ensures |r.outcomes| == 3
  {
    RunThree(body, faults, StateInEachForm(state), StateSecondInEachForm(), StateDirect())
  }

  /** With more than one option, the requested text makes no difference: the second
      option ends up selected. */
  lemma ChooseOptionIgnoresText(e: Element, state: string, other: string)
    requires IsSelect(e) && |e.options| > 1
    ensures ChooseOption(state)(e).selectedIndex == 1
    ensures ChooseOption(state)(e) == ChooseOption(other)(e)
  {
  }

  /** With at most one option, the requested text is honoured when it is present and
      the selection is left alone otherwise. */
  lemma ChooseOptionHonoursText(e: Element, state: string)
    requires IsSelect(e) && |e.options| <= 1
    ensures state in e.options ==> ChooseOption(state)(e).selectedIndex == 0
    ensures state !in e.options ==> ChooseOption(state)(e) == e
  {
    if state in e.options {
      assert e.options[0] == state;
    }
  }

  /** A select with more than one option has its second option selected. */
  function SecondSelected(): Element -> bool {
    (e: Element) => IsSelect(e) && |e.options| > 1 ==> e.selectedIndex == 1
  }

  function StateSelectSecond(): Element -> bool {
    (e: Element) => IsStateSelect(e) && |e.options| > 1 ==> e.selectedIndex == 1
  }

  lemma StateSelectsInFormsSecond(body: Node)
    ensures FirstInHostsSatisfies(ForEachHost(body, HasTag("shadow-form"), FirstShadowElement(HasId("state"), SelectSecondOption())),
                                  HasTag("shadow-form"), HasId("state"), SecondSelected())
  {
    FirstShadowElementSatisfies(body, HasTag("shadow-form"), HasId("state"), SelectSecondOption(), SecondSelected());
  }

  lemma StateSelectsDirectSecond(body: Node)
    ensures LightSatisfies(LightEdit(body, SelectSecondIfStateSelect()), StateSelectSecond())
  {
    forall e: Element ensures StateSelectSecond()(SelectSecondIfStateSelect()(e)) {
      if IsStateSelect(e) {
        assert SelectSecondIfStateSelect()(e) == SelectSecondOption()(e);
      }
    }
    LightEditSatisfies(body, SelectSecondIfStateSelect(), StateSelectSecond());
  }

  lemma StateDirectKeepsForms(body: Node)
    requires FirstInHostsSatisfies(body, HasTag("shadow-form"), HasId("state"), SecondSelected())
    ensures FirstInHostsSatisfies(LightEdit(body, SelectSecondIfStateSelect()), HasTag("shadow-form"), HasId("state"), SecondSelected())
  {
    forall x: Element ensures HasTag("shadow-form")(SelectSecondIfStateSelect()(x)) == HasTag("shadow-form")(x) {
      if IsStateSelect(x) {
        assert SelectSecondIfStateSelect()(x) == SelectSecondOption()(x);
      }
    }
    LightEditKeepsHosts(body, SelectSecondIfStateSelect(), HasTag("shadow-form"), HasId("state"), SecondSelected());
  }

  /** Whatever state is requested: unless the driver fails on it, the second approach
      leaves the first `#state` of every `shadow-form` tree on its second option when it
      is a select with more than one, and the third, which runs after it, does not
      touch shadow trees. */
  lemma SelectStateInShadowDOMForms(body: Node, state: string, faults: Faults)
    ensures var r := SelectStateInShadowDOM(body, state, faults);
      !faults.second ==> FirstInHostsSatisfies(r.body, HasTag("shadow-form"), HasId("state"), SecondSelected())
  {
    StateFormsAfterAnyFirst(body, faults, StateInEachForm(state));
  }

  /** Whatever state is requested: unless the driver fails on it, the third approach
      leaves every light-DOM `select#state` with more than one option on its second. */
  lemma SelectStateInShadowDOMDirect(body: Node, state: string, faults: Faults)
    ensures var r := SelectStateInShadowDOM(body, state, faults);
      !faults.third ==> LightSatisfies(r.body, StateSelectSecond())
  {
    StateDirectAfterAnyFirst(body, faults, StateInEachForm(state));
  }

  /** The second and third approaches decide the outcome, whatever the first did. */
  lemma StateFormsAfterAnyFirst(body: Node, faults: Faults, s1: Script)
    ensures var r := RunThree(body, faults, s1, StateSecondInEachForm(), StateDirect());
      !faults.second ==> FirstInHostsSatisfies(r.body, HasTag("shadow-form"), HasId("state"), SecondSelected())
  {
    var s2 := StateSecondInEachForm();
    var s3 := StateDirect();
    RunThreeSteps(body, faults, s1, s2, s3);
    var b1 := Attempt(body, faults.first, s1).0;
    var b2 := Attempt(b1, faults.second, s2).0;
    var b3 := Attempt(b2, faults.third, s3).0;
    if !faults.second {
      StateSecondApproach(b1, b2, b3, faults.third);
    }
  }

  lemma StateDirectAfterAnyFirst(body: Node, faults: Faults, s1: Script)
    ensures var r := RunThree(body, faults, s1, StateSecondInEachForm(), StateDirect());
      !faults.third ==> LightSatisfies(r.body, StateSelectSecond())
  {
    var s2 := StateSecondInEachForm();
    var s3 := StateDirect();
    RunThreeSteps(body, faults, s1, s2, s3);
    var b2 := Attempt(Attempt(body, faults.first, s1).0, faults.second, s2).0;
    if !faults.third {
      assert Attempt(b2, faults.third, s3).0 == LightEdit(b2, SelectSecondIfStateSelect());
      StateSelectsDirectSecond(b2);
    }
  }

  lemma StateSecondApproach(b1: Node, b2: Node, b3: Node, thirdFaulted: bool)
    requires b2 == ForEachHost(b1, HasTag("shadow-form"), FirstShadowElement(HasId("state"), SelectSecondOption()))
    requires b3 == if thirdFaulted then b2 else LightEdit(b2, SelectSecondIfStateSelect())
    ensures FirstInHostsSatisfies(b3, HasTag("shadow-form"), HasId("state"), SecondSelected())
  {
    StateSelectsInFormsSecond(b1);
    if !thirdFaulted {
      StateDirectKeepsForms(b2);
    }
  }

  // ---------------------------------------------------------------------------
  // InteractWithNestedShadowDOM

  /** Rewrite the shadow tree of the first element matching `p`, when its shadow root
      is open: a `querySelector` for a host followed by work in its shadow root. */
  function InFirstHost(p: Element -> bool, g: seq<Node> -> seq<Node>): seq<Node> -> seq<Node> {
    (ns: seq<Node>) => RewriteFirstHost(ns, p, g)
  }

  function RewriteFirstHost(ns: seq<Node>, p: Element -> bool, g: seq<Node> -> seq<Node>): (r: seq<Node>)
    ensures |r| == |ns|
  {
    UpdateFirst(ns, p, InShadowOf(AnyElement(), g)).0
  }

  /** The first approach's write: `nestedshadow-form`, then its `shadow-form`, then
      the first match of the selector, which takes the value. */
  function PrimaryWrite(body: Node, sel: Selector, v: string): Node {
    var inner := InFirstHost(HasTag("shadow-form"), FirstShadowElement(sel.test, SetValue(v)));
    RewriteFirstHost([body], HasTag("nestedshadow-form"), inner)[0]
  }

  /** The `shadow-form` inside the first `nestedshadow-form`, when both shadow roots
      on the way are open: the first script's two guarded steps. */
  function InnerHost(body: Node): (r: Option<Node>)
    ensures r.Some? ==> r.value.shadow.Open?
  {
    match QuerySelector([body], HasTag("nestedshadow-form"))
    case None => None
    case Some(host) =>
      if !host.shadow.Open? then None
      else match QuerySelector(host.shadow.roots, HasTag("shadow-form"))
        case None => None
        case Some(inner) => if inner.shadow.Open? then Some(inner) else None
  }

  /** First approach: the fixed two-host path. Each step is guarded against a missing
      host or a closed one; only the last query, with the caller's selector, can throw. */
  function PrimaryOn(body: Node, sel: Selector, v: string): Result<Node, ScriptError> {
    if InnerHost(body).None? then Ok(body)
    else if !sel.valid then Err(SyntaxError)
    else Ok(PrimaryWrite(body, sel, v))
  }

  function NestedPrimary(sel: Selector, v: string): Script {
    (body: Node) => PrimaryOn(body, sel, v)
  }

  /** Second approach: for every open host of the document and every element of its
      shadow tree that has an open shadow root, the first match of the selector there
      takes the value if it is an INPUT. A rejected selector is caught per element. */
  function NestedSecondary(sel: Selector, v: string): Script {
    (body: Node) => Ok(ForEachHost(body, AnyElement(), SecondLevel(sel, v)))
  }

  function SecondLevel(sel: Selector, v: string): seq<Node> -> seq<Node> {
    InnerHosts(FirstShadowElement(Hits(sel), SetIfInput(v)))
  }

  /** Third approach: the depth-bounded traversal from the body. Its boolean result is
      discarded. */
  function NestedDeep(sel: Selector, v: string): Script {
    (body: Node) => Ok(SetDeepShadowInput(body, sel, v).0)
  }

  /** InteractWithNestedShadowDOM(elementSelector, value). The probe script that lists
      shadow hosts runs outside the approaches' try blocks: when the driver fails on
      it, the outer catch swallows the exception and no approach runs. */
  function InteractWithNestedShadowDOM(body: Node, sel: Selector, v: string, probeFaulted: bool, faults: Faults): (r: Run)
    ensures |r.outcomes| == 3
    ensures probeFaulted <==> r.outcomes[0] == Skipped
    ensures probeFaulted ==> r == Run(body, [Skipped, Skipped, Skipped])
  {
    if probeFaulted then Run(body, [Skipped, Skipped, Skipped])
    else RunThree(body, faults, NestedPrimary(sel, v), NestedSecondary(sel, v), NestedDeep(sel, v))
  }

  /** The first approach throws exactly when the two-host descent, done as the nested
      lookup does it from the outer host, rejects the caller's selector. */
  lemma NestedPrimaryThrows(body: Node, sel: Selector, v: string)
    ensures var host := QuerySelector([body], HasTag("nestedshadow-form"));
      PrimaryOn(body, sel, v).Err? <==>
        host.Some? && FindElementInNestedShadowDOM(host.value, [TagSelector("shadow-form"), sel]) == Err(SyntaxError)
  {
    var host := QuerySelector([body], HasTag("nestedshadow-form"));
    if host.Some? {
      InnerHostDescent(body, sel);
      if InnerHost(body).Some? {
        OneStepDescent(InnerHost(body).value, sel);
      }
    }
  }

  /** The nested lookup's descent from the outer host reaches the caller's selector
      exactly when the first script's guards pass, and throws a TypeError otherwise. */
  lemma InnerHostDescent(body: Node, sel: Selector)
    requires QuerySelector([body], HasTag("nestedshadow-form")).Some?
    ensures var host := QuerySelector([body], HasTag("nestedshadow-form")).value;
      FindElementInNestedShadowDOM(host, [TagSelector("shadow-form"), sel]) ==
        if InnerHost(body).Some? then Descend(InnerHost(body), [sel]) else Err(TypeError)
  {
    var host := QuerySelector([body], HasTag("nestedshadow-form")).value;
    if host.shadow.Open? {
      TwoStepDescent(host, sel);
    }
  }

  lemma TwoStepDescent(host: Node, sel: Selector)
    requires host.shadow.Open?
    ensures FindElementInNestedShadowDOM(host, [TagSelector("shadow-form"), sel]) ==
      Descend(QuerySelector(host.shadow.roots, HasTag("shadow-form")), [sel])
  {
    var sels := [TagSelector("shadow-form"), sel];
    assert sels[1..] == [sel];
  }

  lemma OneStepDescent(inner: Node, sel: Selector)
    requires inner.shadow.Open?
    ensures Descend(Some(inner), [sel]) ==
      if sel.valid then Ok(QuerySelector(inner.shadow.roots, sel.test)) else Err(SyntaxError)
  {
    assert [sel][1..] == [];
  }


  /** A missing host, a closed shadow root on the way, or no match: the first approach
      changes nothing. */
  lemma NestedPrimaryIdle(body: Node, sel: Selector, v: string)
    requires QuerySelector([body], HasTag("nestedshadow-form")).Some?
    requires var host := QuerySelector([body], HasTag("nestedshadow-form")).value;
      var d := FindElementInNestedShadowDOM(host, [TagSelector("shadow-form"), sel]);
      d == Ok(None) || d == Err(TypeError)
    ensures PrimaryOn(body, sel, v) == Ok(body)
  {
    InnerHostDescent(body, sel);
    if InnerHost(body).Some? {
      var inner := InnerHost(body).value;
      OneStepDescent(inner, sel);
      PrimaryWriteIdle(body, sel, v);
    }
  }

  /** With nothing to assign to, the rewrite along the two-host path is the identity. */
  lemma PrimaryWriteIdle(body: Node, sel: Selector, v: string)
    requires InnerHost(body).Some?
    requires QuerySelector(InnerHost(body).value.shadow.roots, sel.test).None?
    ensures PrimaryWrite(body, sel, v) == body
  {
    var host := QuerySelector([body], HasTag("nestedshadow-form")).value;
    var innerRoots := InnerHost(body).value.shadow.roots;
    var last := FirstShadowElement(sel.test, SetValue(v));
    UpdateFirstFinds(innerRoots, sel.test, Lift(SetValue(v)));
    UpdateFirstIdle(innerRoots, sel.test, Lift(SetValue(v)));
    assert last(innerRoots) == innerRoots;
    HostIdle(host.shadow.roots, HasTag("shadow-form"), last);
    HostIdle([body], HasTag("nestedshadow-form"), InFirstHost(HasTag("shadow-form"), last));
  }

  /** Rewriting the shadow tree of the first host with a rewrite that leaves that tree
      alone leaves everything alone. */
  lemma HostIdle(ns: seq<Node>, p: Element -> bool, g: seq<Node> -> seq<Node>)
    requires var h := QuerySelector(ns, p);
      h.Some? && h.value.shadow.Open? ==> g(h.value.shadow.roots) == h.value.shadow.roots
    ensures RewriteFirstHost(ns, p, g) == ns
  {
    UpdateFirstFinds(ns, p, InShadowOf(AnyElement(), g));
    UpdateFirstIdle(ns, p, InShadowOf(AnyElement(), g));
  }

  /** Querying again for the host whose shadow tree was rewritten finds it, carrying
      the rewritten tree. */
  lemma HostRequery(ns: seq<Node>, p: Element -> bool, g: seq<Node> -> seq<Node>)
    requires QuerySelector(ns, p).Some? && QuerySelector(ns, p).value.shadow.Open?
    ensures var h := QuerySelector(ns, p).value;
      QuerySelector(RewriteFirstHost(ns, p, g), p) == Some(h.(shadow := Open(g(h.shadow.roots))))
  {
    UpdateFirstFinds(ns, p, InShadowOf(AnyElement(), g));
    UpdateFirstRequery(ns, p, InShadowOf(AnyElement(), g));
  }

  /** The two-host path of the rewritten document leads to the inner host, carrying
      its rewritten shadow tree. */
  lemma PrimaryWritePath(body: Node, sel: Selector, v: string)
    requires InnerHost(body).Some?
    ensures var inner := InnerHost(body).value;
      InnerHost(PrimaryWrite(body, sel, v)) ==
        Some(inner.(shadow := Open(FirstShadowElement(sel.test, SetValue(v))(inner.shadow.roots))))
  {
    var host := QuerySelector([body], HasTag("nestedshadow-form")).value;
    var inner := InnerHost(body).value;
    var last := FirstShadowElement(sel.test, SetValue(v));
    var g := InFirstHost(HasTag("shadow-form"), last);
    PrimaryWriteOuter(body, sel, v);
    HostRequery(host.shadow.roots, HasTag("shadow-form"), last);
    assert g(host.shadow.roots) == RewriteFirstHost(host.shadow.roots, HasTag("shadow-form"), last);
    InnerHostIs(PrimaryWrite(body, sel, v), host.(shadow := Open(g(host.shadow.roots))),
      inner.(shadow := Open(last(inner.shadow.roots))));
  }

  lemma InnerHostIs(body: Node, host: Node, inner: Node)
    requires QuerySelector([body], HasTag("nestedshadow-form")) == Some(host) && host.shadow.Open?
    requires QuerySelector(host.shadow.roots, HasTag("shadow-form")) == Some(inner) && inner.shadow.Open?
    ensures InnerHost(body) == Some(inner)
  {
  }

  lemma PrimaryWriteOuter(body: Node, sel: Selector, v: string)
    requires InnerHost(body).Some?
    ensures var host := QuerySelector([body], HasTag("nestedshadow-form")).value;
      var g := InFirstHost(HasTag("shadow-form"), FirstShadowElement(sel.test, SetValue(v)));
      QuerySelector([PrimaryWrite(body, sel, v)], HasTag("nestedshadow-form")) == Some(host.(shadow := Open(g(host.shadow.roots))))
  {
    var g := InFirstHost(HasTag("shadow-form"), FirstShadowElement(sel.test, SetValue(v)));
    DocumentRequery(body, HasTag("nestedshadow-form"), g);
  }

  /** HostRequery for a document given as its body. */
  lemma DocumentRequery(body: Node, p: Element -> bool, g: seq<Node> -> seq<Node>)
    requires QuerySelector([body], p).Some? && QuerySelector([body], p).value.shadow.Open?
    ensures var h := QuerySelector([body], p).value;
      QuerySelector([RewriteFirstHost([body], p, g)[0]], p) == Some(h.(shadow := Open(g(h.shadow.roots))))
  {
    HostRequery([body], p, g);
    var r := RewriteFirstHost([body], p, g);
    assert [r[0]] == r;
  }

  /** When the nested lookup finds the target, the first approach assigns the value to
      the first match in the inner host's shadow tree and to nothing else there; the
      path to that tree survives the assignment. */
  lemma NestedPrimaryWrites(body: Node, sel: Selector, v: string)
    requires QuerySelector([body], HasTag("nestedshadow-form")).Some?
    requires var host := QuerySelector([body], HasTag("nestedshadow-form")).value;
      var d := FindElementInNestedShadowDOM(host, [TagSelector("shadow-form"), sel]);
      d.Ok? && d.value.Some?
    ensures PrimaryOn(body, sel, v).Ok?
    ensures var after := PrimaryOn(body, sel, v).value;
      && InnerHost(body).Some? && InnerHost(after).Some?
      && InnerHost(after).value.el == InnerHost(body).value.el
      && EditsFirst(Elements(InnerHost(body).value.shadow.roots), Elements(InnerHost(after).value.shadow.roots), sel.test, SetValue(v))
  {
    InnerHostDescent(body, sel);
    var inner := InnerHost(body).value;
    OneStepDescent(inner, sel);
    PrimaryWritePath(body, sel, v);
    UpdateFirstElements(inner.shadow.roots, sel.test, SetValue(v));
  }

  /** The property the second and third approaches establish: an INPUT holds `v`. */
  function InputHolds(v: string): Element -> bool {
    (e: Element) => e.tag == "input" ==> e.value == Some(v)
  }

  /** After the second approach, in every shadow tree one host below an open host of
      the document, the first match of the selector holds the value if it is an INPUT.
      Assigning the value property cannot change what a selector matches. */
  lemma NestedSecondaryHolds(body: Node, sel: Selector, v: string)
    requires forall e :: sel.test(SetValue(v)(e)) == sel.test(e)
    ensures NestedSecondary(sel, v)(body).Ok?
    ensures FirstInInnerHostsSatisfies(NestedSecondary(sel, v)(body).value, Hits(sel), InputHolds(v))
  {
    SetIfInputKeepsHits(sel, v);
    InnerFirstShadowElementSatisfies(body, Hits(sel), SetIfInput(v), InputHolds(v));
  }

  lemma SetIfInputKeepsHits(sel: Selector, v: string)
    requires forall e :: sel.test(SetValue(v)(e)) == sel.test(e)
    ensures forall e {:trigger SetIfInput(v)(e)} :: Hits(sel)(SetIfInput(v)(e)) == Hits(sel)(e) && InputHolds(v)(SetIfInput(v)(e))
  {
    forall e
      ensures Hits(sel)(SetIfInput(v)(e)) == Hits(sel)(e) && InputHolds(v)(SetIfInput(v)(e))
    {
      if e.tag == "input" {
        assert SetIfInput(v)(e) == SetValue(v)(e);
      }
    }
  }

  /** A selector the browser rejects is caught for each inner host: the second
      approach completes and changes nothing. */
  lemma NestedSecondaryIdle(body: Node, sel: Selector, v: string)
    requires !sel.valid
    ensures NestedSecondary(sel, v)(body) == Ok(body)
  {
    var last := FirstShadowElement(Hits(sel), SetIfInput(v));
    forall roots
      ensures last(roots) == roots
    {
      UpdateFirstFinds(roots, Hits(sel), Lift(SetIfInput(v)));
      UpdateFirstIdle(roots, Hits(sel), Lift(SetIfInput(v)));
    }
    forall roots
      ensures SecondLevel(sel, v)(roots) == roots
    {
      MapLightIdle(roots, InShadowOf(AnyElement(), last));
    }
    MapLightIdle([body], InShadowOf(AnyElement(), SecondLevel(sel, v)));
  }

  /** Once the probe has run, all three approaches run in order: the first throws only
      on a selector the nested lookup would reject too, the other two catch everything
      the page can cause. */
  lemma InteractWithNestedShadowDOMOutcomes(body: Node, sel: Selector, v: string, faults: Faults)
    ensures var r := InteractWithNestedShadowDOM(body, sel, v, false, faults);
      var host := QuerySelector([body], HasTag("nestedshadow-form"));
      r.outcomes[0] == (if faults.first then Threw(DriverFault)
        else if host.Some? && FindElementInNestedShadowDOM(host.value, [TagSelector("shadow-form"), sel]) == Err(SyntaxError)
        then Threw(SyntaxError) else Completed)
    ensures var r := InteractWithNestedShadowDOM(body, sel, v, false, faults);
      && (r.outcomes[1] == Completed <==> !faults.second)
      && (r.outcomes[2] == Completed <==> !faults.third)
  {
    var s1 := NestedPrimary(sel, v);
    RunThreeSteps(body, faults, s1, NestedSecondary(sel, v), NestedDeep(sel, v));
    NestedFirstOutcome(body, sel, v, faults.first);
    NestedLaterComplete(Attempt(body, faults.first, s1).0, sel, v);
  }

  lemma NestedFirstOutcome(body: Node, sel: Selector, v: string, fault: bool)
    ensures var host := QuerySelector([body], HasTag("nestedshadow-form"));
      Attempt(body, fault, NestedPrimary(sel, v)).1 == (if fault then Threw(DriverFault)
        else if host.Some? && FindElementInNestedShadowDOM(host.value, [TagSelector("shadow-form"), sel]) == Err(SyntaxError)
        then Threw(SyntaxError) else Completed)
  {
    NestedPrimaryThrows(body, sel, v);
  }

  lemma NestedLaterComplete(body: Node, sel: Selector, v: string)
    ensures NestedSecondary(sel, v)(body).Ok?
    ensures NestedDeep(sel, v)(NestedSecondary(sel, v)(body).value).Ok?
  {
  }

  /** The third approach assigns to the first match the depth-bounded traversal
      inspects in the document the first two approaches left, and to nothing else it
      inspects; a driver fault on it leaves that document as it was. */
  lemma InteractWithNestedShadowDOMDeep(body: Node, sel: Selector, v: string, faults: Faults)
    ensures var a1 := Attempt(body, faults.first, NestedPrimary(sel, v));
      var a2 := Attempt(a1.0, faults.second, NestedSecondary(sel, v));
      var r := InteractWithNestedShadowDOM(body, sel, v, false, faults);
      && (!faults.third ==> EditsFirst(Reach(a2.0, 0, MaxDepth), Reach(r.body, 0, MaxDepth), Hits(sel), SetIfInput(v)))
      && (faults.third ==> r.body == a2.0)
  {
    var s1 := NestedPrimary(sel, v);
    var s2 := NestedSecondary(sel, v);
    var s3 := NestedDeep(sel, v);
    RunThreeSteps(body, faults, s1, s2, s3);
    var a1 := Attempt(body, faults.first, s1);
    NestedDeepStep(Attempt(a1.0, faults.second, s2).0, sel, v, faults.third);
  }

  lemma NestedDeepStep(mid: Node, sel: Selector, v: string, fault: bool)
    ensures var after := Attempt(mid, fault, NestedDeep(sel, v)).0;
      && (!fault ==> EditsFirst(Reach(mid, 0, MaxDepth), Reach(after, 0, MaxDepth), Hits(sel), SetIfInput(v)))
      && (fault ==> after == mid)
  {
    SetDeepShadowInputWrites(mid, sel, v);
  }
}

=== FILE: options.dfy ===
/** Optional values and results shared by every module of the model. */
module Options {

  /** A value that may be missing: `None` plays the part of C#/JavaScript `null`. */
  datatype Option<+T> = None | Some(value: T) {

    /** The value, or `default` when missing: the `??` operator of C#. */
    function GetOr(default: T): T {
      match this
      case Some(v) => v
      case None => default
    }
  }

  /** The outcome of an operation that may throw: `Err` carries the exception. */
  datatype Result<+T, +E> = Ok(value: T) | Err(error: E)
}

=== FILE: resolver.dfy ===
/** The ordered-fallback element resolver (FindElementSafely): strategies are
    tried in order, the first element that passes the Displayed && Enabled wait is
    returned, and when all fail a NoSuchElementException carries the last failure. */
module Resolver {
  import opened Options

  /** What invoking one strategy produced: it threw, or it returned an element
      that then did (`interactable`) or did not pass the Displayed && Enabled wait. */
  datatype Attempt<E, X> = Throws(error: X) | Found(element: E, interactable: bool) {
    predicate Succeeds() {
      Found? && interactable
    }
  }

  /** The exception a failed attempt leaves in `lastException`: the strategy's own,
      or the WebDriverTimeoutException of the wait. */
  datatype Failure<X> = Raised(error: X) | WaitTimedOut

  function FailureOf<E, X>(a: Attempt<E, X>): Failure<X>
    requires !a.Succeeds()
  {
    if a.Throws? then Raised(a.error) else WaitTimedOut
  }

  /** The resolver's outcome and how many strategies it invoked. `NoSuchElement`
      is the NoSuchElementException, `inner` its InnerException. */
  datatype Resolution<E, X> =
    | Resolved(element: E, invoked: nat)
    | NoSuchElement(inner: Option<Failure<X>>, invoked: nat)

  /** The resolver's contract: the element of the first succeeding strategy, with no
      later strategy invoked; or, when none succeeds, every strategy invoked and the
      last one's failure (none for an empty list) as inner exception. */
  ghost predicate ResolvesTo<E, X>(s: seq<Attempt<E, X>>, r: Resolution<E, X>) {
    match r
    case Resolved(e, n) =>
      && 0 < n <= |s|
      && s[n - 1].Succeeds() && s[n - 1].element == e
      && forall j | 0 <= j < n - 1 :: !s[j].Succeeds()
    case NoSuchElement(inner, n) =>
      && n == |s|
      && (forall j | 0 <= j < |s| :: !s[j].Succeeds())
      && inner == if |s| == 0 then None else Some(FailureOf(s[|s| - 1]))
  }

  /** The contract pins the outcome down completely. */
  lemma ResolutionUnique<E, X>(s: seq<Attempt<E, X>>, r1: Resolution<E, X>, r2: Resolution<E, X>)
    requires ResolvesTo(s, r1) && ResolvesTo(s, r2)
    ensures r1 == r2
  {
  }

  /** FindElementSafely itself: the foreach loop with its `lastException`. */
  method FindElementSafely<E, X>(strategies: seq<Attempt<E, X>>) returns (r: Resolution<E, X>)
    ensures ResolvesTo(strategies, r)
    ensures r == Resolve(strategies)
  {
    var lastException: Option<Failure<X>> := None;
    var i := 0;
    while i < |strategies|
      invariant 0 <= i <= |strategies|
      invariant forall j | 0 <= j < i :: !strategies[j].Succeeds()
      invariant lastException == if i == 0 then None else Some(FailureOf(strategies[i - 1]))
    {
      match strategies[i] {
        case Found(element, true) =>
          r := Resolved(element, i + 1);
          ResolutionUnique(strategies, r, Resolve(strategies));
          return;
        case Found(_, false) =>
          lastException := Some(WaitTimedOut);
        case Throws(ex) =>
          lastException := Some(Raised(ex));
      }
      i := i + 1;
    }
    r := NoSuchElement(lastException, |strategies|);
    ResolutionUnique(strategies, r, Resolve(strategies));
  }

  /** The same resolver as a fold, for use inside the pure field operations. */
  function Resolve<E, X>(s: seq<Attempt<E, X>>): (r: Resolution<E, X>)
    ensures ResolvesTo(s, r)
  {
    if |s| == 0 then NoSuchElement(None, 0)
    else if s[0].Succeeds() then Resolved(s[0].element, 1)
    else
      match Resolve(s[1..])
      case Resolved(e, n) => Resolved(e, n + 1)
      case NoSuchElement(inner, n) =>
        NoSuchElement(if |s| == 1 then Some(FailureOf(s[0])) else inner, n + 1)
  }

  /** Strategies after the one that succeeds are never invoked: appending more
      strategies does not change a successful resolution. */
  lemma {:induction false} LaterStrategiesIrrelevant<E, X>(s: seq<Attempt<E, X>>, t: seq<Attempt<E, X>>)
    requires Resolve(s).Resolved?
    ensures Resolve(s + t) == Resolve(s)
  {
    var r := Resolve(s);
    var j := r.invoked - 1;
    assert (s + t)[j] == s[j];
    forall i | 0 <= i < j ensures !(s + t)[i].Succeeds() {
      assert (s + t)[i] == s[i];
    }
    ResolutionUnique(s + t, Resolve(s + t), r);
  }

  /** When every strategy of `s` fails, the resolver goes on to `t`, counting the
      strategies of `s` as invoked; the inner exception is the last failure overall. */
  lemma {:induction false} FailedStrategiesFallThrough<E, X>(s: seq<Attempt<E, X>>, t: seq<Attempt<E, X>>)
    requires Resolve(s).NoSuchElement?
    requires |t| > 0
    ensures Resolve(s + t) == match Resolve(t)
      case Resolved(e, n) => Resolved(e, n + |s|)
      case NoSuchElement(inner, n) => NoSuchElement(inner, n + |s|)
  {
    var rt := Resolve(t);
    var expected := match rt
      case Resolved(e, n) => Resolved(e, n + |s|)
      case NoSuchElement(inner, n) => NoSuchElement(inner, n + |s|);
    forall i | 0 <= i < |s| ensures !(s + t)[i].Succeeds() {
      assert (s + t)[i] == s[i];
    }
    forall i | 0 <= i < |t| ensures (s + t)[|s| + i] == t[i] {
    }
    if rt.Resolved? {
      assert (s + t)[|s| + rt.invoked - 1] == t[rt.invoked - 1];
      forall i | 0 <= i < |s| + rt.invoked - 1 ensures !(s + t)[i].Succeeds() {
        if i >= |s| { assert (s + t)[i] == t[i - |s|]; }
      }
    } else {
      assert (s + t)[|s + t| - 1] == t[|t| - 1];
      forall i | 0 <= i < |s + t| ensures !(s + t)[i].Succeeds() {
        if i >= |s| { assert (s + t)[i] == t[i - |s|]; }
      }
    }
    ResolutionUnique(s + t, Resolve(s + t), expected);
  }
}

=== FILE: seqs.dfy ===
/** Sequence helpers: first-match search and pointwise mapping. */
module Seqs {
  import opened Options

  /** Index of the first element satisfying `p`, scanning left to right. */
  function FirstIndex<T>(s: seq<T>, p: T -> bool): (r: Option<nat>)
    ensures r.Some? ==> r.value < |s| && p(s[r.value])
    ensures r.Some? ==> forall j | 0 <= j < r.value :: !p(s[j])
    ensures r.None? <==> forall j | 0 <= j < |s| :: !p(s[j])
  {
    if |s| == 0 then None
    else if p(s[0]) then Some(0)
    else match FirstIndex(s[1..], p)
      case None => None
      case Some(k) => Some(k + 1)
  }

  /** The first element satisfying `p`, if any. */
  function First<T>(s: seq<T>, p: T -> bool): (r: Option<T>)
    ensures r.Some? ==> r.value in s && p(r.value)
    ensures r.None? <==> forall j | 0 <= j < |s| :: !p(s[j])
  {
    match FirstIndex(s, p)
    case None => None
    case Some(k) => Some(s[k])
  }

  /** `f` applied to every element, in order. */
  function Map<A, B>(s: seq<A>, f: A -> B): (r: seq<B>)
    ensures |r| == |s|
    ensures forall i | 0 <= i < |s| :: r[i] == f(s[i])
  {
    seq(|s|, i requires 0 <= i < |s| => f(s[i]))
  }

  lemma MapConcat<A, B>(a: seq<A>, b: seq<A>, f: A -> B)
    ensures Map(a + b, f) == Map(a, f) + Map(b, f)
  {
    assert forall i | 0 <= i < |a + b| :: Map(a + b, f)[i] == (Map(a, f) + Map(b, f))[i];
  }

  /** Searching a concatenation finds the first match of the left part, and only
      falls through to the right part when the left part has none. */
  lemma FirstIndexConcat<T>(a: seq<T>, b: seq<T>, p: T -> bool)
    ensures FirstIndex(a + b, p) == match FirstIndex(a, p)
      case Some(k) => Some(k)
      case None => match FirstIndex(b, p) case Some(k) => Some(|a| + k) case None => None
  {
    var ia := FirstIndex(a, p);
    var iab := FirstIndex(a + b, p);
    if ia.Some? {
      assert (a + b)[ia.value] == a[ia.value];
    } else {
      var ib := FirstIndex(b, p);
      forall j | 0 <= j < |a| ensures !p((a + b)[j]) {
        assert (a + b)[j] == a[j];
      }
      if ib.Some? {
        assert (a + b)[|a| + ib.value] == b[ib.value];
        assert (a + b)[iab.value] == b[iab.value - |a|];
      } else {
        forall j | 0 <= j < |a + b| ensures !p((a + b)[j]) {
          if j >= |a| { assert (a + b)[j] == b[j - |a|]; }
        }
      }
    }
  }

  lemma FirstConcat<T>(a: seq<T>, b: seq<T>, p: T -> bool)
    ensures First(a + b, p) == if First(a, p).Some? then First(a, p) else First(b, p)
  {
    FirstIndexConcat(a, b, p);
    var ia := FirstIndex(a, p);
    if ia.Some? {
      assert (a + b)[ia.value] == a[ia.value];
    } else if FirstIndex(b, p).Some? {
      assert (a + b)[|a| + FirstIndex(b, p).value] == b[FirstIndex(b, p).value];
    }
  }

  /** `after` is `before` with `f` applied to the first element satisfying `p`, and
      equal to it when none does: what `querySelector` followed by one assignment does. */
  ghost predicate EditsFirst<T>(before: seq<T>, after: seq<T>, p: T -> bool, f: T -> T) {
    match FirstIndex(before, p)
    case None => after == before
    case Some(k) => after == before[k := f(before[k])]
  }

  /** Editing the first match of a concatenation edits the left part when it has a
      match, and the right part otherwise. */
  lemma EditsFirstConcat<T>(a: seq<T>, a': seq<T>, b: seq<T>, b': seq<T>, p: T -> bool, f: T -> T)
    requires EditsFirst(a, a', p, f)
    requires FirstIndex(a, p).Some? ==> b' == b
    requires FirstIndex(a, p).None? ==> EditsFirst(b, b', p, f)
    ensures EditsFirst(a + b, a' + b', p, f)
  {
    FirstIndexConcat(a, b, p);
    match FirstIndex(a, p) {
      case Some(k) =>
        assert (a + b)[k] == a[k];
        assert (a + b)[k := f(a[k])] == a[k := f(a[k])] + b;
      case None =>
        match FirstIndex(b, p) {
          case None =>
          case Some(k) =>
            assert (a + b)[|a| + k] == b[k];
            assert (a + b)[|a| + k := f(b[k])] == a + b[k := f(b[k])];
        }
    }
  }

  /** EditsFirst on a tree laid out in preorder: the root, its subtree, then the rest. */
  lemma EditsFirstPreorder<T>(x: T, x': T, c: seq<T>, c': seq<T>, rest: seq<T>, rest': seq<T>, p: T -> bool, f: T -> T)
    requires p(x) ==> x' == f(x) && c' == c && rest' == rest
    requires !p(x) ==> x' == x && EditsFirst(c, c', p, f)
    requires !p(x) && FirstIndex(c, p).Some? ==> rest' == rest
    requires !p(x) && FirstIndex(c, p).None? ==> EditsFirst(rest, rest', p, f)
    ensures EditsFirst([x] + c + rest, [x'] + c' + rest', p, f)
  {
    assert FirstIndex([x], p) == if p(x) then Some(0) else None by {
      assert [x][0] == x;
    }
    if p(x) {
      assert EditsFirst([x], [x'], p, f) by {
        assert [x][0 := f(x)] == [x'];
      }
    }
    EditsFirstConcat([x], [x'], c, c', p, f);
    FirstIndexConcat([x], c, p);
    EditsFirstConcat([x] + c, [x'] + c', rest, rest', p, f);
  }

  /** Mapping commutes with editing the first match, when the edit and the test
      are compatible with the map. */
  lemma EditsFirstMap<A, B>(a: seq<A>, a': seq<A>, p: A -> bool, f: A -> A,
                            g: A -> B, q: B -> bool, e: B -> B)
    requires EditsFirst(a, a', p, f)
    requires forall x :: p(x) == q(g(x))
    requires forall x :: g(f(x)) == e(g(x))
    ensures EditsFirst(Map(a, g), Map(a', g), q, e)
  {
    var ma := Map(a, g);
    assert forall i | 0 <= i < |a| :: p(a[i]) == q(ma[i]);
    match FirstIndex(a, p) {
      case None =>
        assert FirstIndex(ma, q).None?;
      case Some(k) =>
        assert FirstIndex(ma, q) == Some(k) by {
          assert q(ma[k]);
        }
        assert Map(a', g) == ma[k := e(ma[k])];
    }
  }

  /** Searching a mapped sequence is searching the original with the composed test. */
  lemma FirstIndexMap<A, B>(s: seq<A>, g: A -> B, q: B -> bool, p: A -> bool)
    requires forall x :: p(x) == q(g(x))
    ensures FirstIndex(Map(s, g), q) == FirstIndex(s, p)
  {
    var ms := Map(s, g);
    assert forall i | 0 <= i < |s| :: q(ms[i]) == p(s[i]);
    match FirstIndex(s, p) {
      case None =>
      case Some(k) =>
        assert q(ms[k]);
    }
  }

  /** EditsFirst on three consecutive parts: the first part with a match takes the
      edit, the parts before it have none, the parts after it are left alone. */
  lemma EditsFirstThree<T>(a: seq<T>, a': seq<T>, b: seq<T>, b': seq<T>, c: seq<T>, c': seq<T>, p: T -> bool, f: T -> T)
    requires EditsFirst(a, a', p, f)
    requires FirstIndex(a, p).Some? ==> b' == b && c' == c
    requires FirstIndex(a, p).None? ==> EditsFirst(b, b', p, f)
    requires FirstIndex(a, p).None? && FirstIndex(b, p).Some? ==> c' == c
    requires FirstIndex(a, p).None? && FirstIndex(b, p).None? ==> EditsFirst(c, c', p, f)
    ensures EditsFirst(a + b + c, a' + b' + c', p, f)
  {
    EditsFirstConcat(a, a', b, b', p, f);
    FirstIndexConcat(a, b, p);
    EditsFirstConcat(a + b, a' + b', c, c', p, f);
  }

  /** After editing the first match with an edit that keeps the match, the first match
      is the edited element. */
  lemma EditsFirstKeepsFirst<T>(a: seq<T>, a': seq<T>, p: T -> bool, f: T -> T)
    requires EditsFirst(a, a', p, f)
    requires forall x :: p(f(x)) == p(x)
    ensures First(a', p) == match First(a, p) case None => None case Some(x) => Some(f(x))
  {
    match FirstIndex(a, p) {
      case None =>
      case Some(k) =>
        assert a'[k] == f(a[k]);
        assert forall j | 0 <= j < k :: a'[j] == a[j];
        assert FirstIndex(a', p) == Some(k);
    }
  }

  /** Every element of a mapped sequence is the image of an element of the original. */
  lemma MapMember<A, B>(s: seq<A>, f: A -> B, y: B) returns (x: A)
    requires y in Map(s, f)
    ensures x in s && y == f(x)
  {
    var i :| 0 <= i < |s| && Map(s, f)[i] == y;
    x := s[i];
  }
}

=== FILE: text.dfy ===
/** String operations the page object and its scripts rely on. Case conversion is
    modelled for ASCII letters only. */
module Text {

  function LowerChar(c: char): char {
    if 'A' <= c <= 'Z' then (c as int + 32) as char else c
  }

  /** C# `ToLower()` and JavaScript `toLowerCase()`, restricted to ASCII letters. */
  function ToLower(s: string): (r: string)
    ensures |r| == |s|
    ensures forall i | 0 <= i < |s| :: r[i] == LowerChar(s[i])
  {
    seq(|s|, i requires 0 <= i < |s| => LowerChar(s[i]))
  }

  /** `a.toLowerCase() === b.toLowerCase()`. */
  predicate EqualsIgnoreCase(a: string, b: string) {
    ToLower(a) == ToLower(b)
  }

  /** C# `s.StartsWith("#")`. */
  predicate StartsWithHash(s: string) {
    |s| > 0 && s[0] == '#'
  }

  /** JavaScript `s.replace(c, '')` with a one-character string pattern: only the
      first occurrence is removed. */
  function RemoveFirst(s: string, c: char): (r: string)
    ensures c !in s ==> r == s
    ensures c in s ==> |r| == |s| - 1
  {
    if |s| == 0 then s
    else if s[0] == c then s[1..]
    else [s[0]] + RemoveFirst(s[1..], c)
  }

  /** What is removed is the first occurrence, and nothing else. */
  lemma {:induction false} RemoveFirstAt(s: string, c: char, k: nat)
    requires k < |s| && s[k] == c && c !in s[..k]
    ensures RemoveFirst(s, c) == s[..k] + s[k + 1..]
  {
    if k > 0 {
      assert s[0] in s[..k];
      assert s[1..][..k - 1] == s[1..k];
      RemoveFirstAt(s[1..], c, k - 1);
      assert s[..k] == [s[0]] + s[1..k];
    }
  }

  /** Decimal text of a single digit, as C# string interpolation prints it. */
  function DigitText(n: nat): (r: string)
    requires n < 10
    ensures |r| == 1 && '0' <= r[0] <= '9'
  {
    [('0' as int + n) as char]
  }
}
